=== FILE: README.md ===
# Campaign portal core in Dafny

A model of the core of a small messaging-campaign portal. Users upload recipient lists as CSV or
Excel files, build campaigns (name, message template, SMS and/or WhatsApp, chosen recipients) in
a three-step wizard, and execute them. Executing a campaign moves its status from draft to
sending to completed. Each recipient gets a personalised message on every chosen channel, with
retries and exponential backoff. Errors are turned into user-facing texts and logged to the
activity log, which a logs page filters and labels.

The project has one module per source file. Shared pieces sit in three helper modules:
`Common` (options and thrown values), `Text` (the JavaScript string operations used: trim,
`\s`, `includes`, `split`/`join`, `replace` with its `$` patterns) and `Seqs` (filter,
subsequence, dedup).

- `Firestore` models the store documents and the store calls the core makes.
- `ErrorHandler` models `AppError`, the friendly messages, `handleError`, `withErrorHandling` and
  the three validators.
- `FileProcessor` models `parseCSV`, the import of `processRecipients` and the dispatch of
  `processFile`.
- `Messaging` models the two provider gateways, `sendMessageWithRetry` and the template
  personalisation.
- `Execution` models `executeCampaign`.
- `CreateCampaign`, `UploadRecipients` and `LogsViewer` model the state logic of the wizard, the
  upload dialog and the logs page.

Everything outside the program is a parameter:
- provider replies, as a function of document, method and attempt;
- each store call's failure, if any, and what a write to a missing campaign document throws;
- the document ids the store assigns;
- the instant `Timestamp.now()` reports;
- the text a file reader produced;
- the number of timer ticks.

Pauses (`setTimeout`) and `onProgress` calls are recorded as data, not performed.

## Model

| member | source | states |
|---|---|---|
| Common.MessageOf | lib/messaging.ts:238 | the message of a thrown Error, otherwise the caller's fallback text |
| Common.Shown | lib/file-processor.ts:177 | `String(error)`: "Error: message" (or "Error" when the message is empty) for an Error, the value's own text otherwise |
| Firestore.CampaignRows | lib/firestore.ts:131-138 | the join documents of a campaign are exactly the stored documents with that campaign id, in store order |
| Firestore.CampaignRowsDistinct | lib/firestore.ts:131-138 | a well-formed store lists each join document of a campaign once |
| Firestore.RecentRecipients | lib/firestore.ts:109-116 | `getRecipients(n)` returns the first `min(n, size)` recipients of the newest-first directory |
| Firestore.FindByPhone | lib/firestore.ts:98-102 | `getRecipientByPhone`: the position of the first directory entry with exactly that telephone, and none exactly when no entry has it |
| Firestore.CreateRecipient | lib/firestore.ts:93-96 | a new recipient becomes the newest in the directory; nothing else in the store changes |
| Firestore.UpdateRecipient | lib/firestore.ts:104-107 | name, email and interests of one recipient are replaced, keeping its id and telephone; every other document is unchanged |
| Firestore.NewRows | lib/firestore.ts:119-129 | one pending, zero-attempt join document per recipient id, in order |
| Firestore.AddRows | lib/firestore.ts:119-129 | every added join document is stored, existing ones stay, campaigns, directory and log are untouched |
| Firestore.AddRowsWellFormed | lib/firestore.ts:119-129 | adding fresh join documents keeps the store well-formed |
| Firestore.AddRowsStores | lib/firestore.ts:119-129 | each added document is stored as given and every earlier document keeps its value |
| Firestore.CampaignRowsAdded | lib/firestore.ts:119-138 | after adding a new campaign's documents, `getCampaignRecipients` returns exactly them, in order (the partner of the add) |
| ErrorHandler.NewAppError | lib/error-handler.ts:13-25 | the message is kept, the code defaults to UNKNOWN_ERROR and the context to empty |
| ErrorHandler.FriendlyMessage | lib/error-handler.ts:104-144 | `getUserFriendlyMessage`, computed by cases; its contract is stated by FriendlyAppError, FriendlyPlainError, FriendlyPlainFixed and ReportedTexts |
| ErrorHandler.FriendlyAppError | lib/error-handler.ts:104-129 | a listed code gives its fixed text; any other code gives the error's own message, or the generic text when that is empty |
| ErrorHandler.FriendlyPlainError | lib/error-handler.ts:132-143 | a plain Error gets the text of the first Firebase fragment its message contains, in source order, else the generic text |
| ErrorHandler.FriendlyPlainFixed | lib/error-handler.ts:132-143 | a plain Error only ever gets one of the four fixed texts |
| ErrorHandler.ErrorLog | lib/error-handler.ts:75-97 | exactly one `error_occurred` event for the context's user and campaign when a user id is set and the append does not throw; none otherwise |
| ErrorHandler.HandleError | lib/error-handler.ts:66-101 | returns the friendly message of the error and appends `ErrorLog` |
| ErrorHandler.WithErrorHandling | lib/error-handler.ts:147-158 | `{data}` exactly when the operation resolved; `{error}` with the friendly message exactly when it threw an Error; a thrown null/undefined rejects before logging, any other non-Error rejects after logging |
| ErrorHandler.ReportedTexts | lib/error-handler.ts:104-158 | a reported text is a listed code's text, one of the four plain texts, or the AppError's own message when its code is not listed |
| ErrorHandler.ValidateRequired | lib/error-handler.ts:161-165 | rejects exactly the falsy values and whitespace-only strings, with "<field> is required" and REQUIRED_FIELD_MISSING |
| ErrorHandler.ValidEmailIff | lib/error-handler.ts:168 | the structural reading of the address (three non-empty parts without spaces or `@`) is equivalent to the regex |
| ErrorHandler.ValidateEmail | lib/error-handler.ts:167-172 | a rejection carries "Invalid email format" and VALIDATION_ERROR with the caller's context |
| ErrorHandler.ValidateEmailIff | lib/error-handler.ts:167-172 | an address is accepted exactly when it matches `^[^\s@]+@[^\s@]+\.[^\s@]+$` |
| ErrorHandler.CleanPhone | lib/error-handler.ts:176 | no whitespace, `-` or `$` is left |
| ErrorHandler.CleanPhoneKeeps | lib/error-handler.ts:176 | cleaning only deletes: the result is a subsequence of the input with every other character kept as often as it occurred |
| ErrorHandler.CleanPhoneIdempotent | lib/error-handler.ts:176 | cleaning twice is cleaning once |
| ErrorHandler.MatchesPhoneShape | lib/error-handler.ts:175 | a matching number has 4 to 16 characters, all digits except an optional leading `+` |
| ErrorHandler.MatchesPhoneIff | lib/error-handler.ts:175 | the regex `^[+]?[1-9][\d]{3,14}$` holds exactly for an optional `+`, a first digit 1-9, then 3 to 14 more digits |
| ErrorHandler.ValidatePhone | lib/error-handler.ts:174-180 | a rejection carries "Invalid phone number format" and VALIDATION_ERROR |
| ErrorHandler.ValidatePhoneIff | lib/error-handler.ts:174-180 | a number is accepted exactly when its cleaned form has that shape |
| ErrorHandler.MatchesPhoneExamples | lib/error-handler.ts:175 | "+15550123" and "5550123" match; a leading 0, too few digits and a double `+` do not |
| FileProcessor.Lines | lib/file-processor.ts:22 | every kept line is non-blank, and the kept lines are the split lines in their order with some left out |
| FileProcessor.Headers | lib/file-processor.ts:27 | one header per comma-separated cell, trimmed and lower-cased |
| FileProcessor.MissingColumns | lib/file-processor.ts:30-31 | a required column is reported missing exactly when no header contains it |
| FileProcessor.PhoneColumnFound | lib/file-processor.ts:41 | the telephone column is found whenever a header contains "telephone" |
| FileProcessor.FindColumns | lib/file-processor.ts:39-43 | each column is the first header containing its key (or "phone" for the telephone) and lies within the header row |
| FileProcessor.Cells | lib/file-processor.ts:50 | one cell per comma-separated piece, trimmed and with every `"` removed |
| FileProcessor.ParseRow | lib/file-processor.ts:50-101 | one data row: "Row n: Insufficient columns", a validation error or the recipient; its contract is stated by ParseRowFields and ParseRowAccepted |
| FileProcessor.ParseCsv | lib/file-processor.ts:21-104 | `parseCSV`, computed from the non-blank lines; its contract is stated by ParseCsvHeaderErrors, ParseCsvAllOrNothing and ParseCsvRecipients |
| FileProcessor.ParseCsvHeaderErrors | lib/file-processor.ts:22-37 | fewer than two non-blank lines, or a missing required column, throws the source's message |
| FileProcessor.ParseCsvAllOrNothing | lib/file-processor.ts:49-103 | recipients are returned exactly when every data row is accepted, one per row in order; otherwise the error lists every rejected row |
| FileProcessor.ParseRowFields | lib/file-processor.ts:52-96 | an accepted row holds the trimmed name, the cleaned telephone, the lower-cased email and the split interests |
| FileProcessor.ParseRowAccepted | lib/file-processor.ts:57-96 | an accepted row's recipient has a non-empty name, a matching telephone, a matching lower-case email and at most one interest |
| FileProcessor.ParseCsvRecipients | lib/file-processor.ts:21-104 | every recipient `parseCSV` returns has that shape |
| FileProcessor.ImportStep | lib/file-processor.ts:141-179 | exactly one of duplicates, processed or errors grows; a telephone is claimed before the store call, so a store failure still claims it; processed is created plus updated; an error marks the result failed |
| FileProcessor.ImportAll | lib/file-processor.ts:141-179 | the import loop as a fold of ImportStep over the inputs; its contract is stated by ImportCounts, ImportDistinctPhones, DuplicateAfterEarlier and ImportStores |
| FileProcessor.ImportCounts | lib/file-processor.ts:129-180 | over the whole list: the three counts add up to the inputs, processed is created plus updated, failure exactly when there is an error entry |
| FileProcessor.ImportDistinctPhones | lib/file-processor.ts:139-148 | the inputs processed or failed are as many as the distinct telephones |
| FileProcessor.DuplicateAfterEarlier | lib/file-processor.ts:144-148 | an input repeating an earlier telephone is a duplicate, even when the store failed on the earlier one |
| FileProcessor.ImportStores | lib/file-processor.ts:150-173 | the first input of a telephone that the store did not fail on is what the store returns for that telephone afterwards |
| FileProcessor.ProcessRecipients | lib/file-processor.ts:129-201 | the import's result and directory, plus one `recipients_uploaded` event unless that append throws (swallowed) |
| FileProcessor.KindOf | lib/file-processor.ts:208-225 | CSV by MIME type or `.csv` suffix; otherwise Excel by MIME type or `.xlsx`/`.xls`; otherwise refused |
| FileProcessor.UpperCaseSuffixRefused | lib/file-processor.ts:208-225 | the suffix test is case-sensitive: "LIST.CSV" without a MIME type is refused |
| FileProcessor.Failure | lib/file-processor.ts:228-237 | a caught error gives `success: false`, all counts 0 and its message as the only entry |
| FileProcessor.ProcessFile | lib/file-processor.ts:204-238 | a refused type, a failed read or a failed parse returns `Failure` with the store untouched; parsed recipients are imported; failure exactly when there is an error entry |
| Messaging.Gateway | lib/messaging.ts:21-88 | success exactly for a 2xx reply; a failure carries the provider's error or the per-channel fallback, or the thrown message / "Network error"; one attempt |
| Messaging.RetryFrom | lib/messaging.ts:99-118 | the retry loop from attempt `k` on, with the last result so far; its contract is stated by RetryStopsAtFirstSuccess and RetryAllFail |
| Messaging.SendWithRetry | lib/messaging.ts:91-119 | `sendMessageWithRetry`, the loop from attempt 1; its contract is stated by RetryWithoutAttempts and RetryOutcome |
| Messaging.RetryWithoutAttempts | lib/messaging.ts:97-99 | with no attempts allowed nothing is sent and "No attempts made" is returned |
| Messaging.RetryStopsAtFirstSuccess | lib/messaging.ts:99-110 | the first successful attempt k is returned with attempts k, after k sends and the backoffs before it |
| Messaging.SumBackoffs | lib/messaging.ts:114 | the backoffs from attempt `a` for `n` attempts total `(2^(a+n) - 2^a)` seconds |
| Messaging.RetryAllFail | lib/messaging.ts:99-118 | when every attempt fails, the last failure is returned after `maxAttempts` sends and `(2^max - 2)` seconds of waiting |
| Messaging.RetryOutcome | lib/messaging.ts:91-119 | the result succeeds exactly when one allowed attempt succeeds; the reported attempts are the sends made, at least one and at most `maxAttempts` |
| Messaging.Personalize | lib/messaging.ts:170 | the global replace of `<recipient_name>` with JavaScript's `$` patterns; its contract is stated by PersonalizeWithoutToken, PersonalizeJoin and PersonalizeDollarName |
| Messaging.PersonalizeWithoutToken | lib/messaging.ts:170 | a template without `<recipient_name>` is sent unchanged |
| Messaging.PersonalizeJoin | lib/messaging.ts:170 | every occurrence of the token is replaced by a name free of `$` |
| Messaging.PersonalizeGreeting | lib/messaging.ts:170 | "Hi <recipient_name>!" for Ana is "Hi Ana!" |
| Messaging.PersonalizeDollarName | lib/messaging.ts:170 | a `$&` in the name expands to the matched token, as JavaScript `replace` does |
| Execution.MethodRun | lib/messaging.ts:185-187 | one method for one recipient makes at least one and at most three requests, and reports as attempts the requests it made |
| Execution.Runs | lib/messaging.ts:185-187 | one retry run per campaign method, in method order |
| Execution.ApplyResult | lib/messaging.ts:218-235 | status and attempts always; the send instant only on success; the error text written exactly when non-empty, otherwise the previous one kept |
| Execution.Step | lib/messaging.ts:186-249 | after one method the recipient is reached when it was before or this run succeeded; the run's requests and waits are appended; a failed run adds "METHOD: error", and a throwing `message_sent` append or, failing that, a throwing update adds "METHOD: message" of what it threw; `message_sent` is logged after a success unless the append throws; the join document takes the update exactly when neither store call threw |
| Execution.Deliver | lib/messaging.ts:185-252 | the method loop for one recipient as a fold of Step; its contract is stated by DeliverSuccessIff, DeliverRequests, DeliverErrors, DeliverLog and the Deliver row lemmas |
| Execution.DeliverSuccessIff | lib/messaging.ts:185-252 | a recipient counts as reached exactly when at least one method's retry run succeeded |
| Execution.DeliverRequests | lib/messaging.ts:185-250 | every method is tried, in order, whatever earlier methods or the store did |
| Execution.DeliverLastWriteWins | lib/messaging.ts:219-235 | the last method whose update was made decides the stored status and attempts |
| Execution.DeliverUnwritten | lib/messaging.ts:235-249 | when a method's update was not made, the join document keeps its previous state |
| Execution.DeliverSentAt | lib/messaging.ts:224-227 | the send instant is set exactly when some method succeeded and its update was made |
| Execution.DeliverErrorMessage | lib/messaging.ts:229-232 | the stored error text is that of the last method whose update carried one, or the original when none did |
| Execution.DeliverErrors | lib/messaging.ts:186-249 | a recipient's error list is, method by method in order, the failed run's entry followed by the entry of the store call that threw; a store error never escapes the method |
| Execution.ErrorNotesCount | lib/messaging.ts:186-249 | the error list has one entry per failed method plus one per method whose append or update threw |
| Execution.ErrorNotesWithoutFaults | lib/messaging.ts:205-249 | without store faults the per-method entries are only the failed runs' |
| Execution.DeliverLog | lib/messaging.ts:190-203 | a recipient's log appends are one `message_sent` event per successful method whose append did not throw |
| Execution.DeliverErrorsWithoutFaults | lib/messaging.ts:205-257 | without store faults a recipient's error list is one "METHOD: error" per failed method, in order |
| Execution.LookUp | lib/messaging.ts:161 | the first directory entry with that id, or none |
| Execution.ProcessRow | lib/messaging.ts:159-261 | the recipient is the directory lookup; success exactly when no error entry is recorded; a missing recipient gives "Recipient not found: id" with no request, log append or pause |
| Execution.ProcessRowFound | lib/messaging.ts:163-257 | a found recipient is a success exactly when one method's run succeeded; otherwise the error names it with its telephone, followed by the method and store-fault entries joined by ", " |
| Execution.BeyondLimitIsMissing | lib/messaging.ts:150-166 | a recipient stored beyond the first 1000 is reported not found |
| Execution.Effects | lib/messaging.ts:159-261 | one row effect per join document, in query order |
| Execution.Run | lib/messaging.ts:152-257 | the recipient loop's account as a fold over the effects; its contract is stated by RunCounts, EffectsCounts, RunReports, RunProgressOrdered and RunRequestsFollowReport |
| Execution.RunCounts | lib/messaging.ts:152-257 | every row adds to exactly one counter, so successes and failures add up to the rows processed |
| Execution.EffectsCounts | lib/messaging.ts:152-257 | over the join documents: the total is their number, and successes are the rows whose recipient some method reached |
| Execution.StoredRows | lib/messaging.ts:235 | after the loop each join document holds its final delivered state; the others are unchanged |
| Execution.SendRows | lib/messaging.ts:159-261 | the loop's account is the fold over the rows, the log grows by each row's events and the documents are written back |
| Execution.SendAll | lib/messaging.ts:159-261 | the recipient loop of a campaign: the account, log and join documents of its effects; nothing else in the store changes |
| Execution.EffectsAddressed | lib/messaging.ts:170-187 | every request of a row goes to the recipient it found, with the template personalised for that recipient |
| Execution.RunReports | lib/messaging.ts:172-179 | each report is `{sent: i, total, currentRecipient}` for a row `i` whose recipient was found |
| Execution.RunReportsEvery | lib/messaging.ts:172-179 | every row whose recipient was found is reported |
| Execution.RunProgress | lib/messaging.ts:163-179 | a report for row `i` with a name is present exactly when row `i`'s recipient was found under that name |
| Execution.RunProgressOrdered | lib/messaging.ts:159-179 | reports carry strictly increasing `sent`, so each row is reported at most once and in order |
| Execution.RunRequestsFollowReport | lib/messaging.ts:172-187 | every provider request follows the report of its own row |
| Execution.SetStatus | lib/messaging.ts:144-146 | one campaign's status (and end instant, when given) is set; nothing else changes |
| Execution.Fault | lib/messaging.ts:142-281 | the main block throws the first failure in program order: status write, reads, empty campaign, completion write, completion log |
| Execution.MainBlock | lib/messaging.ts:142-281 | the status goes to sending, the loop runs over the campaign's documents, then the status goes to completed with the end instant and `campaign_completed` is logged; once the loop has run, the log holds its `message_sent` events in order, followed by `campaign_completed` only when neither the completion write nor its append threw |
| Execution.CatchBlock | lib/messaging.ts:282-318 | roll back to draft, log `campaign_failed` and rethrow; an error from the rollback or the log append escapes instead |
| Execution.ExecuteCampaign | lib/messaging.ts:122-321 | no id throws "Campaign ID is required" untouched; a campaign whose document is missing fails its status update and its rollback, and the rollback's error escapes with nothing changed; a clean run returns the loop's result with status completed; any failure throws, with the status back to draft when the rollback worked; on a throw the log keeps the loop's `message_sent` events, has no `campaign_completed`, and ends with `campaign_failed` when the rollback and its append worked |
| Execution.ExecuteStored | lib/messaging.ts:142-321 | the try and catch blocks for a stored campaign: returns exactly when no store call or the empty-campaign check failed, then with the loop's result, completed status and `campaign_completed` last; on a throw the error that escapes, the status and end instant left behind, and the log with the loop's `message_sent` events followed by `campaign_failed` when the rollback and its append worked |
| CreateCampaign.Next | components/create-campaign-modal.tsx:90-96 | the step advances by one up to 3; nothing else changes |
| CreateCampaign.Back | components/create-campaign-modal.tsx:98-104 | the step goes back by one down to 1; nothing else changes |
| CreateCampaign.CanProceed | components/create-campaign-modal.tsx:147-156 | `canProceed`, by step; its contract is stated by BlankDoesNotProceed and ResetBlocks |
| CreateCampaign.BackUndoesNext | components/create-campaign-modal.tsx:90-104 | Back after Next (below the last step) and Next after Back (above the first) give the form back |
| CreateCampaign.StepNumberInjective | components/create-campaign-modal.tsx:90-104 | different steps have different numbers |
| CreateCampaign.BlankDoesNotProceed | components/create-campaign-modal.tsx:147-156 | a blank name on step 1 or a blank message on step 2 blocks Next |
| CreateCampaign.ToggleMethod | components/create-campaign-modal.tsx:66-72 | ticking appends the method (no dedup); unticking removes every copy |
| CreateCampaign.ToggleRecipient | components/create-campaign-modal.tsx:74-80 | ticking appends the id (no dedup); unticking removes every copy |
| CreateCampaign.UntickAfterTick | components/create-campaign-modal.tsx:66-72 | unticking after ticking removes the method altogether and keeps the others as often as before |
| CreateCampaign.TickTwiceListsTwice | components/create-campaign-modal.tsx:66-72 | ticking a listed method lists it twice |
| CreateCampaign.SelectAll | components/create-campaign-modal.tsx:82-88 | selecting all selects every loaded id in order; unselecting clears the selection |
| CreateCampaign.SelectAllTicks | components/create-campaign-modal.tsx:272 | after selecting all every box is ticked; a selection with a repeated id can tick all boxes too |
| CreateCampaign.LoadRecipients | components/create-campaign-modal.tsx:37-64 | a successful load lists the recipients and selects them all; a failed load changes nothing |
| CreateCampaign.ReturnReselects | components/create-campaign-modal.tsx:37-64 | going back and returning to the recipient step selects everyone again, undoing an untick |
| CreateCampaign.Reset | components/create-campaign-modal.tsx:43-53 | closing clears every field back to step 1 with SMS only, keeping the loaded list |
| CreateCampaign.ResetBlocks | components/create-campaign-modal.tsx:43-156 | a reset form cannot proceed, and resetting twice is resetting once |
| CreateCampaign.Preview | components/create-campaign-modal.tsx:245 | the first-only replace of the placeholder by "John Doe"; its contract is stated by PreviewFirstOnly and PreviewWithoutToken |
| CreateCampaign.PreviewFirstOnly | components/create-campaign-modal.tsx:245 | the preview replaces only the first token with the sample name |
| CreateCampaign.PreviewWithoutToken | components/create-campaign-modal.tsx:245 | a template without the token is previewed unchanged |
| CreateCampaign.Landed | lib/firestore.ts:119-129 | the join documents that landed are some of the submitted ones, and all of them when none failed |
| CreateCampaign.Submit | components/create-campaign-modal.tsx:106-145 | without a user or a selection nothing happens; a failed create stops; success exactly when the campaign, every join document and the log append were written |
| CreateCampaign.SubmitSelects | components/create-campaign-modal.tsx:106-145 | after a successful submit the new campaign's join documents are exactly the selected ids, in order, all pending |
| CreateCampaign.AddedRowsSelect | lib/firestore.ts:119-138 | adding pending documents for the selected ids makes them the campaign's documents, in order |
| UploadRecipients.HandleFile | components/upload-recipients-modal.tsx:54-79 | an oversized file is refused first, then a wrong type; a refusal only raises its alert; acceptance sets the file and clears the result |
| UploadRecipients.AcceptedIsReadable | components/upload-recipients-modal.tsx:54-79 | the dialog accepts exactly the files of at most 20 MB that `processFile` can read |
| UploadRecipients.SizeLimitInclusive | components/upload-recipients-modal.tsx:56-59 | exactly 20 MB is accepted, one byte more is refused |
| UploadRecipients.HandleDrag | components/upload-recipients-modal.tsx:28-36 | enter and over light the drop zone, leave turns it off, other events change nothing |
| UploadRecipients.HandleDrop | components/upload-recipients-modal.tsx:38-46 | the zone goes dark and the first dropped file, if any, is handled |
| UploadRecipients.DropTakesFirst | components/upload-recipients-modal.tsx:38-46 | of several dropped files only the first is chosen |
| UploadRecipients.Tick | components/upload-recipients-modal.tsx:89-97 | the bar gains ten points per tick and holds at 90 |
| UploadRecipients.ProgressCapped | components/upload-recipients-modal.tsx:89-97 | after n ticks the bar shows `min(10n, 90)` |
| UploadRecipients.ProgressMonotone | components/upload-recipients-modal.tsx:89-97 | the bar never goes back while it runs |
| UploadRecipients.CaughtResult | components/upload-recipients-modal.tsx:111-120 | a throw shows a failure with nothing counted and the thrown message or "Unknown error occurred" |
| UploadRecipients.Upload | components/upload-recipients-modal.tsx:81-124 | without a file or a user nothing happens; otherwise the returned result at 100 or the caught failure below 90; `onSuccess` exactly when the result succeeded with something processed |
| UploadRecipients.NoNotifyWithoutImport | components/upload-recipients-modal.tsx:105-110 | a failure, a throw or nothing processed never reloads the page |
| UploadRecipients.UploadReplacesResult | components/upload-recipients-modal.tsx:81-124 | uploading again shows only the new result |
| UploadRecipients.HandleClose | components/upload-recipients-modal.tsx:126-139 | closing is ignored while uploading; otherwise the dialog resets and closes |
| UploadRecipients.CloseForgets | components/upload-recipients-modal.tsx:126-139 | a closed dialog opens from scratch, whatever was chosen |
| UploadRecipients.UploadingBlocksClose | components/upload-recipients-modal.tsx:134-139 | an upload in flight cannot be closed |
| LogsViewer.LoadLogs | components/logs-viewer.tsx:43-66 | the signed-in user's events, newest first: exactly min(100, their number), the k-th being the k-th newest of the user's events in the log |
| LogsViewer.LoadLogsNewestFirst | components/logs-viewer.tsx:47-52 | when the latest event is the user's, it comes first |
| LogsViewer.LoadLogsComplete | components/logs-viewer.tsx:43-66 | a user with at most 100 events sees every one of them, each as often as it was logged |
| LogsViewer.FilterLogs | components/logs-viewer.tsx:68-85 | `filterLogs`, the action filter then the search; its contract is stated by FilterLogsIsShown, FilterLogsExactly, FilterLogsIdempotent and FilterLogsEverything |
| LogsViewer.FilterLogsIsShown | components/logs-viewer.tsx:68-85 | the two filters in a row are one filter by the list's test |
| LogsViewer.FilterLogsExactly | components/logs-viewer.tsx:68-85 | the list shows exactly the events passing both filters, each as often as loaded, in loaded order |
| LogsViewer.FilterLogsIdempotent | components/logs-viewer.tsx:68-85 | filtering the list again changes nothing |
| LogsViewer.FilterLogsEverything | components/logs-viewer.tsx:68-85 | "all" with an empty search shows every loaded event |
| LogsViewer.UniqueActions | components/logs-viewer.tsx:156 | the distinct actions in first-seen order; its contract is stated by UniqueActionsOptions |
| LogsViewer.ActionFilterIsExact | components/logs-viewer.tsx:72-81 | the action filter compares whole names, while the search finds substrings |
| LogsViewer.SearchIgnoresCase | components/logs-viewer.tsx:77-81 | the search ignores letter case in the term |
| LogsViewer.UniqueActionsOptions | components/logs-viewer.tsx:156 | each action is offered once, every loaded action is offered, and choosing one leaves an event in the list |
| LogsViewer.Label | components/logs-viewer.tsx:260 | `replace(/_/g, " ")` on the action; its contract is stated by LabelSpaces |
| LogsViewer.LabelSpaces | components/logs-viewer.tsx:260 | the badge shows the action with every underscore as a space and nothing else changed |
| LogsViewer.ActionColor | components/logs-viewer.tsx:107-122 | each action gets one of the four badge variants |
| LogsViewer.ActionColors | components/logs-viewer.tsx:107-122 | failures are destructive, and exactly the unknown actions are outlined |
| Text.TrimIdempotent | lib/file-processor.ts:27 | trimming twice is trimming once |
| Text.JoinOfSplit | lib/file-processor.ts:22 | joining the pieces of a split with the separator gives the text back |
| Text.SplitOfJoin | lib/file-processor.ts:22 | splitting a join of pieces without the separator gives the pieces back |
| Text.ReplaceAllFromLiteral | lib/messaging.ts:170 | a replacement without `$` is substituted literally at every occurrence |

## Left out

- Text.ToLower: only ASCII letters change case; the source's `toLowerCase` maps every Unicode letter. Lower-casing affects headers, emails and the log search.
- Text.ToUpper: only ASCII letters change case (used for the method label "SMS"/"WHATSAPP").
- ErrorHandler.Falsy: `JsValue` has no NaN, so `validateRequired(NaN)` is not modelled; the other falsy values are.
- Execution.ExecuteCampaign: the `!db` guard at lib/messaging.ts:127-129 is not modelled, since the store is always initialised in the model.
- Execution.ExecuteCampaign: all `Timestamp.now()` calls of one run report the same instant `now`; the clock is not modelled.
- Execution.ExecuteCampaign: `onProgress` is treated as always given and never throwing. Its calls are recorded as events, not invoked.
- Execution.ExecuteCampaign: the `console.error` reports and the partial result they print are not modelled (output only).
- Execution.ExecuteCampaign: the 100 ms and backoff pauses are recorded, not slept; timing is not modelled.
- Common.Shown: assumes an Error's `name` is "Error"; a subclass renaming itself would print its own name. In particular a store failure is a `FirebaseError`, whose `String()` reads "FirebaseError: [code=…]: message", so its import error entry differs from the model's "Error: message".
- FileProcessor.ImportEnv: a throw from the telephone lookup and a throw from the write are one fault per input, because either leaves the store as it was.
- Firestore.FindByPhone: `getRecipientByPhone` returns the first match in directory order (newest first). Firestore answers `limit(1)` without `orderBy` with the matching document of least document id, which the model does not track.
- FileProcessor.ProcessFile: the file reader is a parameter (the text it produced, or none). `parseExcel` reads the file as CSV text, so it is `ParseCsv` on that text.
- CreateCampaign.Landed: the concurrent `Promise.all` of `addCampaignRecipients` is modelled in index order; interleavings are not.
- LogsViewer.Entry: event details are the text `JSON.stringify` gives; the serialisation is not modelled.
- LogsViewer.LoadLogs: the user's events are taken from an append-ordered log, newest first. Firestore's query engine is not modelled.
- LogsViewer.Label: only the list label at components/logs-viewer.tsx:260 is modelled; the filter dropdown's extra capitalisation of each word (line 201) is rendering.
- Firestore.CampaignRows: the where-only query of `getCampaignRecipients` is modelled as returning documents in the order they were added. Firestore returns such a query in ascending document-id order, and `addDoc` ids are random, so the program itself promises only which documents come back, not their order.
- CampaignRowsAdded (Firestore.CampaignRowsAdded): its "in the order added" half rests on that insertion-order query; with Firestore's id order only the same documents, as a multiset, are promised.
- SubmitSelects (CreateCampaign.SubmitSelects): "in selection order" rests on the same insertion-order query; the program promises only the selected ids as a multiset.
- AddedRowsSelect (CreateCampaign.AddedRowsSelect): rests on the same insertion-order query as SubmitSelects.
- ErrorHandler.ErrorLog: Firestore rejects `undefined` field values under the default settings lib/firebase.ts:88 uses, so the `error_occurred` append throws, and the throw is swallowed, whenever the context leaves out the component, the action, the campaign id, the recipient id or the additional data. The model does not derive this throw; the append's fault parameter can express it.
- Execution.CatchBlock: for the same reason the `campaign_failed` append throws when the caught value is not an Error (its `stack` field is then `undefined`, lib/messaging.ts:285). The model does not derive this throw; the `failureLog` fault can express it.
- UploadRecipients.Upload: the progress interval is a number of ticks, not real time.
- Authentication, the Firebase and provider HTTP plumbing, the API routes, CSV export, date formatting, icons and the rendering of the pages are outside the core. The text of an `alert` is kept as data; nothing is shown.

=== FILE: common.dfy ===
/** Small shared vocabulary: an optional value, as the source's `field?: T`. */
module Common {

  /** A value that may be absent (`undefined` in the source). */
  datatype Option<+T> = None | Some(value: T) {

    /** The carried value, or `default` when absent. */
    function GetOr(default: T): T {
      match this
      case Some(v) => v
      case None => default
    }
  }

  /** A value thrown by an operation: an `Error` object, which carries a
      message, or any other value, kept as the text `String(value)` gives. */
  datatype Thrown = ErrorValue(message: string) | OtherValue(shown: string)

  /** `error instanceof Error ? error.message : fallback`. */
  function MessageOf(t: Thrown, fallback: string): (r: string)
    ensures t.ErrorValue? ==> r == t.message
    ensures t.OtherValue? ==> r == fallback
  {
    match t
    case ErrorValue(m) => m
    case OtherValue(_) => fallback
  }

  /** `String(error)`, as a template literal `${error}` shows it: an `Error`
      reads `Error: <message>`, or `Error` alone when the message is empty. */
  function Shown(t: Thrown): (r: string)
    ensures t.ErrorValue? && t.message != "" ==> r == "Error: " + t.message
    ensures t.ErrorValue? && t.message == "" ==> r == "Error"
    ensures t.OtherValue? ==> r == t.shown
  {
    match t
    case ErrorValue(m) => if m == "" then "Error" else "Error: " + m
    case OtherValue(s) => s
  }

  function Min(a: int, b: int): int {
    if a <= b then a else b
  }

  function Max(a: int, b: int): int {
    if a >= b then a else b
  }
}

=== FILE: create_campaign.dfy ===
/** `components/create-campaign-modal.tsx`: the three-step wizard that
    collects a campaign's details, its message and its recipients, and the
    submission that stores the draft campaign with one pending join document
    per selected recipient. */
module CreateCampaign {
  import opened Common
  import opened Text
  import opened Seqs
  import opened Firestore
  import opened Messaging

  datatype Step = Details | Message | Recipients

  /** The wizard's state: the step shown, the form fields, the recipients
      loaded for the last step and the ids ticked among them. */
  datatype Form = Form(
    step: Step,
    name: string,
    description: string,
    methods: seq<Method>,
    messageText: string,
    recipients: seq<Recipient>,
    selected: seq<string>)

  /** "Step n of 3". */
  function StepNumber(s: Step): (n: nat)
    ensures 1 <= n <= 3
  {
    match s
    case Details => 1
    case Message => 2
    case Recipients => 3
  }

  // ----- moving between steps -----

  /** `handleNext`: one step forward; the last step stays put. */
  function Next(f: Form): (r: Form)
    ensures r == f.(step := r.step)
    ensures StepNumber(r.step) == Min(StepNumber(f.step) + 1, 3)
  {
    match f.step
    case Details => f.(step := Message)
    case Message => f.(step := Recipients)
    case Recipients => f
  }

  /** `handleBack`: one step back; the first step stays put. */
  function Back(f: Form): (r: Form)
    ensures r == f.(step := r.step)
    ensures StepNumber(r.step) == Max(StepNumber(f.step) - 1, 1)
  {
    match f.step
    case Details => f
    case Message => f.(step := Details)
    case Recipients => f.(step := Message)
  }

  /** Going forward and back again returns to the same form, and so does
      going back and forward again; only the step ever changes, so no field
      typed in is lost. */
  lemma BackUndoesNext(f: Form)
    ensures f.step != Recipients ==> Back(Next(f)) == f
    ensures f.step != Details ==> Next(Back(f)) == f
  {
  }

  /** The step each number stands for. */
  lemma StepNumberInjective(a: Step, b: Step)
    ensures StepNumber(a) == StepNumber(b) <==> a == b
  {
  }

  /** `canProceed`: the details need a name, a description and a method,
      the message needs text, and the last step needs a selected
      recipient; blank text does not count. */
  predicate CanProceed(f: Form) {
    match f.step
    case Details => Trim(f.name) != "" && Trim(f.description) != "" && |f.methods| > 0
    case Message => Trim(f.messageText) != ""
    case Recipients => |f.selected| > 0
  }

  /** Whitespace alone never lets the wizard proceed from the first two
      steps. */
  lemma BlankDoesNotProceed(f: Form)
    requires f.step == Details ==> IsBlank(f.name)
    requires f.step == Message ==> IsBlank(f.messageText)
    requires f.step != Recipients
    ensures !CanProceed(f)
  {
  }

  // ----- checkboxes -----

  /** `handleMethodChange`: ticking appends the method, even when it is
      already listed; unticking removes every copy of it. */
  function ToggleMethod(f: Form, m: Method, checked: bool): (r: Form)
    ensures r == f.(methods := r.methods)
    ensures checked ==> r.methods == f.methods + [m]
    ensures !checked ==>
      && m !in r.methods
      && (forall x :: x != m ==> multiset(r.methods)[x] == multiset(f.methods)[x])
      && IsSubsequence(r.methods, f.methods)
  {
    f.(methods := if checked then f.methods + [m] else RemoveAll(f.methods, m))
  }

  /** `handleRecipientToggle`: the same for a recipient id. */
  function ToggleRecipient(f: Form, id: string, checked: bool): (r: Form)
    ensures r == f.(selected := r.selected)
    ensures checked ==> r.selected == f.selected + [id]
    ensures !checked ==>
      && id !in r.selected
      && (forall x :: x != id ==> multiset(r.selected)[x] == multiset(f.selected)[x])
      && IsSubsequence(r.selected, f.selected)
  {
    f.(selected := if checked then f.selected + [id] else RemoveAll(f.selected, id))
  }

  /** Unticking a method after ticking it leaves no copy of it, whatever was
      listed before; the other methods keep their counts. */
  lemma UntickAfterTick(f: Form, m: Method)
    ensures var r := ToggleMethod(ToggleMethod(f, m, true), m, false);
      m !in r.methods && forall x :: x != m ==> multiset(r.methods)[x] == multiset(f.methods)[x]
  {
    var g := ToggleMethod(f, m, true);
    forall x | x != m
      ensures multiset(g.methods)[x] == multiset(f.methods)[x]
    {
      assert multiset(g.methods) == multiset(f.methods) + multiset{m};
    }
  }

  /** Ticking a method twice lists it twice. */
  lemma TickTwiceListsTwice(f: Form, m: Method)
    requires f.methods == [m]
    ensures ToggleMethod(f, m, true).methods == [m, m]
  {
  }

  /** The ids of the loaded recipients, in order. */
  function Ids(rs: seq<Recipient>): seq<string> {
    Map(rs, (r: Recipient) => r.id)
  }

  /** `handleSelectAll`: every loaded recipient, or none. */
  function SelectAll(f: Form, checked: bool): (r: Form)
    ensures r == f.(selected := r.selected)
    ensures checked ==> r.selected == Ids(f.recipients)
    ensures !checked ==> r.selected == []
  {
    f.(selected := if checked then Ids(f.recipients) else [])
  }

  /** The "Select All" box shows as ticked when as many ids are selected as
      recipients are loaded (a count, not a comparison of the ids). */
  predicate AllTicked(f: Form) {
    |f.selected| == |f.recipients|
  }

  /** After "Select All" the box shows as ticked; the count test can also be
      met by a selection naming one recipient twice and another not at
      all. */
  lemma SelectAllTicks(f: Form)
    ensures AllTicked(SelectAll(f, true))
    ensures |f.recipients| == 2 && f.selected == [f.recipients[0].id, f.recipients[0].id] ==> AllTicked(f)
  {
  }

  /** `loadRecipients`, run whenever the last step is shown: the fetched
      recipients replace the list and all of them are selected; a failed
      fetch changes nothing. */
  function LoadRecipients(f: Form, fetched: Option<seq<Recipient>>): (r: Form)
    ensures fetched.None? ==> r == f
    ensures fetched.Some? ==> r == f.(recipients := fetched.value, selected := Ids(fetched.value))
  {
    match fetched
    case None => f
    case Some(rs) => SelectAll(f.(recipients := rs), true)
  }

  /** Coming back to the last step reselects everyone: a recipient unticked
      before going back is selected again. */
  lemma ReturnReselects(f: Form, id: string, rs: seq<Recipient>)
    requires f.step == Recipients
    ensures var g := LoadRecipients(Next(Back(ToggleRecipient(f, id, false))), Some(rs));
      g.selected == Ids(rs) && g.step == Recipients
  {
  }

  /** The form the dialog starts with and returns to when it is closed:
      the first step, empty fields, SMS as the method and nothing selected.
      The loaded recipient list is kept. */
  function Reset(f: Form): (r: Form)
    ensures r.step == Details && r.name == "" && r.description == "" && r.methods == [Sms]
    ensures r.messageText == "" && r.selected == [] && r.recipients == f.recipients
  {
    Form(Details, "", "", [Sms], "", f.recipients, [])
  }

  /** A closed and reopened wizard cannot proceed until a name and a
      description are typed again, and resetting twice is resetting once. */
  lemma ResetBlocks(f: Form)
    ensures !CanProceed(Reset(f))
    ensures Reset(Reset(f)) == Reset(f)
  {
  }

  // ----- the preview -----

  /** The preview's name. */
  const PreviewName := "John Doe"

  /** `messageText.replace("<recipient_name>", "John Doe")`: with a string
      pattern only the first placeholder is replaced. */
  function Preview(messageText: string): string {
    ReplaceFirst(messageText, NameToken, PreviewName)
  }

  /** The preview replaces the first placeholder only: a message with two
      placeholders shows the second one as typed, unlike the message sent,
      where every placeholder is replaced. */
  lemma PreviewFirstOnly(a: string, b: string)
    requires !Contains(a + NameToken[..|NameToken| - 1], NameToken)
    ensures Preview(a + NameToken + b) == a + PreviewName + b
  {
    ReplaceFirstAfterPrefix(a, NameToken, b, PreviewName);
  }

  /** A message without the placeholder is previewed as typed. */
  lemma PreviewWithoutToken(messageText: string)
    requires !Contains(messageText, NameToken)
    ensures Preview(messageText) == messageText
  {
  }

  // ----- submitting -----

  /** What the store does on submission: the signed-in user, if any; the
      instant; the campaign id `createCampaign` receives and whether it
      threw; the ids the join documents receive, one per selected
      recipient, and which of their writes threw (`Promise.all` rejects if
      any did, but the others still land); and whether the
      `campaign_created` append threw. */
  datatype SubmitEnv = SubmitEnv(
    user: Option<string>,
    now: Timestamp,
    campaignId: string,
    createFault: Option<Thrown>,
    docIds: seq<string>,
    rowFault: nat -> Option<Thrown>,
    logFault: Option<Thrown>)

  /** The store after a submission and whether `onSuccess` was called. */
  datatype Submission = Submission(db: Db, succeeded: bool)

  /** The campaign document the wizard creates. */
  function DraftCampaign(f: Form, id: string, uid: string, now: Timestamp): Campaign {
    Campaign(id, f.name, f.description, f.methods, f.messageText, now, None, uid, Draft)
  }

  function CreatedEvent(uid: string, id: string): UserEventLog {
    UserEventLog(uid, "campaign_created", Some(id))
  }

  /** The join documents whose writes did not throw, in order. */
  function Landed(rows: seq<CampaignRecipient>, fault: nat -> Option<Thrown>): (r: seq<CampaignRecipient>)
    ensures |r| <= |rows| && forall x :: x in r ==> x in rows
    ensures (forall k :: 0 <= k < |rows| ==> fault(k).None?) ==> r == rows
    decreases |rows|
  {
    if |rows| == 0 then []
    else
      var init := rows[..|rows| - 1];
      var last := rows[|rows| - 1];
      assert rows == init + [last];
      Landed(init, fault) + (if fault(|rows| - 1).None? then [last] else [])
  }

  /** Every join document write succeeded. */
  predicate AllLanded(env: SubmitEnv) {
    forall k :: 0 <= k < |env.docIds| ==> env.rowFault(k).None?
  }

  /** `handleSubmit`: nothing without a signed-in user or a selection;
      otherwise the draft campaign, then a join document per selected id
      (duplicates included), then the `campaign_created` append, and
      `onSuccess` only when all of that got through. An error stops the
      sequence and is swallowed. */
  function Submit(f: Form, env: SubmitEnv, db: Db): (r: Submission)
    requires |env.docIds| == |f.selected|
    ensures env.user.None? || f.selected == [] ==> r == Submission(db, false)
    ensures env.createFault.Some? ==> r == Submission(db, false)
    ensures r.succeeded <==>
      env.user.Some? && f.selected != [] && env.createFault.None? && AllLanded(env) && env.logFault.None?
    ensures r.db.directory == db.directory
    ensures env.user.Some? && f.selected != [] && env.createFault.None? ==>
      && r.db.campaigns == db.campaigns[env.campaignId := DraftCampaign(f, env.campaignId, env.user.value, env.now)]
      && r.db.log == db.log + (if AllLanded(env) && env.logFault.None? then [CreatedEvent(env.user.value, env.campaignId)] else [])
  {
    if env.user.None? || f.selected == [] || env.createFault.Some? then Submission(db, false)
    else
      var stored := AddRows(Created(f, env, db), Landed(SubmittedRows(f, env), env.rowFault));
      if !AllLanded(env) || env.logFault.Some? then Submission(stored, false)
      else Submission(stored.(log := stored.log + [CreatedEvent(env.user.value, env.campaignId)]), true)
  }

  /** The store once the draft campaign is created. */
  function Created(f: Form, env: SubmitEnv, db: Db): Db
    requires env.user.Some?
  {
    db.(campaigns := db.campaigns[env.campaignId := DraftCampaign(f, env.campaignId, env.user.value, env.now)])
  }

  /** The join documents of the selected ids. */
  function SubmittedRows(f: Form, env: SubmitEnv): seq<CampaignRecipient>
    requires |env.docIds| == |f.selected|
  {
    NewRows(env.campaignId, f.selected, env.docIds)
  }

  /** After a successful submission, the campaign's join documents, as
      `executeCampaign` finds them, are one pending document per selected
      id, in selection order: the campaign will be sent to exactly the
      recipients ticked, a recipient ticked twice twice. This needs the
      store's fresh document ids and no earlier document naming the new
      campaign. */
  lemma SubmitSelects(f: Form, env: SubmitEnv, db: Db)
    requires |env.docIds| == |f.selected|
    requires Submit(f, env, db).succeeded
    requires WellFormed(db) && FreshRows(db, NewRows(env.campaignId, f.selected, env.docIds))
    requires forall id :: id in db.rows ==> db.rows[id].campaignId != env.campaignId
    ensures var db' := Submit(f, env, db).db;
      var ids := CampaignRows(db', env.campaignId);
      && WellFormed(db')
      && |ids| == |f.selected|
      && forall k :: 0 <= k < |ids| ==>
        ids[k] in db'.rows && db'.rows[ids[k]].recipientId == f.selected[k] && db'.rows[ids[k]].status == Pending
  {
    var created := Created(f, env, db);
    var rows := SubmittedRows(f, env);
    assert Landed(rows, env.rowFault) == rows;
    AddedRowsSelect(created, rows, env.campaignId, f.selected);
  }

  /** The join documents of a fresh campaign, once stored, are the
      campaign's documents and name the selected ids in order. */
  lemma AddedRowsSelect(db: Db, rows: seq<CampaignRecipient>, id: string, selected: seq<string>)
    requires WellFormed(db) && FreshRows(db, rows)
    requires forall rid :: rid in db.rows ==> db.rows[rid].campaignId != id
    requires |rows| == |selected|
    requires forall k :: 0 <= k < |rows| ==> rows[k].campaignId == id && rows[k].recipientId == selected[k] && rows[k].status == Pending
    ensures var db' := AddRows(db, rows);
      var ids := CampaignRows(db', id);
      && WellFormed(db')
      && |ids| == |selected|
      && forall k :: 0 <= k < |ids| ==>
        ids[k] in db'.rows && db'.rows[ids[k]].recipientId == selected[k] && db'.rows[ids[k]].status == Pending
  {
    AddRowsWellFormed(db, rows);
    AddRowsStores(db, rows);
    CampaignRowsAdded(db, rows, id);
  }
}

=== FILE: error_handler.dfy ===
/** `lib/error-handler.ts`: the application's error value, the mapping from
    errors to the messages shown to users, the wrapper that turns a failed
    operation into such a message, and the three input validators. */
module ErrorHandler {
  import opened Common
  import opened Text
  import opened Seqs
  import opened Firestore

  // ----- error codes -----

  const UnknownError := "UNKNOWN_ERROR"
  const AuthFailed := "AUTH_FAILED"
  const AuthRequired := "AUTH_REQUIRED"
  const CampaignNotFound := "CAMPAIGN_NOT_FOUND"
  const CampaignExecutionFailed := "CAMPAIGN_EXECUTION_FAILED"
  const CampaignInvalidStatus := "CAMPAIGN_INVALID_STATUS"
  const RecipientNotFound := "RECIPIENT_NOT_FOUND"
  const RecipientInvalidData := "RECIPIENT_INVALID_DATA"
  const FileInvalidFormat := "FILE_INVALID_FORMAT"
  const FileProcessingFailed := "FILE_PROCESSING_FAILED"
  const FileTooLarge := "FILE_TOO_LARGE"
  const SmsSendFailed := "SMS_SEND_FAILED"
  const WhatsAppSendFailed := "WHATSAPP_SEND_FAILED"
  const MessageInvalidRecipient := "MESSAGE_INVALID_RECIPIENT"
  const DatabaseError := "DATABASE_ERROR"
  const PermissionDenied := "PERMISSION_DENIED"
  const NetworkError := "NETWORK_ERROR"
  const ApiError := "API_ERROR"
  const ValidationError := "VALIDATION_ERROR"
  const RequiredFieldMissing := "REQUIRED_FIELD_MISSING"

  // ----- user-facing texts -----

  const AuthFailedText := "Authentication failed. Please check your credentials and try again."
  const AuthRequiredText := "Please log in to continue."
  const CampaignNotFoundText := "Campaign not found. It may have been deleted."
  const CampaignExecutionFailedText := "Failed to execute campaign. Please check your configuration and try again."
  const FileInvalidFormatText := "Invalid file format. Please upload a CSV or Excel file with the required columns."
  const FileTooLargeText := "File is too large. Please upload a file smaller than 20MB."
  const SmsSendFailedText := "Failed to send SMS. Please check the phone number and try again."
  const WhatsAppSendFailedText := "Failed to send WhatsApp message. Please verify the configuration."
  const NetworkText := "Network error. Please check your connection and try again."
  const ValidationText := "Please check your input and try again."
  const PermissionText := "You don't have permission to perform this action."
  const QuotaText := "Service quota exceeded. Please try again later."
  const GenericText := "An unexpected error occurred. Please try again."

  /** `ErrorContext` (the free-form additional data is not kept). */
  datatype Context = Context(
    userId: Option<string>,
    action: Option<string>,
    campaignId: Option<string>,
    recipientId: Option<string>,
    component: Option<string>)

  const EmptyContext := Context(None, None, None, None, None)

  /** An error the application handles: an `AppError` with its code and
      context, or any other `Error` (the stack and creation instant are not
      kept). */
  datatype Error = AppError(message: string, code: string, context: Context) | PlainError(message: string)

  /** `new AppError(message, code?, context?)`: the message is kept, an
      omitted code is `UNKNOWN_ERROR` and an omitted context is empty. */
  function NewAppError(message: string, code: Option<string>, context: Option<Context>): (e: Error)
    ensures e.AppError? && e.message == message
    ensures code.None? ==> e.code == UnknownError
    ensures code.Some? ==> e.code == code.value
    ensures e.context == context.GetOr(EmptyContext)
  {
    AppError(message, code.GetOr(UnknownError), context.GetOr(EmptyContext))
  }

  // ----- friendly messages -----

  /** `getUserFriendlyMessage(error)`. */
  function FriendlyMessage(e: Error): string {
    match e
    case AppError(message, code, _) =>
      if code == AuthFailed then AuthFailedText
      else if code == AuthRequired then AuthRequiredText
      else if code == CampaignNotFound then CampaignNotFoundText
      else if code == CampaignExecutionFailed then CampaignExecutionFailedText
      else if code == FileInvalidFormat then FileInvalidFormatText
      else if code == FileTooLarge then FileTooLargeText
      else if code == SmsSendFailed then SmsSendFailedText
      else if code == WhatsAppSendFailed then WhatsAppSendFailedText
      else if code == NetworkError then NetworkText
      else if code == ValidationError then ValidationText
      else if message != "" then message
      else GenericText
    case PlainError(message) =>
      if Contains(message, "permission-denied") then PermissionText
      else if Contains(message, "network-request-failed") then NetworkText
      else if Contains(message, "quota-exceeded") then QuotaText
      else GenericText
  }

  /** The codes that have a fixed text of their own. */
  const CodeTexts: map<string, string> := map[
    AuthFailed := AuthFailedText,
    AuthRequired := AuthRequiredText,
    CampaignNotFound := CampaignNotFoundText,
    CampaignExecutionFailed := CampaignExecutionFailedText,
    FileInvalidFormat := FileInvalidFormatText,
    FileTooLarge := FileTooLargeText,
    SmsSendFailed := SmsSendFailedText,
    WhatsAppSendFailed := WhatsAppSendFailedText,
    NetworkError := NetworkText,
    ValidationError := ValidationText]

  /** The store's error fragments a plain error's message is searched for, in
      the order they are tried, with the text each one maps to. */
  const FirebaseHints: seq<(string, string)> := [
    ("permission-denied", PermissionText),
    ("network-request-failed", NetworkText),
    ("quota-exceeded", QuotaText)]

  /** An `AppError` is mapped by its code alone when the code has a text;
      otherwise its own message is shown, or the generic text when that
      message is empty. Its message is never searched for store fragments. */
  lemma FriendlyAppError(e: Error)
    requires e.AppError?
    ensures e.code in CodeTexts ==> FriendlyMessage(e) == CodeTexts[e.code]
    ensures e.code !in CodeTexts ==> FriendlyMessage(e) == if e.message != "" then e.message else GenericText
  {
  }

  /** A plain error shows the text of the first fragment its message
      contains, or the generic text when it contains none. */
  lemma FriendlyPlainError(e: Error)
    requires e.PlainError?
    ensures forall k :: (0 <= k < |FirebaseHints| && Contains(e.message, FirebaseHints[k].0)
                         && forall j :: 0 <= j < k ==> !Contains(e.message, FirebaseHints[j].0))
                        ==> FriendlyMessage(e) == FirebaseHints[k].1
    ensures (forall k :: 0 <= k < |FirebaseHints| ==> !Contains(e.message, FirebaseHints[k].0))
            ==> FriendlyMessage(e) == GenericText
  {
    var m := e.message;
    assert FirebaseHints[0].0 == "permission-denied" && FirebaseHints[1].0 == "network-request-failed"
      && FirebaseHints[2].0 == "quota-exceeded";
    forall k | 0 <= k < |FirebaseHints| && Contains(m, FirebaseHints[k].0)
        && (forall j :: 0 <= j < k ==> !Contains(m, FirebaseHints[j].0))
      ensures FriendlyMessage(e) == FirebaseHints[k].1
    {
      if k >= 1 {
        assert !Contains(m, FirebaseHints[0].0);
      }
      if k == 2 {
        assert !Contains(m, FirebaseHints[1].0);
      }
    }
  }

  /** Every message shown for a plain error is one of four fixed texts. */
  lemma FriendlyPlainFixed(e: Error)
    requires e.PlainError?
    ensures FriendlyMessage(e) in {PermissionText, NetworkText, QuotaText, GenericText}
  {
  }

  // ----- handling -----

  /** The user id of a context, when it is a non-empty string. */
  predicate HasUser(ctx: Context) {
    ctx.userId.Some? && ctx.userId.value != ""
  }

  /** The `error_occurred` event `handleError` appends for a context that
      names a user, unless the append throws `logFault`, which is swallowed. */
  function ErrorLog(ctx: Context, logFault: Option<Thrown>): (r: seq<UserEventLog>)
    ensures |r| <= 1
    ensures r != [] <==> HasUser(ctx) && logFault.None?
    ensures r != [] ==> r[0].userId == ctx.userId.value && r[0].action == "error_occurred" && r[0].campaignId == ctx.campaignId
  {
    if HasUser(ctx) && logFault.None? then [UserEventLog(ctx.userId.value, "error_occurred", ctx.campaignId)] else []
  }

  /** `handleError(error, context)`: the friendly message, and the event
      appended to the log. */
  function HandleError(e: Error, ctx: Context, logFault: Option<Thrown>): (r: (string, seq<UserEventLog>))
    ensures r.0 == FriendlyMessage(e)
    ensures r.1 == ErrorLog(ctx, logFault)
  {
    (FriendlyMessage(e), ErrorLog(ctx, logFault))
  }

  /** How an operation ended: with a value, by throwing an `Error` (or any
      object with a string `message`), by throwing `null` or `undefined`, or
      by throwing some other value, which has no string `message`. */
  datatype Attempted<T> = Done(value: T) | Raised(error: Error) | RaisedNullish | RaisedOther

  /** How the promise of `withErrorHandling` settles: to `{data}`, to
      `{error}`, or by rejecting with the `TypeError` raised inside
      `handleError` itself. */
  datatype Handled<T> = Data(data: T) | Reported(error: string) | Escaped

  /** `withErrorHandling(operation, context)`: the operation's value, or the
      friendly message of the error it threw, whether or not logging worked.
      A thrown `null` or `undefined` breaks the first read of
      `error.message`, before anything is logged; another non-`Error` value
      is logged like an error, then breaks `error.message.includes`. Either
      way the returned promise rejects. */
  function WithErrorHandling<T>(op: Attempted<T>, ctx: Context, logFault: Option<Thrown>): (r: (Handled<T>, seq<UserEventLog>))
    ensures r.0.Data? <==> op.Done?
    ensures r.0.Reported? <==> op.Raised?
    ensures op.Done? ==> r.0 == Data(op.value) && r.1 == []
    ensures op.Raised? ==> r.0 == Reported(FriendlyMessage(op.error)) && r.1 == ErrorLog(ctx, logFault)
    ensures op.RaisedNullish? ==> r.0 == Escaped && r.1 == []
    ensures op.RaisedOther? ==> r.0 == Escaped && r.1 == ErrorLog(ctx, logFault)
  {
    match op
    case Done(v) => (Data(v), [])
    case Raised(e) =>
      var (message, logged) := HandleError(e, ctx, logFault);
      (Reported(message), logged)
    case RaisedNullish => (Escaped, [])
    case RaisedOther => (Escaped, ErrorLog(ctx, logFault))
  }

  /** The texts a caller can be shown: an `AppError` whose code has no text
      of its own and whose message is not empty shows that message; every
      other `{error}` is one of the fixed texts. */
  lemma ReportedTexts<T>(op: Attempted<T>, ctx: Context, logFault: Option<Thrown>)
    requires WithErrorHandling(op, ctx, logFault).0.Reported?
    ensures var m := WithErrorHandling(op, ctx, logFault).0.error;
      || m in CodeTexts.Values
      || m in {PermissionText, NetworkText, QuotaText, GenericText}
      || (op.error.AppError? && op.error.code !in CodeTexts && m == op.error.message)
  {
    var e := op.error;
    if e.AppError? {
      FriendlyAppError(e);
      if e.code in CodeTexts {
        assert CodeTexts[e.code] in CodeTexts.Values;
      }
    } else {
      FriendlyPlainFixed(e);
    }
  }

  // ----- validators -----

  /** A JavaScript value, as far as truthiness is concerned. */
  datatype JsValue = Str(s: string) | Num(n: int) | Bool(b: bool) | Null | Undefined | Object

  /** The falsy values (`NaN` is not modelled). */
  predicate Falsy(v: JsValue) {
    v == Str("") || v == Num(0) || v == Bool(false) || v == Null || v == Undefined
  }

  /** `validateRequired(value, fieldName, context)`: the error it throws, if
      any. It rejects exactly the falsy values and the whitespace-only
      strings. */
  function ValidateRequired(value: JsValue, fieldName: string, ctx: Context): (r: Option<Error>)
    ensures r.Some? <==> Falsy(value) || (value.Str? && IsBlank(value.s))
    ensures r.Some? ==> r.value == AppError(fieldName + " is required", RequiredFieldMissing, ctx)
  {
    if Falsy(value) || (value.Str? && Trim(value.s) == "") then
      Some(AppError(fieldName + " is required", RequiredFieldMissing, ctx))
    else None
  }

  /** One part of an address: non-empty, no whitespace and no `@`
      (`[^\s@]+`). */
  predicate EmailPart(s: string) {
    |s| > 0 && forall k :: 0 <= k < |s| ==> !IsSpace(s[k]) && s[k] != '@'
  }

  /** What `/^[^\s@]+@[^\s@]+\.[^\s@]+$/` accepts: a part, `@`, a part, a
      dot and a part. */
  ghost predicate MatchesEmail(s: string) {
    exists i, j :: 0 <= i < j < |s| && s[i] == '@' && s[j] == '.'
      && EmailPart(s[..i]) && EmailPart(s[i + 1..j]) && EmailPart(s[j + 1..])
  }

  /** The check run on an address: a non-empty local part before the first
      `@`, no whitespace, no second `@`, and a dot inside the domain. */
  predicate ValidEmail(s: string) {
    var at := IndexOf(s, "@");
    && 0 < at
    && (forall k :: 0 <= k < |s| ==> !IsSpace(s[k]))
    && var d := s[at + 1..];
       && !Contains(d, "@")
       && 3 <= |d|
       && Contains(d[1..|d| - 1], ".")
  }

  /** A one-character pattern is absent exactly when the character is. */
  lemma NoCharInside(s: string, c: char)
    ensures !Contains(s, [c]) <==> forall k :: 0 <= k < |s| ==> s[k] != c
  {
    if Contains(s, [c]) {
      OccursChar(s, c, IndexOf(s, [c]));
    } else {
      forall k | 0 <= k < |s|
        ensures s[k] != c
      {
        OccursChar(s, c, k);
        if s[k] == c {
          ContainsAt(s, [c], k);
        }
      }
    }
  }

  lemma ValidEmailMatches(s: string)
    requires ValidEmail(s)
    ensures MatchesEmail(s)
  {
    var i := IndexOf(s, "@");
    OccursChar(s, '@', i);
    var d := s[i + 1..];
    NoCharInside(d, '@');
    var inner := d[1..|d| - 1];
    var m := IndexOf(inner, ".");
    OccursChar(inner, '.', m);
    var j := i + 2 + m;
    assert s[j] == inner[m];
    forall k | 0 <= k < i
      ensures s[k] != '@'
    {
      OccursChar(s, '@', k);
    }
    assert forall k :: i < k < |s| ==> s[k] == d[k - i - 1];
    assert EmailPart(s[..i]);
    assert EmailPart(s[i + 1..j]);
    assert EmailPart(s[j + 1..]);
  }

  /** A character inside a part is neither whitespace nor `@`. */
  lemma InPart(s: string, lo: int, hi: int, k: int)
    requires 0 <= lo <= k < hi <= |s| && EmailPart(s[lo..hi])
    ensures !IsSpace(s[k]) && s[k] != '@'
  {
    assert s[k] == s[lo..hi][k - lo];
  }

  /** The parts of a matched address hold no whitespace, and `@` only
      between the first two. */
  lemma MatchedCharacters(s: string, i: int, j: int)
    requires 0 <= i < j < |s| && s[i] == '@' && s[j] == '.'
    requires EmailPart(s[..i]) && EmailPart(s[i + 1..j]) && EmailPart(s[j + 1..])
    ensures forall k :: 0 <= k < |s| ==> !IsSpace(s[k]) && (k != i ==> s[k] != '@')
  {
    assert s[..i] == s[0..i];
    assert s[j + 1..] == s[j + 1..|s|];
    forall k | 0 <= k < |s|
      ensures !IsSpace(s[k]) && (k != i ==> s[k] != '@')
    {
      if k < i {
        InPart(s, 0, i, k);
      } else if i < k < j {
        InPart(s, i + 1, j, k);
      } else if j < k {
        InPart(s, j + 1, |s|, k);
      }
    }
  }

  lemma MatchesValidEmail(s: string)
    requires MatchesEmail(s)
    ensures ValidEmail(s)
  {
    var i, j :| 0 <= i < j < |s| && s[i] == '@' && s[j] == '.'
      && EmailPart(s[..i]) && EmailPart(s[i + 1..j]) && EmailPart(s[j + 1..]);
    MatchedCharacters(s, i, j);
    ValidEmailAt(s, i, j);
  }

  /** An address with its only `@` at `i`, a dot at `j` with something on
      either side, and no whitespace, passes the check. */
  lemma ValidEmailAt(s: string, i: int, j: int)
    requires 0 < i && i + 1 < j < |s| - 1 && s[i] == '@' && s[j] == '.'
    requires forall k :: 0 <= k < |s| ==> !IsSpace(s[k]) && (k != i ==> s[k] != '@')
    ensures ValidEmail(s)
  {
    OnlyAt(s, i);
    DotInside(s, i, j);
  }

  /** When the only `@` stands at `i`, it is the first, and none follows. */
  lemma OnlyAt(s: string, i: int)
    requires 0 <= i < |s| && s[i] == '@'
    requires forall k :: 0 <= k < |s| && k != i ==> s[k] != '@'
    ensures IndexOf(s, "@") == i && !Contains(s[i + 1..], "@")
  {
    var at := IndexOf(s, "@");
    OccursChar(s, '@', i);
    OccursChar(s, '@', at);
    var d := s[i + 1..];
    assert forall k :: 0 <= k < |d| ==> d[k] == s[i + 1 + k];
    NoCharInside(d, '@');
  }

  /** A dot at `j`, with something between `i` and it and something after
      it, lies inside the domain that follows `i`. */
  lemma DotInside(s: string, i: int, j: int)
    requires 0 <= i && i + 1 < j < |s| - 1 && s[j] == '.'
    ensures var d := s[i + 1..]; 3 <= |d| && Contains(d[1..|d| - 1], ".")
  {
    var d := s[i + 1..];
    var inner := d[1..|d| - 1];
    assert inner[j - i - 2] == '.';
    OccursChar(inner, '.', j - i - 2);
    ContainsAt(inner, ".", j - i - 2);
  }

  /** The address check accepts exactly the addresses of the pattern. */
  lemma ValidEmailIff(s: string)
    ensures ValidEmail(s) <==> MatchesEmail(s)
  {
    if ValidEmail(s) {
      ValidEmailMatches(s);
    }
    if MatchesEmail(s) {
      MatchesValidEmail(s);
    }
  }

  /** `validateEmail(email, context)`: the error it throws, if any. */
  function ValidateEmail(email: string, ctx: Context): (r: Option<Error>)
    ensures r.Some? ==> r.value == AppError("Invalid email format", ValidationError, ctx)
  {
    if ValidEmail(email) then None else Some(AppError("Invalid email format", ValidationError, ctx))
  }

  /** `validateEmail` throws exactly for the addresses outside the pattern. */
  lemma ValidateEmailIff(email: string, ctx: Context)
    ensures ValidateEmail(email, ctx).None? <==> MatchesEmail(email)
  {
    ValidEmailIff(email);
  }

  /** A character `phone.replace(/[\s\-$]/g, "")` removes. */
  predicate PhoneFiller(c: char) {
    IsSpace(c) || c == '-' || c == '$'
  }

  /** The telephone with whitespace, `-` and `$` removed, everything else
      kept in order. */
  function CleanPhone(phone: string): (r: string)
    ensures forall k :: 0 <= k < |r| ==> !PhoneFiller(r[k])
  {
    Filter(phone, (c: char) => !PhoneFiller(c))
  }

  /** Cleaning keeps every other character, in order and as often as it
      occurs. */
  lemma CleanPhoneKeeps(phone: string)
    ensures IsSubsequence(CleanPhone(phone), phone)
    ensures forall c :: !PhoneFiller(c) ==> multiset(CleanPhone(phone))[c] == multiset(phone)[c]
  {
    FilterKeeps(phone, (c: char) => !PhoneFiller(c));
  }

  /** Cleaning a clean telephone changes nothing. */
  lemma CleanPhoneIdempotent(phone: string)
    ensures CleanPhone(CleanPhone(phone)) == CleanPhone(phone)
  {
    FilterIdempotent(phone, (c: char) => !PhoneFiller(c));
  }

  /** Four to fifteen digits, the first of them not `0`. */
  predicate NationalNumber(s: string) {
    && 4 <= |s| <= 15
    && '1' <= s[0] <= '9'
    && forall k :: 0 <= k < |s| ==> IsDigit(s[k])
  }

  /** What `/^[+]?[1-9][\d]{3,14}$/` accepts. */
  predicate MatchesPhone(s: string) {
    NationalNumber(s) || (|s| > 0 && s[0] == '+' && NationalNumber(s[1..]))
  }

  /** An accepted number is digits with at most a leading `+`: 4 to 15 digits
      in all. */
  lemma MatchesPhoneShape(s: string)
    requires MatchesPhone(s)
    ensures 4 <= |s| <= 16
    ensures forall k :: 0 <= k < |s| ==> IsDigit(s[k]) || (k == 0 && s[k] == '+')
    ensures s[0] == '+' ==> |s| >= 5
  {
    if !NationalNumber(s) {
      assert forall k :: 1 <= k < |s| ==> s[k] == s[1..][k - 1];
    }
  }

  /** The shape of an accepted number, written on its characters: an
      optional leading `+`, then 4 to 15 characters, all digits, the first
      not `0`. */
  predicate PhoneShape(s: string) {
    var lead := if |s| > 0 && s[0] == '+' then 1 else 0;
    && 4 + lead <= |s| <= 15 + lead
    && '1' <= s[lead] <= '9'
    && forall k :: lead <= k < |s| ==> IsDigit(s[k])
  }

  /** The phone pattern accepts exactly the numbers of that shape. */
  lemma MatchesPhoneIff(s: string)
    ensures MatchesPhone(s) <==> PhoneShape(s)
  {
    if |s| > 0 && s[0] == '+' {
      var d := s[1..];
      assert forall k :: 0 <= k < |d| ==> d[k] == s[k + 1];
      assert !NationalNumber(s);
    }
  }

  /** `validatePhone(phone, context)`: the error it throws, if any. */
  function ValidatePhone(phone: string, ctx: Context): (r: Option<Error>)
    ensures r.None? <==> MatchesPhone(CleanPhone(phone))
    ensures r.Some? ==> r.value == AppError("Invalid phone number format", ValidationError, ctx)
  {
    if MatchesPhone(CleanPhone(phone)) then None
    else Some(AppError("Invalid phone number format", ValidationError, ctx))
  }

  /** `validatePhone` throws exactly when the cleaned number is not of the
      accepted shape. */
  lemma ValidatePhoneIff(phone: string, ctx: Context)
    ensures ValidatePhone(phone, ctx).None? <==> PhoneShape(CleanPhone(phone))
  {
    MatchesPhoneIff(CleanPhone(phone));
  }

  /** A leading `+` is optional; a leading zero, or fewer than four digits,
      is rejected. */
  lemma MatchesPhoneExamples()
    ensures MatchesPhone("+15550123") && MatchesPhone("5550123")
    ensures !MatchesPhone("05550123") && !MatchesPhone("+123") && !MatchesPhone("++5550123")
  {
    assert "+15550123"[1..] == "15550123";
    assert "+123"[1..] == "123";
    assert "++5550123"[1..] == "+5550123";
  }
}

=== FILE: execution.dfy ===
/** `executeCampaign`: the campaign status machine (draft, sending,
    completed, and back to draft on failure), the per-recipient delivery over
    every chosen method, and the counters and error texts it reports.
    Provider replies and store failures come from an environment; pauses and
    progress reports are recorded rather than performed. */
module Execution {
  import opened Common
  import opened Text
  import opened Seqs
  import opened Firestore
  import opened Messaging

  /** Attempts per method and recipient. */
  const MaxAttempts := 3
  /** How many recipients the directory fetch returns. */
  const DirectoryLimit := 1000
  /** The pause after each recipient that was found, in milliseconds. */
  const RecipientPause := 100

  const MissingIdMessage := "Campaign ID is required"
  const NoRowsMessage := "No recipients found for this campaign"

  /** `CampaignExecutionResult`. */
  datatype ExecutionResult = ExecutionResult(totalRecipients: nat, successCount: nat, failureCount: nat, errors: seq<string>)

  /** Everything outside the program that decides how a run goes:
      - `reply(rowId, j, k)`: the provider's reply to attempt `k` of the
        campaign's `j`-th method for join document `rowId`;
      - `sentLog(rowId, j)`, `rowWrite(rowId, j)`: what the `message_sent`
        append and the join-document update after that method throw, if
        anything;
      - the other `Option`s: what each campaign-level store call throws, if
        anything;
      - `missingDocument`: what `updateDoc` throws when the campaign
        document does not exist;
      - `now`: the instant `Timestamp.now()` reports. */
  datatype Env = Env(
    reply: (string, nat, nat) -> ProviderReply,
    sentLog: (string, nat) -> Option<Thrown>,
    rowWrite: (string, nat) -> Option<Thrown>,
    statusWrite: Option<Thrown>,
    rowsRead: Option<Thrown>,
    directoryRead: Option<Thrown>,
    completeWrite: Option<Thrown>,
    completeLog: Option<Thrown>,
    rollbackWrite: Option<Thrown>,
    failureLog: Option<Thrown>,
    missingDocument: Thrown,
    now: Timestamp)

  /** What the run shows the outside: an `onProgress` call, or one request to
      a provider. */
  datatype Event =
    | Progress(sent: nat, total: nat, current: string)
    | Request(channel: Method, to: string, text: string)

  /** How `executeCampaign` ends: it returns a result or throws. */
  datatype Outcome = Returned(result: ExecutionResult) | Threw(thrown: Thrown)

  // ----- one recipient, every method -----

  /** `method.toUpperCase()`. */
  function Label(m: Method): string {
    ToUpper(MethodName(m))
  }

  /** One entry of a recipient's error list. */
  function MethodError(m: Method, text: string): string {
    Label(m) + ": " + text
  }

  /** `${messageResult.error}`. */
  function ShownError(e: Option<string>): string {
    match e
    case Some(s) => s
    case None => "undefined"
  }

  /** The message of a value caught around a method. */
  function Caught(t: Thrown): string {
    MessageOf(t, "Unknown error")
  }

  /** The retry run of the campaign's `j`-th method for one join document:
      at least one request and at most `MaxAttempts`. */
  function MethodRun(c: Campaign, env: Env, rowId: string, j: nat): (r: RetryRun)
    requires j < |c.methods|
    ensures 1 <= r.sends <= MaxAttempts && r.sends == r.result.attempts
  {
    var replies := (k: nat) => env.reply(rowId, j, k);
    RetryOutcome(c.methods[j], replies, MaxAttempts);
    SendWithRetry(c.methods[j], replies, MaxAttempts)
  }

  /** The retry runs of every method for one join document, in method order. */
  function Runs(c: Campaign, env: Env, rowId: string): (r: seq<RetryRun>)
    ensures |r| == |c.methods|
    ensures forall j :: 0 <= j < |r| ==> r[j] == MethodRun(c, env, rowId, j)
  {
    seq(|c.methods|, j requires 0 <= j < |c.methods| => MethodRun(c, env, rowId, j))
  }

  /** `n` identical requests. */
  function Requests(m: Method, to: string, text: string, n: nat): (r: seq<Event>)
    ensures |r| == n && forall k :: 0 <= k < n ==> r[k] == Request(m, to, text)
  {
    seq(n, _ => Request(m, to, text))
  }

  /** The join-document update after one method: status and attempts always,
      the send instant only on success, the error text only when there is a
      non-empty one; fields not written keep their stored value. */
  function ApplyResult(row: CampaignRecipient, res: MessageResult, now: Timestamp): (r: CampaignRecipient)
    ensures r.id == row.id && r.campaignId == row.campaignId && r.recipientId == row.recipientId
    ensures r.status == (if res.success then Sent else Failed) && r.attempts == res.attempts
    ensures r.sentAt == (if res.success then Some(now) else row.sentAt)
    ensures res.error.None? || res.error.value == "" ==> r.errorMessage == row.errorMessage
    ensures res.error.Some? && res.error.value != "" ==> r.errorMessage == res.error
  {
    row.(status := if res.success then Sent else Failed,
         attempts := res.attempts,
         sentAt := if res.success then Some(now) else row.sentAt,
         errorMessage := if res.error.Some? && res.error.value != "" then res.error else row.errorMessage)
  }

  function SentEvent(c: Campaign): UserEventLog {
    UserEventLog(c.createdBy, "message_sent", Some(c.id))
  }

  /** The state of one recipient's delivery after some methods. */
  datatype Delivery = Delivery(
    success: bool,
    errors: seq<string>,
    row: CampaignRecipient,
    trace: seq<Event>,
    log: seq<UserEventLog>,
    waits: seq<nat>)

  /** The entry a method whose retries all failed adds: `METHOD: <error>`. */
  function ResultNote(m: Method, res: MessageResult): seq<string> {
    if res.success then [] else [MethodError(m, ShownError(res.error))]
  }

  /** The entry a store failure around method `j` adds, caught by the
      method's own handler: the `message_sent` append after a success, or
      else the join-document update, which is not attempted once the append
      has thrown. */
  function StoreNote(m: Method, env: Env, rowId: string, j: nat, res: MessageResult): seq<string> {
    if res.success && env.sentLog(rowId, j).Some? then [MethodError(m, Caught(env.sentLog(rowId, j).value))]
    else if env.rowWrite(rowId, j).Some? then [MethodError(m, Caught(env.rowWrite(rowId, j).value))]
    else []
  }

  /** The `message_sent` event a method appends: one after a success, unless
      the append throws. */
  function SentNote(c: Campaign, env: Env, rowId: string, j: nat, res: MessageResult): seq<UserEventLog> {
    if res.success && env.sentLog(rowId, j).None? then [SentEvent(c)] else []
  }

  /** One method for one recipient: its `run`, then, after a success, the
      `message_sent` append, then the join-document update. An error thrown
      by either store call becomes one more error entry for the method. */
  function Step(c: Campaign, env: Env, to: string, text: string, rowId: string, d: Delivery, j: nat, run: RetryRun): (r: Delivery)
    requires j < |c.methods|
    ensures r.errors == d.errors + ResultNote(c.methods[j], run.result) + StoreNote(c.methods[j], env, rowId, j, run.result)
    ensures r.log == d.log + SentNote(c, env, rowId, j, run.result)
    ensures r.success == (d.success || run.result.success)
    ensures r.trace == d.trace + Requests(c.methods[j], to, text, run.sends)
    ensures r.waits == d.waits + run.waits
    ensures r.row == if Written(env, rowId, j, run) then ApplyResult(d.row, run.result, env.now) else d.row
  {
    var m := c.methods[j];
    var res := run.result;
    var sent := d.(trace := d.trace + Requests(m, to, text, run.sends), waits := d.waits + run.waits);
    var noted :=
      if res.success then sent.(success := true)
      else sent.(errors := sent.errors + [MethodError(m, ShownError(res.error))]);
    if res.success && env.sentLog(rowId, j).Some? then
      noted.(errors := noted.errors + [MethodError(m, Caught(env.sentLog(rowId, j).value))])
    else
      var logged := if res.success then noted.(log := noted.log + [SentEvent(c)]) else noted;
      match env.rowWrite(rowId, j)
      case Some(t) => logged.(errors := logged.errors + [MethodError(m, Caught(t))])
      case None => logged.(row := ApplyResult(logged.row, res, env.now))
  }

  /** The first `n` methods for one recipient, reached at `to`, with the
      personalised `text`, starting from the stored join document `row0`;
      `runs[j]` is how the retries of method `j` went. */
  function Deliver(c: Campaign, env: Env, to: string, text: string, row0: CampaignRecipient, runs: seq<RetryRun>, n: nat): Delivery
    requires |runs| == |c.methods| && n <= |runs|
    decreases n
  {
    if n == 0 then Delivery(false, [], row0, [], [], [])
    else Step(c, env, to, text, row0.id, Deliver(c, env, to, text, row0, runs, n - 1), n - 1, runs[n - 1])
  }

  /** The recipient counts as reached iff at least one method succeeded,
      whatever the store did afterwards. */
  lemma {:induction false} DeliverSuccessIff(c: Campaign, env: Env, to: string, text: string, row0: CampaignRecipient, runs: seq<RetryRun>, n: nat)
    requires |runs| == |c.methods| && n <= |runs|
    ensures Deliver(c, env, to, text, row0, runs, n).success <==> exists j :: 0 <= j < n && runs[j].result.success
    decreases n
  {
    if n > 0 {
      DeliverSuccessIff(c, env, to, text, row0, runs, n - 1);
      var prev := Deliver(c, env, to, text, row0, runs, n - 1);
      assert Deliver(c, env, to, text, row0, runs, n).success == (prev.success || runs[n - 1].result.success);
      if prev.success {
        var j :| 0 <= j < n - 1 && runs[j].result.success;
      }
      if exists j :: 0 <= j < n && runs[j].result.success {
        var j :| 0 <= j < n && runs[j].result.success;
        if j < n - 1 {
          assert prev.success;
        }
      }
    }
  }

  /** Every method is tried whatever earlier methods or the store did: each
      makes as many requests as its run reports, all to `to` with `text`. */
  lemma {:induction false} DeliverRequests(c: Campaign, env: Env, to: string, text: string, row0: CampaignRecipient, runs: seq<RetryRun>, n: nat)
    requires |runs| == |c.methods| && n <= |runs|
    requires forall j :: 0 <= j < n ==> 1 <= runs[j].sends <= MaxAttempts
    ensures var d := Deliver(c, env, to, text, row0, runs, n);
      && n <= |d.trace| <= MaxAttempts * n
      && forall k :: 0 <= k < |d.trace| ==> d.trace[k].Request? && d.trace[k].to == to && d.trace[k].text == text
    decreases n
  {
    if n > 0 {
      DeliverRequests(c, env, to, text, row0, runs, n - 1);
      var prev := Deliver(c, env, to, text, row0, runs, n - 1).trace;
      var more := Requests(c.methods[n - 1], to, text, runs[n - 1].sends);
      var d := Deliver(c, env, to, text, row0, runs, n);
      assert d.trace == prev + more;
      forall k | 0 <= k < |d.trace|
        ensures d.trace[k].Request? && d.trace[k].to == to && d.trace[k].text == text
      {
        if k < |prev| {
          assert d.trace[k] == prev[k];
        } else {
          assert d.trace[k] == more[k - |prev|];
        }
      }
    }
  }

  /** The join-document update of method `j` was made: neither it nor, after
      a success, the `message_sent` append threw. */
  predicate Written(env: Env, rowId: string, j: nat, run: RetryRun) {
    env.rowWrite(rowId, j).None? && (run.result.success ==> env.sentLog(rowId, j).None?)
  }

  /** The last method whose update was made decides the stored status and
      attempt count. */
  lemma DeliverLastWriteWins(c: Campaign, env: Env, to: string, text: string, row0: CampaignRecipient, runs: seq<RetryRun>, n: nat)
    requires |runs| == |c.methods| && 1 <= n <= |runs|
    requires Written(env, row0.id, n - 1, runs[n - 1])
    ensures var d := Deliver(c, env, to, text, row0, runs, n);
      var res := runs[n - 1].result;
      && d.row.status == (if res.success then Sent else Failed)
      && d.row.attempts == res.attempts
  {
  }

  /** When the last method's update was not made the previous state is kept,
      and when no update was made the join document is left as stored. */
  lemma {:induction false} DeliverUnwritten(c: Campaign, env: Env, to: string, text: string, row0: CampaignRecipient, runs: seq<RetryRun>, n: nat)
    requires |runs| == |c.methods| && n <= |runs|
    ensures 1 <= n && !Written(env, row0.id, n - 1, runs[n - 1]) ==>
      Deliver(c, env, to, text, row0, runs, n).row == Deliver(c, env, to, text, row0, runs, n - 1).row
    ensures (forall j :: 0 <= j < n ==> !Written(env, row0.id, j, runs[j])) ==>
      Deliver(c, env, to, text, row0, runs, n).row == row0
    decreases n
  {
    if n > 0 {
      DeliverUnwritten(c, env, to, text, row0, runs, n - 1);
    }
  }

  /** The join document after the updates of the first `n` methods. */
  function RowAfter(env: Env, rowId: string, row0: CampaignRecipient, runs: seq<RetryRun>, n: nat): CampaignRecipient
    requires n <= |runs|
    decreases n
  {
    if n == 0 then row0
    else
      var prev := RowAfter(env, rowId, row0, runs, n - 1);
      if Written(env, rowId, n - 1, runs[n - 1]) then ApplyResult(prev, runs[n - 1].result, env.now) else prev
  }

  /** A delivery leaves the join document its updates make. */
  lemma {:induction false} DeliverRow(c: Campaign, env: Env, to: string, text: string, row0: CampaignRecipient, runs: seq<RetryRun>, n: nat)
    requires |runs| == |c.methods| && n <= |runs|
    ensures Deliver(c, env, to, text, row0, runs, n).row == RowAfter(env, row0.id, row0, runs, n)
    decreases n
  {
    if n > 0 {
      DeliverRow(c, env, to, text, row0, runs, n - 1);
    }
  }

  /** A method that succeeded and was recorded sets the send instant, and
      nothing else does; the document keeps its identity. */
  lemma DeliverSentAt(c: Campaign, env: Env, to: string, text: string, row0: CampaignRecipient, runs: seq<RetryRun>, n: nat)
    requires |runs| == |c.methods| && n <= |runs|
    ensures var d := Deliver(c, env, to, text, row0, runs, n);
      && d.row.id == row0.id && d.row.campaignId == row0.campaignId && d.row.recipientId == row0.recipientId
      && d.row.sentAt == (if exists j :: 0 <= j < n && Written(env, row0.id, j, runs[j]) && runs[j].result.success
                          then Some(env.now) else row0.sentAt)
  {
    DeliverRow(c, env, to, text, row0, runs, n);
    RowAfterSentAt(env, row0.id, row0, runs, n);
  }

  lemma {:induction false} RowAfterSentAt(env: Env, rowId: string, row0: CampaignRecipient, runs: seq<RetryRun>, n: nat)
    requires n <= |runs|
    ensures var row := RowAfter(env, rowId, row0, runs, n);
      && row.id == row0.id && row.campaignId == row0.campaignId && row.recipientId == row0.recipientId
      && row.sentAt == (if exists j :: 0 <= j < n && Written(env, rowId, j, runs[j]) && runs[j].result.success
                        then Some(env.now) else row0.sentAt)
    decreases n
  {
    if n > 0 {
      RowAfterSentAt(env, rowId, row0, runs, n - 1);
      if exists j :: 0 <= j < n - 1 && Written(env, rowId, j, runs[j]) && runs[j].result.success {
        var j :| 0 <= j < n - 1 && Written(env, rowId, j, runs[j]) && runs[j].result.success;
      }
    }
  }

  /** Method `j`'s update was made and carried a non-empty error text. */
  predicate WritesError(env: Env, rowId: string, j: nat, run: RetryRun) {
    Written(env, rowId, j, run) && run.result.error.Some? && run.result.error.value != ""
  }

  /** Method `j` is the last of the first `n` to write an error text. */
  predicate LastErrorWriter(env: Env, rowId: string, runs: seq<RetryRun>, n: nat, j: nat)
    requires n <= |runs|
  {
    j < n && WritesError(env, rowId, j, runs[j])
    && forall i :: j < i < n ==> !WritesError(env, rowId, i, runs[i])
  }

  /** One more update writes its error text when it has one, and keeps the
      stored one otherwise. */
  lemma RowAfterErrorStep(env: Env, rowId: string, row0: CampaignRecipient, runs: seq<RetryRun>, n: nat)
    requires 1 <= n <= |runs|
    ensures RowAfter(env, rowId, row0, runs, n).errorMessage ==
      if WritesError(env, rowId, n - 1, runs[n - 1]) then runs[n - 1].result.error
      else RowAfter(env, rowId, row0, runs, n - 1).errorMessage
  {
  }

  lemma {:induction false} RowAfterErrorMessage(env: Env, rowId: string, row0: CampaignRecipient, runs: seq<RetryRun>, n: nat)
    requires n <= |runs|
    ensures var row := RowAfter(env, rowId, row0, runs, n);
      && ((forall j: nat :: j < n ==> !WritesError(env, rowId, j, runs[j])) ==> row.errorMessage == row0.errorMessage)
      && forall j: nat :: LastErrorWriter(env, rowId, runs, n, j) ==> row.errorMessage == runs[j].result.error
    decreases n
  {
    if n > 0 {
      RowAfterErrorMessage(env, rowId, row0, runs, n - 1);
      RowAfterErrorStep(env, rowId, row0, runs, n);
      forall j: nat | LastErrorWriter(env, rowId, runs, n, j)
        ensures RowAfter(env, rowId, row0, runs, n).errorMessage == runs[j].result.error
      {
        LastWriterStep(env, rowId, runs, n, j);
      }
    }
  }

  /** The last writer among `n` methods is method `n - 1` when it writes,
      and otherwise the last writer among the first `n - 1`. */
  lemma LastWriterStep(env: Env, rowId: string, runs: seq<RetryRun>, n: nat, j: nat)
    requires 1 <= n <= |runs| && LastErrorWriter(env, rowId, runs, n, j)
    ensures WritesError(env, rowId, n - 1, runs[n - 1]) ==> j == n - 1
    ensures !WritesError(env, rowId, n - 1, runs[n - 1]) ==> LastErrorWriter(env, rowId, runs, n - 1, j)
  {
  }

  /** The stored error text is that of the last method whose update carried
      one; without such a method the stored text is kept. */
  lemma DeliverErrorMessage(c: Campaign, env: Env, to: string, text: string, row0: CampaignRecipient, runs: seq<RetryRun>, n: nat)
    requires |runs| == |c.methods| && n <= |runs|
    ensures var d := Deliver(c, env, to, text, row0, runs, n);
      && ((forall j: nat :: j < n ==> !WritesError(env, row0.id, j, runs[j])) ==> d.row.errorMessage == row0.errorMessage)
      && forall j: nat :: LastErrorWriter(env, row0.id, runs, n, j) ==> d.row.errorMessage == runs[j].result.error
  {
    DeliverRow(c, env, to, text, row0, runs, n);
    RowAfterErrorMessage(env, row0.id, row0, runs, n);
  }

  /** The error entries a fault-free delivery reports: one per failed method,
      in method order. */
  function FailureNotes(c: Campaign, runs: seq<RetryRun>, n: nat): seq<string>
    requires |runs| == |c.methods| && n <= |runs|
    decreases n
  {
    if n == 0 then []
    else
      var res := runs[n - 1].result;
      FailureNotes(c, runs, n - 1) + (if res.success then [] else [MethodError(c.methods[n - 1], ShownError(res.error))])
  }

  /** The error entries of the first `n` methods, store failures included:
      per method, in method order, its failure entry and then the entry of
      the store call that threw. */
  function ErrorNotes(c: Campaign, env: Env, rowId: string, runs: seq<RetryRun>, n: nat): seq<string>
    requires |runs| == |c.methods| && n <= |runs|
    decreases n
  {
    if n == 0 then []
    else
      var res := runs[n - 1].result;
      ErrorNotes(c, env, rowId, runs, n - 1) + ResultNote(c.methods[n - 1], res) + StoreNote(c.methods[n - 1], env, rowId, n - 1, res)
  }

  /** How many of the first `n` methods append `message_sent`. */
  function SentCount(env: Env, rowId: string, runs: seq<RetryRun>, n: nat): nat
    requires n <= |runs|
    decreases n
  {
    if n == 0 then 0
    else SentCount(env, rowId, runs, n - 1) + (if runs[n - 1].result.success && env.sentLog(rowId, n - 1).None? then 1 else 0)
  }

  /** A recipient's errors are the entries of its failed methods and of the
      store calls that threw around any method, in method order; an error
      from a store call never escapes the method. */
  lemma {:induction false} DeliverErrors(c: Campaign, env: Env, to: string, text: string, row0: CampaignRecipient, runs: seq<RetryRun>, n: nat)
    requires |runs| == |c.methods| && n <= |runs|
    ensures Deliver(c, env, to, text, row0, runs, n).errors == ErrorNotes(c, env, row0.id, runs, n)
    decreases n
  {
    if n > 0 {
      DeliverErrors(c, env, to, text, row0, runs, n - 1);
    }
  }

  /** A recipient's log appends are one `message_sent` per successful method
      whose append did not throw. */
  lemma {:induction false} DeliverLog(c: Campaign, env: Env, to: string, text: string, row0: CampaignRecipient, runs: seq<RetryRun>, n: nat)
    requires |runs| == |c.methods| && n <= |runs|
    ensures var d := Deliver(c, env, to, text, row0, runs, n);
      && |d.log| == SentCount(env, row0.id, runs, n)
      && forall k :: 0 <= k < |d.log| ==> d.log[k] == SentEvent(c)
    decreases n
  {
    if n > 0 {
      DeliverLog(c, env, to, text, row0, runs, n - 1);
      var prev := Deliver(c, env, to, text, row0, runs, n - 1).log;
      var d := Deliver(c, env, to, text, row0, runs, n);
      assert d.log == prev + SentNote(c, env, row0.id, n - 1, runs[n - 1].result);
    }
  }

  /** Without store faults the entries are exactly the failed methods'. */
  lemma {:induction false} ErrorNotesWithoutFaults(c: Campaign, env: Env, rowId: string, runs: seq<RetryRun>, n: nat)
    requires |runs| == |c.methods| && n <= |runs|
    requires forall j :: 0 <= j < n ==> env.sentLog(rowId, j).None? && env.rowWrite(rowId, j).None?
    ensures ErrorNotes(c, env, rowId, runs, n) == FailureNotes(c, runs, n)
    decreases n
  {
    if n > 0 {
      ErrorNotesWithoutFaults(c, env, rowId, runs, n - 1);
    }
  }

  /** A failing store call adds exactly one entry to its method's: the
      errors number the failed methods plus the faulted ones. */
  lemma {:induction false} ErrorNotesCount(c: Campaign, env: Env, rowId: string, runs: seq<RetryRun>, n: nat)
    requires |runs| == |c.methods| && n <= |runs|
    ensures |ErrorNotes(c, env, rowId, runs, n)| == |FailureNotes(c, runs, n)| + FaultCount(env, rowId, runs, n)
    decreases n
  {
    if n > 0 {
      ErrorNotesCount(c, env, rowId, runs, n - 1);
      var m, res := c.methods[n - 1], runs[n - 1].result;
      assert ErrorNotes(c, env, rowId, runs, n) == ErrorNotes(c, env, rowId, runs, n - 1) + ResultNote(m, res) + StoreNote(m, env, rowId, n - 1, res);
      assert FailureNotes(c, runs, n) == FailureNotes(c, runs, n - 1) + ResultNote(m, res);
      assert |StoreNote(m, env, rowId, n - 1, res)| == if Written(env, rowId, n - 1, runs[n - 1]) then 0 else 1;
    }
  }

  /** How many of the first `n` methods had a store call throw. */
  function FaultCount(env: Env, rowId: string, runs: seq<RetryRun>, n: nat): nat
    requires n <= |runs|
    decreases n
  {
    if n == 0 then 0
    else FaultCount(env, rowId, runs, n - 1) + (if !Written(env, rowId, n - 1, runs[n - 1]) then 1 else 0)
  }

  /** Without store faults a recipient's errors are exactly the failed
      methods' entries. */
  lemma DeliverErrorsWithoutFaults(c: Campaign, env: Env, to: string, text: string, row0: CampaignRecipient, runs: seq<RetryRun>, n: nat)
    requires |runs| == |c.methods| && n <= |runs|
    requires forall j :: 0 <= j < n ==> env.sentLog(row0.id, j).None? && env.rowWrite(row0.id, j).None?
    ensures Deliver(c, env, to, text, row0, runs, n).errors == FailureNotes(c, runs, n)
  {
    DeliverErrors(c, env, to, text, row0, runs, n);
    ErrorNotesWithoutFaults(c, env, row0.id, runs, n);
  }

  // ----- one join document -----

  /** What processing one join document did: the recipient it found (if
      any), whether a method succeeded, the error entry recorded otherwise,
      the join document as left in the store, the provider requests, the log
      appends and the pauses. */
  datatype RowEffect = RowEffect(
    recipient: Option<Recipient>,
    success: bool,
    error: Option<string>,
    row: CampaignRecipient,
    requests: seq<Event>,
    log: seq<UserEventLog>,
    waits: seq<nat>)

  function NotFoundError(recipientId: string): string {
    "Recipient not found: " + recipientId
  }

  /** The error entry of a recipient no method reached. */
  function RecipientError(r: Recipient, errors: seq<string>): string {
    r.name + " (" + r.telephone + "): " + Join(errors, ", ")
  }

  /** `allRecipients.find(r => r.id === recipientId)`. */
  function LookUp(dir: seq<Recipient>, recipientId: string): (r: Option<Recipient>)
    ensures r.Some? ==> r.value in dir && r.value.id == recipientId
    ensures r.None? <==> forall k :: 0 <= k < |dir| ==> dir[k].id != recipientId
  {
    match FindFirst(dir, (x: Recipient) => x.id == recipientId)
    case None => None
    case Some(k) => Some(dir[k])
  }

  /** One pass of the recipient loop, for the join document `row` against the
      fetched directory `dir`. */
  function ProcessRow(c: Campaign, env: Env, dir: seq<Recipient>, row: CampaignRecipient): (e: RowEffect)
    ensures e.recipient == LookUp(dir, row.recipientId)
    ensures e.success <==> e.error.None?
    ensures e.recipient.None? ==> e == RowEffect(None, false, Some(NotFoundError(row.recipientId)), row, [], [], [])
  {
    match LookUp(dir, row.recipientId)
    case None => RowEffect(None, false, Some(NotFoundError(row.recipientId)), row, [], [], [])
    case Some(r) =>
      var d := Deliver(c, env, r.telephone, Personalize(c.messageText, r.name), row, Runs(c, env, row.id), |c.methods|);
      RowEffect(Some(r), d.success, if d.success then None else Some(RecipientError(r, d.errors)),
                d.row, d.trace, d.log, d.waits + [RecipientPause])
  }

  /** A found recipient counts as a success iff one of the campaign's methods
      got through; otherwise its entry names it and lists every method's
      error. Every method sends the personalised text to its telephone, and
      the recipient is followed by the rate-limit pause. */
  lemma ProcessRowFound(c: Campaign, env: Env, dir: seq<Recipient>, row: CampaignRecipient)
    requires LookUp(dir, row.recipientId).Some?
    ensures var e := ProcessRow(c, env, dir, row);
      var r := LookUp(dir, row.recipientId).value;
      var d := Deliver(c, env, r.telephone, Personalize(c.messageText, r.name), row, Runs(c, env, row.id), |c.methods|);
      && (e.success <==> exists j :: 0 <= j < |c.methods| && MethodRun(c, env, row.id, j).result.success)
      && (!e.success ==> e.error == Some(RecipientError(r, d.errors)))
      && (!e.success ==> e.error == Some(RecipientError(r, ErrorNotes(c, env, row.id, Runs(c, env, row.id), |c.methods|))))
      && |c.methods| <= |e.requests| <= MaxAttempts * |c.methods|
      && (forall k :: 0 <= k < |e.requests| ==>
            e.requests[k].Request? && e.requests[k].to == r.telephone && e.requests[k].text == Personalize(c.messageText, r.name))
      && |e.waits| >= 1 && e.waits[|e.waits| - 1] == RecipientPause
  {
    var r := LookUp(dir, row.recipientId).value;
    var runs := Runs(c, env, row.id);
    var text := Personalize(c.messageText, r.name);
    var d := Deliver(c, env, r.telephone, text, row, runs, |c.methods|);
    assert ProcessRow(c, env, dir, row) == RowEffect(Some(r), d.success, if d.success then None else Some(RecipientError(r, d.errors)),
                                                     d.row, d.trace, d.log, d.waits + [RecipientPause]);
    DeliverSuccessIff(c, env, r.telephone, text, row, runs, |c.methods|);
    DeliverRequests(c, env, r.telephone, text, row, runs, |c.methods|);
    DeliverErrors(c, env, r.telephone, text, row, runs, |c.methods|);
    RunsSucceed(c, env, row.id);
  }

  /** Some run of `Runs` succeeds iff some method's run does. */
  lemma RunsSucceed(c: Campaign, env: Env, rowId: string)
    ensures (exists j :: 0 <= j < |c.methods| && Runs(c, env, rowId)[j].result.success)
        <==> (exists j :: 0 <= j < |c.methods| && MethodRun(c, env, rowId, j).result.success)
  {
    var runs := Runs(c, env, rowId);
    if exists j :: 0 <= j < |c.methods| && runs[j].result.success {
      var j :| 0 <= j < |c.methods| && runs[j].result.success;
      assert MethodRun(c, env, rowId, j).result.success;
    }
    if exists j :: 0 <= j < |c.methods| && MethodRun(c, env, rowId, j).result.success {
      var j :| 0 <= j < |c.methods| && MethodRun(c, env, rowId, j).result.success;
      assert runs[j].result.success;
    }
  }

  /** Only the first `DirectoryLimit` recipients are searched: one stored
      further down the directory is reported exactly like a missing one. */
  lemma BeyondLimitIsMissing(c: Campaign, env: Env, db: Db, row: CampaignRecipient)
    requires forall k :: 0 <= k < |db.directory| && k < DirectoryLimit ==> db.directory[k].id != row.recipientId
    ensures ProcessRow(c, env, RecentRecipients(db, DirectoryLimit), row)
      == RowEffect(None, false, Some(NotFoundError(row.recipientId)), row, [], [], [])
  {
  }

  // ----- the recipient loop -----

  /** The effects of the join documents `ids`, processed in order. */
  function Effects(c: Campaign, env: Env, dir: seq<Recipient>, rows: map<string, CampaignRecipient>, ids: seq<string>): (es: seq<RowEffect>)
    requires forall k :: 0 <= k < |ids| ==> ids[k] in rows
    ensures |es| == |ids|
    ensures forall k :: 0 <= k < |ids| ==> es[k] == ProcessRow(c, env, dir, rows[ids[k]])
  {
    seq(|ids|, k requires 0 <= k < |ids| => ProcessRow(c, env, dir, rows[ids[k]]))
  }

  predicate Succeeded(e: RowEffect) {
    e.success
  }

  function ErrorList(e: RowEffect): seq<string> {
    match e.error
    case Some(s) => [s]
    case None => []
  }

  function LogList(e: RowEffect): seq<UserEventLog> {
    e.log
  }

  function WaitList(e: RowEffect): seq<nat> {
    e.waits
  }

  /** What the outside sees of row `i` of `total`: the progress report, when
      its recipient was found, then that recipient's requests. */
  function RowEvents(e: RowEffect, i: nat, total: nat): seq<Event> {
    match e.recipient
    case None => []
    case Some(r) => [Progress(i, total, r.name)] + e.requests
  }

  /** The loop's running account: the result so far, the events, the pauses
      and the log appends. */
  datatype Account = Account(result: ExecutionResult, trace: seq<Event>, waits: seq<nat>, log: seq<UserEventLog>)

  /** Row `i` of `total` added to the account: one counter grows, a failure
      adds its error entry. */
  function Tally(acc: Account, e: RowEffect, i: nat, total: nat): Account {
    var res := acc.result;
    Account(
      if e.success then res.(successCount := res.successCount + 1)
      else res.(failureCount := res.failureCount + 1, errors := res.errors + ErrorList(e)),
      acc.trace + RowEvents(e, i, total),
      acc.waits + e.waits,
      acc.log + e.log)
  }

  /** The account after the rows `es` of `total`. */
  function Run(es: seq<RowEffect>, total: nat): Account
    decreases |es|
  {
    if |es| == 0 then Account(ExecutionResult(total, 0, 0, []), [], [], [])
    else Tally(Run(es[..|es| - 1], total), es[|es| - 1], |es| - 1, total)
  }

  /** Processing one more row extends the account by that row. */
  lemma RunStep(es: seq<RowEffect>, i: nat, total: nat)
    requires i < |es|
    ensures Run(es[..i + 1], total) == Tally(Run(es[..i], total), es[i], i, total)
  {
    assert es[..i + 1][..i] == es[..i];
  }

  /** Each row increments exactly one counter, so the counters add up to the
      rows processed; successes are the rows that reached their recipient,
      and every failure contributes one error entry, in row order. */
  lemma {:induction false} RunCounts(es: seq<RowEffect>, total: nat)
    requires forall k :: 0 <= k < |es| ==> (es[k].success <==> es[k].error.None?)
    ensures var r := Run(es, total).result;
      && r.totalRecipients == total
      && r.successCount == |Filter(es, Succeeded)|
      && r.successCount + r.failureCount == |es|
      && |r.errors| == r.failureCount
      && r.errors == FlatMap(es, ErrorList)
    ensures Run(es, total).waits == FlatMap(es, WaitList)
    ensures Run(es, total).log == FlatMap(es, LogList)
    decreases |es|
  {
    if |es| > 0 {
      var init := es[..|es| - 1];
      RunCounts(init, total);
      SplitLast(es);
      FilterAppend(init, [es[|es| - 1]], Succeeded);
    }
  }

  /** The counters of a run over join documents: one per document, a success
      for each that reached its recipient, and one error entry per failure. */
  lemma EffectsCounts(c: Campaign, env: Env, dir: seq<Recipient>, rows: map<string, CampaignRecipient>, ids: seq<string>)
    requires forall k :: 0 <= k < |ids| ==> ids[k] in rows
    ensures var es := Effects(c, env, dir, rows, ids);
      var r := Run(es, |ids|).result;
      && r.totalRecipients == |ids|
      && r.successCount + r.failureCount == |ids|
      && r.successCount == |Filter(es, Succeeded)|
      && r.errors == FlatMap(es, ErrorList) && |r.errors| == r.failureCount
  {
    RunCounts(Effects(c, env, dir, rows, ids), |ids|);
  }

  /** The join documents after the loop over `ids`: each of them as its
      pass left it, every other one as stored. */
  function StoredRows(c: Campaign, env: Env, dir: seq<Recipient>, rows: map<string, CampaignRecipient>, ids: seq<string>): (r: map<string, CampaignRecipient>)
    ensures r.Keys == rows.Keys
    ensures forall id :: id in rows ==>
      r[id] == if id in ids then ProcessRow(c, env, dir, rows[id]).row else rows[id]
  {
    map id | id in rows :: if id in ids then ProcessRow(c, env, dir, rows[id]).row else rows[id]
  }

  /** The effects of the rows `ids` under an arbitrary row processor. */
  function EffectsBy(process: CampaignRecipient -> RowEffect, rows: map<string, CampaignRecipient>, ids: seq<string>): (es: seq<RowEffect>)
    requires forall k :: 0 <= k < |ids| ==> ids[k] in rows
    ensures |es| == |ids|
    ensures forall k :: 0 <= k < |ids| ==> es[k] == process(rows[ids[k]])
  {
    seq(|ids|, k requires 0 <= k < |ids| => process(rows[ids[k]]))
  }

  /** The join documents once the rows `ids` are written back by `process`. */
  function StoredBy(process: CampaignRecipient -> RowEffect, rows: map<string, CampaignRecipient>, ids: seq<string>): (r: map<string, CampaignRecipient>)
    ensures r.Keys == rows.Keys
    ensures forall id :: id in rows ==> r[id] == if id in ids then process(rows[id]).row else rows[id]
  {
    map id | id in rows :: if id in ids then process(rows[id]).row else rows[id]
  }

  /** The row processor of campaign `c`. */
  function Processor(c: Campaign, env: Env, dir: seq<Recipient>): CampaignRecipient -> RowEffect {
    row => ProcessRow(c, env, dir, row)
  }

  /** The campaign's own processor gives the campaign's effects and rows. */
  lemma ProcessorAgrees(c: Campaign, env: Env, dir: seq<Recipient>, rows: map<string, CampaignRecipient>, ids: seq<string>)
    requires forall k :: 0 <= k < |ids| ==> ids[k] in rows
    ensures EffectsBy(Processor(c, env, dir), rows, ids) == Effects(c, env, dir, rows, ids)
    ensures StoredBy(Processor(c, env, dir), rows, ids) == StoredRows(c, env, dir, rows, ids)
  {
  }

  /** `cur` holds the documents with the first `i` of `ids` written back. */
  predicate StoredUpTo(process: CampaignRecipient -> RowEffect, rows: map<string, CampaignRecipient>, ids: seq<string>, i: nat, cur: map<string, CampaignRecipient>)
    requires i <= |ids|
  {
    cur.Keys == rows.Keys &&
    forall id :: id in rows ==> cur[id] == if id in ids[..i] then process(rows[id]).row else rows[id]
  }

  /** Writing back the next document extends the stored prefix by one. */
  lemma StoreStep(process: CampaignRecipient -> RowEffect, rows: map<string, CampaignRecipient>, ids: seq<string>, i: nat, cur: map<string, CampaignRecipient>)
    requires i < |ids| && ids[i] in rows && StoredUpTo(process, rows, ids, i, cur)
    ensures StoredUpTo(process, rows, ids, i + 1, cur[ids[i] := process(rows[ids[i]]).row])
  {
    PrefixGrows(ids, i);
  }

  /** Once every document is written back, the store holds `StoredBy`. */
  lemma StoredAll(process: CampaignRecipient -> RowEffect, rows: map<string, CampaignRecipient>, ids: seq<string>, cur: map<string, CampaignRecipient>)
    requires StoredUpTo(process, rows, ids, |ids|, cur)
    ensures cur == StoredBy(process, rows, ids)
  {
    assert ids[..|ids|] == ids;
  }

  /** The loop over the documents `ids` with any row processor: the account
      is the fold of the rows' effects in order, and each document is
      written back once. */
  method SendRows(process: CampaignRecipient -> RowEffect, ids: seq<string>, db: Db)
    returns (acc: Account, db': Db)
    requires forall k :: 0 <= k < |ids| ==> ids[k] in db.rows
    ensures acc == Run(EffectsBy(process, db.rows, ids), |ids|)
    ensures db'.log == db.log + acc.log
    ensures db'.campaigns == db.campaigns && db'.rowOrder == db.rowOrder && db'.directory == db.directory
    ensures db'.rows == StoredBy(process, db.rows, ids)
  {
    ghost var es := EffectsBy(process, db.rows, ids);
    acc := Account(ExecutionResult(|ids|, 0, 0, []), [], [], []);
    db' := db;
    var i := 0;
    while i < |ids|
      invariant 0 <= i <= |ids|
      invariant acc == Run(es[..i], |ids|)
      invariant db'.log == db.log
      invariant db'.campaigns == db.campaigns && db'.rowOrder == db.rowOrder && db'.directory == db.directory
      invariant StoredUpTo(process, db.rows, ids, i, db'.rows)
    {
      var e := process(db.rows[ids[i]]);
      RunStep(es, i, |ids|);
      StoreStep(process, db.rows, ids, i, db'.rows);
      acc := Tally(acc, e, i, |ids|);
      db' := db'.(rows := db'.rows[ids[i] := e.row]);
      i := i + 1;
    }
    assert es[..|ids|] == es;
    StoredAll(process, db.rows, ids, db'.rows);
    db' := db'.(log := db.log + acc.log);
  }

  /** The recipient loop over the join documents `ids` of campaign `c`, given
      the directory `dir` as fetched. Each document is read from the snapshot
      `db.rows` and written back under its id; a document of another campaign
      or outside `ids` is left alone. The log appends are made in row order. */
  method SendAll(c: Campaign, env: Env, dir: seq<Recipient>, ids: seq<string>, db: Db)
    returns (acc: Account, db': Db)
    requires forall k :: 0 <= k < |ids| ==> ids[k] in db.rows
    ensures acc == Run(Effects(c, env, dir, db.rows, ids), |ids|)
    ensures db'.log == db.log + acc.log
    ensures db'.campaigns == db.campaigns && db'.rowOrder == db.rowOrder && db'.directory == db.directory
    ensures db'.rows == StoredRows(c, env, dir, db.rows, ids)
  {
    ProcessorAgrees(c, env, dir, db.rows, ids);
    acc, db' := SendRows(Processor(c, env, dir), ids, db);
  }

  // ----- what the outside sees -----

  /** A row's requests are addressed to the recipient it found: none
      without a recipient, and otherwise every request goes to its telephone
      with the template personalised for its name. */
  predicate Addressed(e: RowEffect, template: string) {
    match e.recipient
    case None => e.requests == []
    case Some(r) => forall k :: 0 <= k < |e.requests| ==>
      e.requests[k].Request? && e.requests[k].to == r.telephone && e.requests[k].text == Personalize(template, r.name)
  }

  /** Every row of a run is addressed to the recipient it found. */
  lemma EffectsAddressed(c: Campaign, env: Env, dir: seq<Recipient>, rows: map<string, CampaignRecipient>, ids: seq<string>)
    requires forall k :: 0 <= k < |ids| ==> ids[k] in rows
    ensures var es := Effects(c, env, dir, rows, ids);
      forall k :: 0 <= k < |es| ==> Addressed(es[k], c.messageText)
  {
    var es := Effects(c, env, dir, rows, ids);
    forall k | 0 <= k < |es|
      ensures Addressed(es[k], c.messageText)
    {
      if LookUp(dir, rows[ids[k]].recipientId).Some? {
        ProcessRowFound(c, env, dir, rows[ids[k]]);
      }
    }
  }

  /** What one addressed row shows: its report first, when its recipient
      was found, and nothing but requests after it. */
  lemma RowEventsShape(e: RowEffect, i: nat, total: nat, template: string)
    requires Addressed(e, template)
    ensures var t := RowEvents(e, i, total);
      && (e.recipient.None? ==> t == [])
      && (e.recipient.Some? ==> |t| > 0 && t[0] == Progress(i, total, e.recipient.value.name))
      && forall k :: 0 < k < |t| ==> t[k] == e.requests[k - 1] && t[k].Request?
  {
  }

  /** Every report in a run is `onProgress({sent: i, total, currentRecipient})`
      for a row `i` whose recipient was found, `currentRecipient` being its
      name. */
  lemma {:induction false} RunReports(es: seq<RowEffect>, total: nat, template: string)
    requires forall k :: 0 <= k < |es| ==> Addressed(es[k], template)
    ensures var t := Run(es, total).trace;
      forall k :: 0 <= k < |t| && t[k].Progress? ==>
        && t[k].sent < |es| && t[k].total == total
        && es[t[k].sent].recipient.Some? && es[t[k].sent].recipient.value.name == t[k].current
    decreases |es|
  {
    if |es| > 0 {
      var n := |es| - 1;
      var init := es[..n];
      var t0 := Run(init, total).trace;
      var more := RowEvents(es[n], n, total);
      var t: seq<Event> := Run(es, total).trace;
      assert t == t0 + more;
      RunReports(init, total, template);
      RowEventsShape(es[n], n, total, template);
      forall k | 0 <= k < |t| && t[k].Progress?
        ensures && t[k].sent < |es| && t[k].total == total
                && es[t[k].sent].recipient.Some? && es[t[k].sent].recipient.value.name == t[k].current
      {
        if k < |t0| {
          assert t[k] == t0[k];
          assert Run(init, total).trace[k].Progress?;
          assert es[t0[k].sent] == init[t0[k].sent];
        } else {
          assert t[k] == more[k - |t0|];
        }
      }
    }
  }

  /** Every row whose recipient was found is reported. */
  lemma {:induction false} RunReportsEvery(es: seq<RowEffect>, total: nat, i: nat)
    requires i < |es| && es[i].recipient.Some?
    ensures Progress(i, total, es[i].recipient.value.name) in Run(es, total).trace
    decreases |es|
  {
    var n := |es| - 1;
    var init := es[..n];
    var t0 := Run(init, total).trace;
    var more := RowEvents(es[n], n, total);
    assert Run(es, total).trace == t0 + more;
    if i < n {
      assert es[i] == init[i];
      RunReportsEvery(init, total, i);
    } else {
      assert more[0] == Progress(i, total, es[i].recipient.value.name);
    }
  }

  /** `onProgress` is called exactly for the rows whose recipient was found,
      with the row index (rows of missing recipients still count), the row
      count and the recipient's name. */
  lemma RunProgress(es: seq<RowEffect>, total: nat, template: string, i: nat, name: string)
    requires forall k :: 0 <= k < |es| ==> Addressed(es[k], template)
    ensures Progress(i, total, name) in Run(es, total).trace <==>
      i < |es| && es[i].recipient.Some? && es[i].recipient.value.name == name
  {
    RunReports(es, total, template);
    if i < |es| && es[i].recipient.Some? && es[i].recipient.value.name == name {
      RunReportsEvery(es, total, i);
    }
  }

  /** The reports in `t` carry strictly increasing row indices. */
  predicate ReportsIncrease(t: seq<Event>) {
    forall k1, k2 :: 0 <= k1 < k2 < |t| && t[k1].Progress? && t[k2].Progress? ==> t[k1].sent < t[k2].sent
  }

  /** The rows are reported in order, `sent` being 0, 1, 2, ... with the
      rows of missing recipients skipped, and no row is reported twice. */
  lemma {:induction false} RunProgressOrdered(es: seq<RowEffect>, total: nat, template: string)
    requires forall k :: 0 <= k < |es| ==> Addressed(es[k], template)
    ensures ReportsIncrease(Run(es, total).trace)
    ensures var t := Run(es, total).trace;
      forall k1, k2 :: 0 <= k1 < |t| && 0 <= k2 < |t| && t[k1].Progress? && t[k2].Progress? && t[k1].sent == t[k2].sent ==> k1 == k2
    decreases |es|
  {
    if |es| > 0 {
      var n := |es| - 1;
      var init := es[..n];
      var t0 := Run(init, total).trace;
      var more := RowEvents(es[n], n, total);
      var t: seq<Event> := Run(es, total).trace;
      assert t == t0 + more;
      RunProgressOrdered(init, total, template);
      RunReports(init, total, template);
      RowEventsShape(es[n], n, total, template);
      forall k1, k2 | 0 <= k1 < k2 < |t| && t[k1].Progress? && t[k2].Progress?
        ensures t[k1].sent < t[k2].sent
      {
        if k2 < |t0| {
          assert t[k1] == t0[k1] && t[k2] == t0[k2];
        } else {
          assert t[k2] == more[k2 - |t0|];
          assert k2 == |t0|;
          assert t[k1] == t0[k1];
          assert Run(init, total).trace[k1].Progress?;
        }
      }
    }
  }

  /** The most recent progress report in `t`, if any. */
  function LastProgress(t: seq<Event>): (r: Option<Event>)
    ensures r.Some? ==> r.value.Progress? && r.value in t
    ensures r.None? <==> forall k :: 0 <= k < |t| ==> !t[k].Progress?
    decreases |t|
  {
    if |t| == 0 then None
    else if t[|t| - 1].Progress? then Some(t[|t| - 1])
    else
      var r := LastProgress(t[..|t| - 1]);
      assert forall k :: 0 <= k < |t| - 1 ==> t[..|t| - 1][k] == t[k];
      r
  }

  /** The last report of `a + b` is the last one of `b`, or else of `a`. */
  lemma {:induction false} LastProgressAppend(a: seq<Event>, b: seq<Event>)
    ensures LastProgress(a + b) == if LastProgress(b).Some? then LastProgress(b) else LastProgress(a)
    decreases |b|
  {
    if |b| == 0 {
      assert a + b == a;
    } else {
      assert (a + b)[..|a + b| - 1] == a + b[..|b| - 1];
      LastProgressAppend(a, b[..|b| - 1]);
    }
  }

  /** Inside the events of the last row, the latest report before a request
      is that row's own. */
  lemma LastRowReport(t0: seq<Event>, e: RowEffect, n: nat, total: nat, template: string, k: nat)
    requires Addressed(e, template)
    requires |t0| <= k < |t0 + RowEvents(e, n, total)| && (t0 + RowEvents(e, n, total))[k].Request?
    ensures e.recipient.Some?
    ensures LastProgress((t0 + RowEvents(e, n, total))[..k]) == Some(Progress(n, total, e.recipient.value.name))
    ensures (t0 + RowEvents(e, n, total))[k] == e.requests[k - |t0| - 1]
  {
    var more := RowEvents(e, n, total);
    RowEventsShape(e, n, total, template);
    var p := Progress(n, total, e.recipient.value.name);
    var done := more[1..k - |t0|];
    assert (t0 + more)[..k] == (t0 + [p]) + done;
    assert forall j :: 0 <= j < |done| ==> done[j] == more[j + 1];
    LastProgressAppend(t0 + [p], done);
    LastProgressAppend(t0, [p]);
  }

  /** Every provider request in a run comes after the progress report of its
      recipient, with no other report in between: the latest report before
      it names the row it belongs to, and the request goes to that row's
      telephone with the template personalised for its name. */
  lemma {:induction false} RunRequestsFollowReport(es: seq<RowEffect>, total: nat, template: string)
    requires forall k :: 0 <= k < |es| ==> Addressed(es[k], template)
    ensures var t := Run(es, total).trace;
      forall k :: 0 <= k < |t| && t[k].Request? ==>
        && LastProgress(t[..k]).Some?
        && LastProgress(t[..k]).value.sent < |es|
        && es[LastProgress(t[..k]).value.sent].recipient.Some?
        && var r := es[LastProgress(t[..k]).value.sent].recipient.value;
           t[k].to == r.telephone && t[k].text == Personalize(template, r.name)
    decreases |es|
  {
    if |es| > 0 {
      var n := |es| - 1;
      var init := es[..n];
      var t0 := Run(init, total).trace;
      var t: seq<Event> := Run(es, total).trace;
      assert t == t0 + RowEvents(es[n], n, total);
      RunRequestsFollowReport(init, total, template);
      forall k | 0 <= k < |t| && t[k].Request?
        ensures && LastProgress(t[..k]).Some?
                && LastProgress(t[..k]).value.sent < |es|
                && es[LastProgress(t[..k]).value.sent].recipient.Some?
                && var r := es[LastProgress(t[..k]).value.sent].recipient.value;
                   t[k].to == r.telephone && t[k].text == Personalize(template, r.name)
      {
        if k < |t0| {
          EarlierRequest(es, total, template, k);
        } else {
          LastRowReport(t0, es[n], n, total, template, k);
        }
      }
    }
  }

  /** The request at `k` of trace `t` follows the report of its own row of
      `es`, and is addressed to that row's recipient. */
  predicate RequestFollows(t: seq<Event>, es: seq<RowEffect>, template: string, k: nat)
    requires k < |t| && t[k].Request?
  {
    && LastProgress(t[..k]).Some?
    && LastProgress(t[..k]).value.sent < |es|
    && es[LastProgress(t[..k]).value.sent].recipient.Some?
    && var r := es[LastProgress(t[..k]).value.sent].recipient.value;
       t[k].to == r.telephone && t[k].text == Personalize(template, r.name)
  }

  /** A request of the rows before the last one keeps its place, and its
      report, once the last row's events are appended. */
  lemma EarlierRequest(es: seq<RowEffect>, total: nat, template: string, k: nat)
    requires |es| > 0
    requires k < |Run(es[..|es| - 1], total).trace| && Run(es[..|es| - 1], total).trace[k].Request?
    requires RequestFollows(Run(es[..|es| - 1], total).trace, es[..|es| - 1], template, k)
    ensures k < |Run(es, total).trace| && Run(es, total).trace[k].Request?
    ensures RequestFollows(Run(es, total).trace, es, template, k)
  {
    var n := |es| - 1;
    var t0 := Run(es[..n], total).trace;
    var t := Run(es, total).trace;
    assert t == t0 + RowEvents(es[n], n, total);
    assert t[..k] == t0[..k];
    assert t[k] == t0[k];
    var p := LastProgress(t0[..k]).value;
    assert es[p.sent] == es[..n][p.sent];
  }

  // ----- the campaign -----

  function CompletedEvent(c: Campaign): UserEventLog {
    UserEventLog(c.createdBy, "campaign_completed", Some(c.id))
  }

  function FailedEvent(c: Campaign): UserEventLog {
    UserEventLog(c.createdBy, "campaign_failed", Some(c.id))
  }

  /** `updateDoc` of a campaign's status, and of its end instant when given. */
  function SetStatus(db: Db, id: string, status: CampaignStatus, endAt: Option<Timestamp>): (r: Db)
    requires id in db.campaigns
    ensures r.campaigns.Keys == db.campaigns.Keys && r.campaigns[id].status == status
    ensures r.campaigns[id].endAt == if endAt.Some? then endAt else db.campaigns[id].endAt
    ensures forall k :: k in db.campaigns && k != id ==> r.campaigns[k] == db.campaigns[k]
    ensures r.rows == db.rows && r.rowOrder == db.rowOrder && r.directory == db.directory && r.log == db.log
  {
    var old_ := db.campaigns[id];
    db.(campaigns := db.campaigns[id := old_.(status := status, endAt := if endAt.Some? then endAt else old_.endAt)])
  }

  /** The recipient loop is reached: the status write and both reads
      succeeded and the campaign has join documents. */
  predicate LoopReached(env: Env, ids: seq<string>) {
    env.statusWrite.None? && env.rowsRead.None? && env.directoryRead.None? && |ids| > 0
  }

  /** What the main block of `executeCampaign` throws, if anything, for a
      campaign whose join documents are `ids`: the first failing store call
      in program order, or the missing-rows error. */
  function Fault(env: Env, ids: seq<string>): (r: Option<Thrown>)
    ensures r.None? ==> LoopReached(env, ids)
    ensures r.Some? && LoopReached(env, ids) ==> env.completeWrite.Some? || env.completeLog.Some?
  {
    if env.statusWrite.Some? then env.statusWrite
    else if env.rowsRead.Some? then env.rowsRead
    else if env.directoryRead.Some? then env.directoryRead
    else if |ids| == 0 then Some(ErrorValue(NoRowsMessage))
    else if env.completeWrite.Some? then env.completeWrite
    else env.completeLog
  }

  /** The main block of `executeCampaign` for a campaign with an id: draft
      to sending, the recipient loop, sending to completed with the end
      instant, and the completion event. It reports the error it throws, if
      any, and the result it would return. */
  method MainBlock(c: Campaign, env: Env, db: Db)
    returns (fault: Option<Thrown>, res: ExecutionResult, db': Db, trace: seq<Event>, waits: seq<nat>)
    requires WellFormed(db)
    requires c.id != "" && c.id in db.campaigns
    ensures var ids := CampaignRows(db, c.id);
      var es := Effects(c, env, RecentRecipients(db, DirectoryLimit), db.rows, ids);
      && fault == Fault(env, ids)
      && (LoopReached(env, ids) ==>
            && trace == Run(es, |ids|).trace && waits == Run(es, |ids|).waits
            && db'.rows == StoredRows(c, env, RecentRecipients(db, DirectoryLimit), db.rows, ids))
      && (!LoopReached(env, ids) ==> trace == [] && waits == [] && db'.rows == db.rows && db'.log == db.log)
      && (fault.None? ==> res == Run(es, |ids|).result && db'.log == db.log + Run(es, |ids|).log + [CompletedEvent(c)])
      && (LoopReached(env, ids) && (env.completeWrite.Some? || env.completeLog.Some?) ==> db'.log == db.log + Run(es, |ids|).log)
    ensures db'.rows.Keys == db.rows.Keys && db'.rowOrder == db.rowOrder && db'.directory == db.directory
    ensures db'.campaigns.Keys == db.campaigns.Keys
    ensures forall k :: k in db.campaigns && k != c.id ==> db'.campaigns[k] == db.campaigns[k]
    ensures var ids := CampaignRows(db, c.id);
      var finished := LoopReached(env, ids) && env.completeWrite.None?;
      && db'.campaigns[c.id].status == (if env.statusWrite.Some? then db.campaigns[c.id].status
                                        else if finished then Completed else Sending)
      && db'.campaigns[c.id].endAt == (if finished then Some(env.now) else db.campaigns[c.id].endAt)
  {
    var ids := CampaignRows(db, c.id);
    fault := Fault(env, ids);
    res := ExecutionResult(|ids|, 0, 0, []);
    db', trace, waits := db, [], [];
    if !LoopReached(env, ids) {
      if env.statusWrite.None? {
        db' := SetStatus(db', c.id, Sending, None);
      }
      return;
    }
    var sending := SetStatus(db, c.id, Sending, None);
    var acc;
    acc, db' := SendAll(c, env, RecentRecipients(sending, DirectoryLimit), ids, sending);
    assert sending.rows == db.rows && RecentRecipients(sending, DirectoryLimit) == RecentRecipients(db, DirectoryLimit);
    assert db'.log == db.log + Run(Effects(c, env, RecentRecipients(db, DirectoryLimit), db.rows, ids), |ids|).log;
    res, trace, waits := acc.result, acc.trace, acc.waits;
    if env.completeWrite.None? {
      db' := SetStatus(db', c.id, Completed, Some(env.now));
      if env.completeLog.None? {
        db' := db'.(log := db'.log + [CompletedEvent(c)]);
      }
    }
  }

  /** `executeCampaign(campaign, onProgress)` against the store `db`. It
      returns the outcome, the store afterwards, the events the outside saw
      and the pauses it asked for. A failure of the main block rolls the
      campaign back to draft, logs `campaign_failed` and rethrows, without
      the partial result; the rollback and that log append are unguarded, so
      an error from either is what escapes instead. */
  method ExecuteCampaign(c: Campaign, env: Env, db: Db)
    returns (out: Outcome, db': Db, trace: seq<Event>, waits: seq<nat>)
    requires WellFormed(db)
    ensures c.id == "" ==> out == Threw(ErrorValue(MissingIdMessage)) && db' == db && trace == [] && waits == []
    ensures c.id != "" && c.id !in db.campaigns ==>
      && out == Threw(if env.rollbackWrite.Some? then env.rollbackWrite.value else env.missingDocument)
      && db' == db && trace == [] && waits == []
    ensures db'.rows.Keys == db.rows.Keys && db'.rowOrder == db.rowOrder && db'.directory == db.directory
    ensures db'.campaigns.Keys == db.campaigns.Keys
    ensures forall k :: k in db.campaigns && k != c.id ==> db'.campaigns[k] == db.campaigns[k]
    ensures c.id != "" && c.id in db.campaigns ==>
      var ids := CampaignRows(db, c.id);
      var es := Effects(c, env, RecentRecipients(db, DirectoryLimit), db.rows, ids);
      && (out.Returned? <==> Fault(env, ids).None?)
      && (LoopReached(env, ids) ==>
            && trace == Run(es, |ids|).trace && waits == Run(es, |ids|).waits
            && db'.rows == StoredRows(c, env, RecentRecipients(db, DirectoryLimit), db.rows, ids))
      && (!LoopReached(env, ids) ==> trace == [] && waits == [] && db'.rows == db.rows)
    ensures c.id != "" && c.id in db.campaigns && out.Returned? ==>
      var ids := CampaignRows(db, c.id);
      var es := Effects(c, env, RecentRecipients(db, DirectoryLimit), db.rows, ids);
      && out.result == Run(es, |ids|).result
      && db'.campaigns[c.id].status == Completed && db'.campaigns[c.id].endAt == Some(env.now)
      && db'.log == db.log + Run(es, |ids|).log + [CompletedEvent(c)]
    ensures c.id != "" && c.id in db.campaigns && out.Threw? ==>
      var ids := CampaignRows(db, c.id);
      var finished := LoopReached(env, ids) && env.completeWrite.None?;
      && out.thrown == (if env.rollbackWrite.Some? then env.rollbackWrite.value
                        else if env.failureLog.Some? then env.failureLog.value
                        else Fault(env, ids).value)
      && db'.campaigns[c.id].status == (if env.rollbackWrite.None? then Draft
                                        else if env.statusWrite.Some? then db.campaigns[c.id].status
                                        else if finished then Completed else Sending)
      && db'.campaigns[c.id].endAt == (if finished then Some(env.now) else db.campaigns[c.id].endAt)
      && (env.rollbackWrite.None? && env.failureLog.None? ==> |db'.log| > 0 && db'.log[|db'.log| - 1] == FailedEvent(c))
    ensures c.id != "" && c.id in db.campaigns && out.Threw? ==>
      var ids := CampaignRows(db, c.id);
      var es := Effects(c, env, RecentRecipients(db, DirectoryLimit), db.rows, ids);
      db'.log == db.log + (if LoopReached(env, ids) then Run(es, |ids|).log else [])
                        + (if env.rollbackWrite.None? && env.failureLog.None? then [FailedEvent(c)] else [])
  {
    if c.id == "" {
      out, db', trace, waits := Threw(ErrorValue(MissingIdMessage)), db, [], [];
      return;
    }
    if c.id !in db.campaigns {
      // Both the status update and the rollback write a missing document.
      var rollback := if env.rollbackWrite.Some? then env.rollbackWrite.value else env.missingDocument;
      out, db', trace, waits := Threw(rollback), db, [], [];
      return;
    }
    out, db', trace, waits := ExecuteStored(c, env, db);
  }

  /** `executeCampaign` for a campaign with an id and a stored document:
      the main block, and the catch block when it throws. */
  method ExecuteStored(c: Campaign, env: Env, db: Db)
    returns (out: Outcome, db': Db, trace: seq<Event>, waits: seq<nat>)
    requires WellFormed(db) && c.id != "" && c.id in db.campaigns
    ensures db'.rows.Keys == db.rows.Keys && db'.rowOrder == db.rowOrder && db'.directory == db.directory
    ensures db'.campaigns.Keys == db.campaigns.Keys
    ensures forall k :: k in db.campaigns && k != c.id ==> db'.campaigns[k] == db.campaigns[k]
    ensures
      var ids := CampaignRows(db, c.id);
      var es := Effects(c, env, RecentRecipients(db, DirectoryLimit), db.rows, ids);
      && (out.Returned? <==> Fault(env, ids).None?)
      && (LoopReached(env, ids) ==>
            && trace == Run(es, |ids|).trace && waits == Run(es, |ids|).waits
            && db'.rows == StoredRows(c, env, RecentRecipients(db, DirectoryLimit), db.rows, ids))
      && (!LoopReached(env, ids) ==> trace == [] && waits == [] && db'.rows == db.rows)
    ensures out.Returned? ==>
      var ids := CampaignRows(db, c.id);
      var es := Effects(c, env, RecentRecipients(db, DirectoryLimit), db.rows, ids);
      && out.result == Run(es, |ids|).result
      && db'.campaigns[c.id].status == Completed && db'.campaigns[c.id].endAt == Some(env.now)
      && db'.log == db.log + Run(es, |ids|).log + [CompletedEvent(c)]
    ensures out.Threw? ==>
      var ids := CampaignRows(db, c.id);
      var finished := LoopReached(env, ids) && env.completeWrite.None?;
      && out.thrown == (if env.rollbackWrite.Some? then env.rollbackWrite.value
                        else if env.failureLog.Some? then env.failureLog.value
                        else Fault(env, ids).value)
      && db'.campaigns[c.id].status == (if env.rollbackWrite.None? then Draft
                                        else if env.statusWrite.Some? then db.campaigns[c.id].status
                                        else if finished then Completed else Sending)
      && db'.campaigns[c.id].endAt == (if finished then Some(env.now) else db.campaigns[c.id].endAt)
      && (env.rollbackWrite.None? && env.failureLog.None? ==> |db'.log| > 0 && db'.log[|db'.log| - 1] == FailedEvent(c))
    ensures out.Threw? ==>
      var ids := CampaignRows(db, c.id);
      var es := Effects(c, env, RecentRecipients(db, DirectoryLimit), db.rows, ids);
      db'.log == db.log + (if LoopReached(env, ids) then Run(es, |ids|).log else [])
                        + (if env.rollbackWrite.None? && env.failureLog.None? then [FailedEvent(c)] else [])
  {
    var fault, res, main;
    fault, res, main, trace, waits := MainBlock(c, env, db);
    if fault.None? {
      out, db' := Returned(res), main;
      return;
    }
    ghost var ids := CampaignRows(db, c.id);
    ghost var loopLog := if LoopReached(env, ids) then Run(Effects(c, env, RecentRecipients(db, DirectoryLimit), db.rows, ids), |ids|).log else [];
    assert main.log == db.log + loopLog by {
      if LoopReached(env, ids) {
        assert env.completeWrite.Some? || env.completeLog.Some?;
      }
    }
    out, db' := CatchBlock(c, env, fault.value, main);
  }

  /** The catch block of `executeCampaign` for the error `fault`: roll the
      campaign back to draft, log `campaign_failed` and rethrow; an error
      from the rollback or the append escapes in its place. */
  method CatchBlock(c: Campaign, env: Env, fault: Thrown, db: Db) returns (out: Outcome, db': Db)
    requires c.id in db.campaigns
    ensures out == Threw(if env.rollbackWrite.Some? then env.rollbackWrite.value
                         else if env.failureLog.Some? then env.failureLog.value
                         else fault)
    ensures db'.rows == db.rows && db'.rowOrder == db.rowOrder && db'.directory == db.directory
    ensures db'.campaigns.Keys == db.campaigns.Keys
    ensures forall k :: k in db.campaigns && k != c.id ==> db'.campaigns[k] == db.campaigns[k]
    ensures db'.campaigns[c.id].status == if env.rollbackWrite.None? then Draft else db.campaigns[c.id].status
    ensures db'.campaigns[c.id].endAt == db.campaigns[c.id].endAt
    ensures db'.log == db.log + (if env.rollbackWrite.None? && env.failureLog.None? then [FailedEvent(c)] else [])
  {
    if env.rollbackWrite.Some? {
      return Threw(env.rollbackWrite.value), db;
    }
    db' := SetStatus(db, c.id, Draft, None);
    if env.failureLog.Some? {
      return Threw(env.failureLog.value), db';
    }
    db' := db'.(log := db'.log + [FailedEvent(c)]);
    out := Threw(fault);
  }
}

=== FILE: file_processor.dfy ===
/** `lib/file-processor.ts`: the all-or-nothing CSV parser, the import of
    parsed recipients into the recipient store (upsert by telephone, with
    duplicates inside the file skipped), and the dispatch on the file type. */
module FileProcessor {
  import opened Common
  import opened Text
  import opened Seqs
  import opened ErrorHandler
  import opened Firestore

  /** A recipient as read from a file. */
  datatype ProcessedRecipient = ProcessedRecipient(name: string, telephone: string, email: string, interests: seq<string>)

  /** `ProcessingResult`. */
  datatype ProcessingResult = ProcessingResult(
    success: bool,
    processed: nat,
    updated: nat,
    created: nat,
    errors: seq<string>,
    duplicates: nat)

  /** What `parseCSV` does: it returns recipients or throws a message. */
  datatype Parsed = Parsed(recipients: seq<ProcessedRecipient>) | ParseFailed(message: string)

  const TooShortMessage := "File must contain at least a header row and one data row"

  /** The columns a file must have, as searched for in its headers. */
  const RequiredColumns: seq<string> := ["name", "telephone", "email", "interest"]

  // ----- lines, headers and cells -----

  /** The non-blank lines of the content (`split("\n")` then
      `filter(line => line.trim())`). */
  function Lines(content: string): (r: seq<string>)
    ensures forall k :: 0 <= k < |r| ==> !IsBlank(r[k])
    ensures IsSubsequence(r, Split(content, '\n'))
  {
    FilterKeeps(Split(content, '\n'), (l: string) => Trim(l) != "");
    Filter(Split(content, '\n'), (l: string) => Trim(l) != "")
  }

  /** The header cells, trimmed and lower-cased. */
  function Headers(line: string): (r: seq<string>)
    ensures |r| == |Split(line, ',')|
    ensures forall k :: 0 <= k < |r| ==> r[k] == ToLower(Trim(Split(line, ',')[k]))
  {
    var cells := Split(line, ',');
    seq(|cells|, k requires 0 <= k < |cells| => ToLower(Trim(cells[k])))
  }

  /** The position of the first header containing `key`, if any. */
  function ColumnOf(headers: seq<string>, key: string): Option<nat> {
    FindFirst(headers, (h: string) => Contains(h, key))
  }

  /** The required columns no header mentions, in the order they are listed. */
  function MissingColumns(headers: seq<string>): (r: seq<string>)
    ensures forall key :: key in r <==> key in RequiredColumns && ColumnOf(headers, key).None?
  {
    Filter(RequiredColumns, (key: string) => ColumnOf(headers, key).None?)
  }

  function MissingMessage(missing: seq<string>): string {
    "Missing required columns: " + Join(missing, ", ") + ". Required: Name, Telephone, Email, Interest"
  }

  /** Where each field is read from. */
  datatype Columns = Columns(name: nat, phone: nat, email: nat, interest: nat)

  /** The phone column also accepts a header that only says "phone". */
  predicate PhoneHeader(h: string) {
    Contains(h, "telephone") || Contains(h, "phone")
  }

  /** A header mentioning "telephone" is accepted as the phone column. */
  lemma PhoneColumnFound(headers: seq<string>)
    requires ColumnOf(headers, "telephone").Some?
    ensures FindFirst(headers, PhoneHeader).Some?
  {
    var k := ColumnOf(headers, "telephone").value;
    assert PhoneHeader(headers[k]);
  }

  /** The column positions of headers that mention every required column:
      each is the first header containing its keyword. */
  function FindColumns(headers: seq<string>): (r: Columns)
    requires MissingColumns(headers) == []
    ensures r.name < |headers| && r.phone < |headers| && r.email < |headers| && r.interest < |headers|
    ensures r == Columns(ColumnOf(headers, "name").value, FindFirst(headers, PhoneHeader).value,
                         ColumnOf(headers, "email").value, ColumnOf(headers, "interest").value)
  {
    assert forall key :: key in RequiredColumns ==> ColumnOf(headers, key).Some?;
    assert "telephone" in RequiredColumns;
    PhoneColumnFound(headers);
    Columns(ColumnOf(headers, "name").value, FindFirst(headers, PhoneHeader).value,
            ColumnOf(headers, "email").value, ColumnOf(headers, "interest").value)
  }

  /** A data line's cells: trimmed, then every `"` removed. */
  function Cells(line: string): (r: seq<string>)
    ensures |r| == |Split(line, ',')|
    ensures forall k :: 0 <= k < |r| ==> r[k] == RemoveAll(Trim(Split(line, ',')[k]), '"')
  {
    var cells := Split(line, ',');
    seq(|cells|, k requires 0 <= k < |cells| => RemoveAll(Trim(cells[k]), '"'))
  }

  // ----- one data row -----

  datatype RowOutcome = Row(recipient: ProcessedRecipient) | RowError(message: string)

  /** The interests cell: split on commas, trimmed, empty pieces dropped. */
  function Interests(cell: string): seq<string> {
    if cell == "" then []
    else
      var pieces := Split(cell, ',');
      Filter(seq(|pieces|, k requires 0 <= k < |pieces| => Trim(pieces[k])), (x: string) => |x| > 0)
  }

  /** `Row ${n}: ...`. */
  function RowMessage(lineNo: nat, text: string): string {
    "Row " + NatToString(lineNo) + ": " + text
  }

  /** The checks and conversions for the data row `cells`, the `lineNo`-th
      non-blank line. */
  function ParseRow(cells: seq<string>, cols: Columns, lineNo: nat): RowOutcome {
    if |cells| < Max(Max(cols.name, cols.phone), Max(cols.email, cols.interest)) + 1 then
      RowError(RowMessage(lineNo, "Insufficient columns"))
    else
      var name := Trim(cells[cols.name]);
      var telephone := Trim(cells[cols.phone]);
      var email := Trim(cells[cols.email]);
      var interest := Trim(cells[cols.interest]);
      if name == "" || telephone == "" || email == "" then
        RowError(RowMessage(lineNo, "Missing required fields (name, telephone, or email)"))
      else if !ValidEmail(email) then
        RowError(RowMessage(lineNo, "Invalid email format: " + email))
      else if !MatchesPhone(CleanPhone(telephone)) then
        RowError(RowMessage(lineNo, "Invalid phone format: " + telephone))
      else
        Row(ProcessedRecipient(name, CleanPhone(telephone), ToLower(email), Interests(interest)))
  }

  /** The error entries of one row: its message, or none. */
  function RowErrors(o: RowOutcome): seq<string> {
    match o
    case RowError(m) => [m]
    case Row(_) => []
  }

  /** The outcome of every data line, in order, the first of them reported
      as row `first`. */
  function Outcomes(data: seq<string>, parse: (string, nat) -> RowOutcome, first: nat): (r: seq<RowOutcome>)
    ensures |r| == |data|
    ensures forall k :: 0 <= k < |data| ==> r[k] == parse(data[k], first + k)
  {
    seq(|data|, k requires 0 <= k < |data| => parse(data[k], first + k))
  }

  /** The parser of one data line against the columns `cols`. */
  function RowParser(cols: Columns): (string, nat) -> RowOutcome {
    (line: string, n: nat) => ParseRow(Cells(line), cols, n)
  }

  /** The lines after the header line. */
  function DataLines(lines: seq<string>): seq<string> {
    if |lines| == 0 then [] else lines[1..]
  }

  /** `parseCSV(content)`. */
  function ParseCsv(content: string): Parsed {
    ParseLines(Lines(content))
  }

  /** Parsing once the blank lines are gone: the header line first, then one
      data row per remaining line. */
  function ParseLines(lines: seq<string>): Parsed {
    if |lines| < 2 then ParseFailed(TooShortMessage)
    else
      var headers := Headers(lines[0]);
      var missing := MissingColumns(headers);
      if |missing| > 0 then ParseFailed(MissingMessage(missing))
      else Gather(Outcomes(DataLines(lines), RowParser(FindColumns(headers)), 2))
  }

  /** The recipients of the rows when every row was accepted, otherwise every
      row's message, one per line. */
  function Gather(os: seq<RowOutcome>): (r: Parsed)
    ensures r.Parsed? <==> forall k :: 0 <= k < |os| ==> os[k].Row?
    ensures r.Parsed? ==> |r.recipients| == |os| && forall k :: 0 <= k < |os| ==> os[k] == Row(r.recipients[k])
  {
    var errors := FlatMap(os, RowErrors);
    NoRowErrors(os);
    if |errors| > 0 then ParseFailed("File processing errors:\n" + Join(errors, "\n"))
    else Parsed(Accepted(os))
  }

  /** The recipients of a run of accepted rows. */
  function Accepted(os: seq<RowOutcome>): (r: seq<ProcessedRecipient>)
    requires forall k :: 0 <= k < |os| ==> os[k].Row?
    ensures |r| == |os|
    ensures forall k :: 0 <= k < |os| ==> os[k] == Row(r[k])
  {
    seq(|os|, k requires 0 <= k < |os| => os[k].recipient)
  }

  /** The error list of a run of outcomes is empty exactly when every row
      was accepted. */
  lemma {:induction false} NoRowErrors(os: seq<RowOutcome>)
    ensures FlatMap(os, RowErrors) == [] <==> forall k :: 0 <= k < |os| ==> os[k].Row?
    decreases |os|
  {
    if |os| > 0 {
      var init := os[..|os| - 1];
      NoRowErrors(init);
      assert forall k :: 0 <= k < |init| ==> init[k] == os[k];
    }
  }

  /** Parsing is all or nothing: it returns recipients exactly when there
      are a header and a data line, every required column is named and every
      data row passes, and then it returns one recipient per data row, in
      order; data line `k` (the line after the header is line 0) is
      reported as row `k + 2`. */
  lemma ParseCsvAllOrNothing(content: string)
    ensures var lines := Lines(content); var data := DataLines(lines);
      ParseCsv(content).Parsed? <==>
        && |lines| >= 2
        && MissingColumns(Headers(lines[0])) == []
        && forall k :: 0 <= k < |data| ==> ParseRow(Cells(data[k]), FindColumns(Headers(lines[0])), 2 + k).Row?
    ensures var lines := Lines(content); var data := DataLines(lines);
      ParseCsv(content).Parsed? ==>
        && |ParseCsv(content).recipients| == |data|
        && forall k :: 0 <= k < |data| ==>
             ParseRow(Cells(data[k]), FindColumns(Headers(lines[0])), 2 + k) == Row(ParseCsv(content).recipients[k])
  {
    ParseLinesAllOrNothing(Lines(content));
  }

  lemma ParseLinesAllOrNothing(lines: seq<string>)
    ensures var data := DataLines(lines);
      ParseLines(lines).Parsed? <==>
        && |lines| >= 2
        && MissingColumns(Headers(lines[0])) == []
        && forall k :: 0 <= k < |data| ==> ParseRow(Cells(data[k]), FindColumns(Headers(lines[0])), 2 + k).Row?
    ensures var data := DataLines(lines);
      ParseLines(lines).Parsed? ==>
        && |ParseLines(lines).recipients| == |data|
        && forall k :: 0 <= k < |data| ==>
             ParseRow(Cells(data[k]), FindColumns(Headers(lines[0])), 2 + k) == Row(ParseLines(lines).recipients[k])
  {
    if |lines| >= 2 && MissingColumns(Headers(lines[0])) == [] {
      var cols := FindColumns(Headers(lines[0]));
      var data := DataLines(lines);
      GatherOutcomes(data, RowParser(cols), 2);
      forall k | 0 <= k < |data|
        ensures RowParser(cols)(data[k], 2 + k) == ParseRow(Cells(data[k]), cols, 2 + k)
      {
      }
    }
  }

  /** Gathering accepts exactly when every line parses, and then keeps the
      recipients in line order. */
  lemma GatherOutcomes(data: seq<string>, parse: (string, nat) -> RowOutcome, first: nat)
    ensures Gather(Outcomes(data, parse, first)).Parsed?
        <==> forall k :: 0 <= k < |data| ==> parse(data[k], first + k).Row?
    ensures Gather(Outcomes(data, parse, first)).Parsed? ==>
        && |Gather(Outcomes(data, parse, first)).recipients| == |data|
        && forall k :: 0 <= k < |data| ==> parse(data[k], first + k) == Row(Gather(Outcomes(data, parse, first)).recipients[k])
  {
  }

  /** Too few non-blank lines, or a required column no header names, is
      reported before any row is looked at. */
  lemma ParseCsvHeaderErrors(content: string)
    ensures |Lines(content)| < 2 ==> ParseCsv(content) == ParseFailed(TooShortMessage)
    ensures |Lines(content)| >= 2 && MissingColumns(Headers(Lines(content)[0])) != [] ==>
      ParseCsv(content) == ParseFailed(MissingMessage(MissingColumns(Headers(Lines(content)[0]))))
  {
  }

  // ----- what an accepted row holds -----

  /** Lower-casing keeps an address within the pattern. */
  lemma LowerEmail(s: string)
    requires MatchesEmail(s)
    ensures MatchesEmail(ToLower(s))
  {
    var i, j :| 0 <= i < j < |s| && s[i] == '@' && s[j] == '.'
      && EmailPart(s[..i]) && EmailPart(s[i + 1..j]) && EmailPart(s[j + 1..]);
    var t := ToLower(s);
    LowerPart(s, 0, i);
    LowerPart(s, i + 1, j);
    LowerPart(s, j + 1, |s|);
    assert s[..i] == s[0..i] && t[..i] == t[0..i];
    assert s[j + 1..] == s[j + 1..|s|] && t[j + 1..] == t[j + 1..|t|];
  }

  lemma LowerPart(s: string, lo: int, hi: int)
    requires 0 <= lo <= hi <= |s| && EmailPart(s[lo..hi])
    ensures EmailPart(ToLower(s)[lo..hi])
  {
    var t := ToLower(s);
    forall k | 0 <= k < hi - lo
      ensures !IsSpace(t[lo..hi][k]) && t[lo..hi][k] != '@'
    {
      assert s[lo..hi][k] == s[lo + k];
    }
  }

  /** A cell without a comma is one interest, or none when it is empty. */
  lemma InterestsOfCell(cell: string)
    requires ',' !in cell && Trim(cell) == cell
    ensures Interests(cell) == if cell == "" then [] else [cell]
  {
    if cell != "" {
      SplitWithoutSeparator(cell, ',');
      var trimmed := seq(1, k requires 0 <= k < 1 => Trim([cell][k]));
      assert trimmed == [cell];
      assert [cell][1..] == [];
    }
  }

  /** An accepted row holds the trimmed name, the cleaned telephone, the
      lower-cased address and the interests of its cells, and it passed the
      checks on them. */
  lemma ParseRowFields(cells: seq<string>, cols: Columns, lineNo: nat)
    requires ParseRow(cells, cols, lineNo).Row?
    ensures cols.name < |cells| && cols.phone < |cells| && cols.email < |cells| && cols.interest < |cells|
    ensures var p := ParseRow(cells, cols, lineNo).recipient;
      && p == ProcessedRecipient(Trim(cells[cols.name]), CleanPhone(Trim(cells[cols.phone])),
                                 ToLower(Trim(cells[cols.email])), Interests(Trim(cells[cols.interest])))
      && Trim(cells[cols.name]) != ""
      && ValidEmail(Trim(cells[cols.email]))
      && MatchesPhone(CleanPhone(Trim(cells[cols.phone])))
  {
  }

  /** Every recipient of an accepted row has a non-empty trimmed name, a
      telephone of the accepted form with no whitespace, `-` or `$`, a
      lower-cased address of the accepted form, and at most one interest;
      no field holds a `"`. */
  lemma ParseRowAccepted(line: string, cols: Columns, lineNo: nat)
    requires ParseRow(Cells(line), cols, lineNo).Row?
    ensures RecipientAccepted(ParseRow(Cells(line), cols, lineNo).recipient)
  {
    var cells := Cells(line);
    forall k | 0 <= k < |cells|
      ensures ',' !in cells[k] && '"' !in cells[k]
    {
      CellsFree(line, k);
    }
    RowAccepted(cells, cols, lineNo);
  }

  /** The shape every accepted recipient has. */
  ghost predicate RecipientAccepted(p: ProcessedRecipient) {
    && p.name != "" && Trim(p.name) == p.name && '"' !in p.name
    && MatchesPhone(p.telephone) && (forall k :: 0 <= k < |p.telephone| ==> !PhoneFiller(p.telephone[k]))
    && MatchesEmail(p.email) && p.email == ToLower(p.email)
    && |p.interests| <= 1
    && (forall k :: 0 <= k < |p.interests| ==> '"' !in p.interests[k] && ',' !in p.interests[k])
  }

  lemma RowAccepted(cells: seq<string>, cols: Columns, lineNo: nat)
    requires ParseRow(cells, cols, lineNo).Row?
    requires forall k :: 0 <= k < |cells| ==> ',' !in cells[k] && '"' !in cells[k]
    ensures RecipientAccepted(ParseRow(cells, cols, lineNo).recipient)
  {
    ParseRowFields(cells, cols, lineNo);
    FieldsAccepted(cells[cols.name], cells[cols.phone], cells[cols.email], cells[cols.interest]);
  }

  lemma FieldsAccepted(name: string, telephone: string, email: string, interest: string)
    requires Trim(name) != "" && '"' !in name
    requires ValidEmail(Trim(email))
    requires MatchesPhone(CleanPhone(Trim(telephone)))
    requires ',' !in interest && '"' !in interest
    ensures RecipientAccepted(ProcessedRecipient(Trim(name), CleanPhone(Trim(telephone)),
                                                 ToLower(Trim(email)), Interests(Trim(interest))))
  {
    NameAccepted(name);
    EmailAccepted(Trim(email));
    InterestOfCell(interest);
  }

  /** Every recipient `parseCSV` returns has the shape `RecipientAccepted`
      describes. */
  lemma ParseCsvRecipients(content: string)
    ensures ParseCsv(content).Parsed? ==>
      forall p :: p in ParseCsv(content).recipients ==> RecipientAccepted(p)
  {
    var lines := Lines(content);
    if |lines| >= 2 && MissingColumns(Headers(lines[0])) == [] {
      var cols := FindColumns(Headers(lines[0]));
      var data := DataLines(lines);
      assert ParseCsv(content) == Gather(Outcomes(data, RowParser(cols), 2));
      forall k | 0 <= k < |data| && RowParser(cols)(data[k], 2 + k).Row?
        ensures RecipientAccepted(RowParser(cols)(data[k], 2 + k).recipient)
      {
        ParseRowAccepted(data[k], cols, 2 + k);
      }
      GatherAccepted(data, RowParser(cols), 2);
    }
  }

  /** When every accepted line gives a recipient of the accepted shape, so
      does every gathered recipient. */
  lemma GatherAccepted(data: seq<string>, parse: (string, nat) -> RowOutcome, first: nat)
    requires forall k :: 0 <= k < |data| && parse(data[k], first + k).Row? ==>
      RecipientAccepted(parse(data[k], first + k).recipient)
    ensures Gather(Outcomes(data, parse, first)).Parsed? ==>
      forall p :: p in Gather(Outcomes(data, parse, first)).recipients ==> RecipientAccepted(p)
  {
    GatherOutcomes(data, parse, first);
  }

  /** A trimmed cell without `"` stays without `"` and is its own trim. */
  lemma NameAccepted(cell: string)
    requires '"' !in cell
    ensures Trim(Trim(cell)) == Trim(cell) && '"' !in Trim(cell)
  {
    TrimIdempotent(cell);
    TrimInside(cell);
  }

  /** An accepted address, lower-cased, still matches and is lower-case. */
  lemma EmailAccepted(email: string)
    requires ValidEmail(email)
    ensures MatchesEmail(ToLower(email)) && ToLower(ToLower(email)) == ToLower(email)
  {
    ValidEmailIff(email);
    LowerEmail(email);
    LowerIdempotent(email);
  }

  /** The interests cell of a data line names at most one interest, free of
      `"` and `,`. */
  lemma InterestAccepted(line: string, col: nat)
    requires col < |Cells(line)|
    ensures var found := Interests(Trim(Cells(line)[col]));
      |found| <= 1 && forall k :: 0 <= k < |found| ==> '"' !in found[k] && ',' !in found[k]
  {
    CellsFree(line, col);
    InterestOfCell(Cells(line)[col]);
  }

  /** A data cell holds neither a `,` nor a `"`. */
  lemma CellsFree(line: string, col: nat)
    requires col < |Cells(line)|
    ensures ',' !in Cells(line)[col] && '"' !in Cells(line)[col]
  {
    var piece := Split(line, ',')[col];
    TrimInside(piece);
  }

  lemma InterestOfCell(cell: string)
    requires ',' !in cell && '"' !in cell
    ensures var found := Interests(Trim(cell));
      |found| <= 1 && forall k :: 0 <= k < |found| ==> '"' !in found[k] && ',' !in found[k]
  {
    var t := Trim(cell);
    assert ',' !in t && '"' !in t && Trim(t) == t by {
      TrimInside(cell);
      TrimIdempotent(cell);
    }
    InterestOfTrimmed(t);
  }

  lemma InterestOfTrimmed(t: string)
    requires ',' !in t && '"' !in t && Trim(t) == t
    ensures var found := Interests(t);
      |found| <= 1 && forall k :: 0 <= k < |found| ==> '"' !in found[k] && ',' !in found[k]
  {
    InterestsOfCell(t);
  }

  /** Trimming only removes characters. */
  lemma TrimInside(s: string)
    ensures forall c :: c in Trim(s) ==> c in s
  {
    var t := TrimStart(s);
    assert forall c :: c in TrimEnd(t) ==> c in t;
    assert forall c :: c in t ==> c in s;
  }

  /** Lower-casing twice is lower-casing once. */
  lemma LowerIdempotent(s: string)
    ensures ToLower(ToLower(s)) == ToLower(s)
  {
  }

  // ----- importing into the recipient store -----

  /** What the store does during an import. `storeFault(k)` is the error
      thrown by the lookup or the write made for input `k`, if either threw
      (a failed call writes nothing, so which of the two threw makes no
      difference); `newId(k)` is the document id a recipient created for
      input `k` receives; `logFault` is the error of the final log append. */
  datatype ImportEnv = ImportEnv(storeFault: nat -> Option<Thrown>, newId: nat -> string, logFault: Option<Thrown>)

  /** The import's running state: the result so far, the telephones already
      claimed by an earlier input, and the store. */
  datatype Import = Import(result: ProcessingResult, seen: set<string>, db: Db)

  const NoneProcessed := ProcessingResult(true, 0, 0, 0, [], 0)

  /** The entry for an input the store failed on. */
  function ImportError(p: ProcessedRecipient, t: Thrown): string {
    "Error processing " + p.name + ": " + Shown(t)
  }

  /** The telephones of the inputs, in order. */
  function Phones(rs: seq<ProcessedRecipient>): (r: seq<string>)
    ensures |r| == |rs| && forall k :: 0 <= k < |rs| ==> r[k] == rs[k].telephone
  {
    seq(|rs|, k requires 0 <= k < |rs| => rs[k].telephone)
  }

  /** Input `k`, `p`: a telephone already claimed counts as a duplicate and
      nothing else happens; otherwise the telephone is claimed at once, and
      either the store fails (one error entry, the result marked failed,
      the store unchanged) or the first recipient with that telephone is
      updated, or a new recipient is created, and the input counts as
      processed. Exactly one of the three counts grows, by one. */
  function ImportStep(env: ImportEnv, st: Import, p: ProcessedRecipient, k: nat): (r: Import)
    ensures r.seen == st.seen + {p.telephone}
    ensures r.result.duplicates + r.result.processed + |r.result.errors|
         == st.result.duplicates + st.result.processed + |st.result.errors| + 1
    ensures p.telephone in st.seen <==> r.result.duplicates == st.result.duplicates + 1
    ensures p.telephone in st.seen ==> r == st.(result := st.result.(duplicates := st.result.duplicates + 1))
    ensures p.telephone !in st.seen && env.storeFault(k).Some? ==>
      && r.result.errors == st.result.errors + [ImportError(p, env.storeFault(k).value)]
      && !r.result.success && r.db == st.db
    ensures r.result.processed - st.result.processed == (r.result.created - st.result.created) + (r.result.updated - st.result.updated)
    ensures r.result.errors == st.result.errors ==> r.result.success == st.result.success
    ensures r.result.errors != st.result.errors ==> !r.result.success
    ensures r.result.created >= st.result.created && r.result.updated >= st.result.updated
    ensures |r.db.directory| == |st.db.directory| + (r.result.created - st.result.created)
    ensures r.db.campaigns == st.db.campaigns && r.db.rows == st.db.rows && r.db.rowOrder == st.db.rowOrder && r.db.log == st.db.log
  {
    var res := st.result;
    if p.telephone in st.seen then st.(result := res.(duplicates := res.duplicates + 1))
    else
      var seen := st.seen + {p.telephone};
      match env.storeFault(k)
      case Some(t) => Import(res.(success := false, errors := res.errors + [ImportError(p, t)]), seen, st.db)
      case None =>
        match FindByPhone(st.db.directory, p.telephone)
        case Some(i) =>
          Import(res.(processed := res.processed + 1, updated := res.updated + 1), seen,
                 UpdateRecipient(st.db, i, p.name, p.email, p.interests))
        case None =>
          Import(res.(processed := res.processed + 1, created := res.created + 1), seen,
                 CreateRecipient(st.db, Recipient(env.newId(k), p.name, p.telephone, p.email, p.interests)))
  }

  /** The state after the inputs `rs`, starting from the store `db`. */
  function ImportAll(env: ImportEnv, db: Db, rs: seq<ProcessedRecipient>): Import
    decreases |rs|
  {
    if |rs| == 0 then Import(NoneProcessed, {}, db)
    else ImportStep(env, ImportAll(env, db, rs[..|rs| - 1]), rs[|rs| - 1], |rs| - 1)
  }

  /** Importing one more input is one more step. */
  lemma ImportGrows(env: ImportEnv, db: Db, rs: seq<ProcessedRecipient>, i: nat)
    requires i < |rs|
    ensures ImportAll(env, db, rs[..i + 1]) == ImportStep(env, ImportAll(env, db, rs[..i]), rs[i], i)
  {
    assert rs[..i + 1][..i] == rs[..i];
  }

  /** Over a whole import, the state is `Tallied`. */
  lemma {:induction false} ImportCounts(env: ImportEnv, db: Db, rs: seq<ProcessedRecipient>)
    ensures Tallied(ImportAll(env, db, rs), db, rs)
    decreases |rs|
  {
    if |rs| > 0 {
      var init := rs[..|rs| - 1];
      ImportCounts(env, db, init);
      TalliedStep(env, ImportAll(env, db, init), db, init, rs[|rs| - 1], |rs| - 1);
      assert init + [rs[|rs| - 1]] == rs;
    }
  }

  /** What holds of the state `st` after the inputs `rs`, started from the
      store `db`: every input is a duplicate, processed or an error;
      processed inputs were created or updated; the result is marked failed
      exactly when there is an error entry; the claimed telephones are those
      of the inputs; only the recipient store changed, and it grew by the
      recipients created. */
  ghost predicate Tallied(st: Import, db: Db, rs: seq<ProcessedRecipient>) {
    && st.result.duplicates + st.result.processed + |st.result.errors| == |rs|
    && st.result.processed == st.result.created + st.result.updated
    && (st.result.success <==> st.result.errors == [])
    && (forall ph :: ph in st.seen <==> ph in Phones(rs))
    && |st.db.directory| == |db.directory| + st.result.created
    && st.db.campaigns == db.campaigns && st.db.rows == db.rows && st.db.rowOrder == db.rowOrder && st.db.log == db.log
  }

  lemma TalliedStep(env: ImportEnv, st: Import, db: Db, rs: seq<ProcessedRecipient>, p: ProcessedRecipient, k: nat)
    requires Tallied(st, db, rs)
    ensures Tallied(ImportStep(env, st, p, k), db, rs + [p])
  {
    assert Phones(rs + [p]) == Phones(rs) + [p.telephone];
  }

  /** The inputs that are not duplicates are the first input of each
      distinct telephone: their number is that of the distinct telephones. */
  lemma {:induction false} ImportDistinctPhones(env: ImportEnv, db: Db, rs: seq<ProcessedRecipient>)
    ensures var r := ImportAll(env, db, rs).result;
      r.processed + |r.errors| == |Dedup(Phones(rs))|
    decreases |rs|
  {
    if |rs| > 0 {
      var init := rs[..|rs| - 1];
      ImportDistinctPhones(env, db, init);
      ImportCounts(env, db, init);
      var ph := Phones(rs);
      assert ph[..|rs| - 1] == Phones(init);
      DedupLast(ph);
    }
  }

  /** An input whose telephone an earlier input had is a duplicate, even
      when the store failed on the earlier one. */
  lemma DuplicateAfterEarlier(env: ImportEnv, db: Db, rs: seq<ProcessedRecipient>, i: nat, j: nat)
    requires i < j < |rs| && rs[i].telephone == rs[j].telephone
    ensures ImportAll(env, db, rs[..j + 1]).result.duplicates == ImportAll(env, db, rs[..j]).result.duplicates + 1
  {
    ImportCounts(env, db, rs[..j]);
    assert Phones(rs[..j])[i] == rs[i].telephone;
    ImportGrows(env, db, rs, j);
  }

  /** The recipient the store returns for a telephone has these fields. */
  predicate StoredAs(dir: seq<Recipient>, p: ProcessedRecipient) {
    match FindByPhone(dir, p.telephone)
    case None => false
    case Some(i) => dir[i].name == p.name && dir[i].email == p.email && dir[i].interests == p.interests
  }

  /** A step for another telephone leaves what the store returns for `p`'s
      telephone alone: updates keep every telephone, and a new recipient
      has a different one. */
  lemma StepKeepsStored(env: ImportEnv, st: Import, q: ProcessedRecipient, k: nat, p: ProcessedRecipient)
    requires q.telephone != p.telephone && StoredAs(st.db.directory, p)
    ensures StoredAs(ImportStep(env, st, q, k).db.directory, p)
  {
    if q.telephone !in st.seen && env.storeFault(k).None? {
      match FindByPhone(st.db.directory, q.telephone)
      case Some(j) =>
        assert ImportStep(env, st, q, k).db == UpdateRecipient(st.db, j, q.name, q.email, q.interests);
        UpdateKeepsStored(st.db, j, q, p);
      case None =>
        var r := Recipient(env.newId(k), q.name, q.telephone, q.email, q.interests);
        assert ImportStep(env, st, q, k).db == CreateRecipient(st.db, r);
        CreateKeepsStored(st.db.directory, r, p);
    }
  }

  /** Updating the recipient of another telephone keeps `p` as stored. */
  lemma UpdateKeepsStored(db: Db, j: nat, q: ProcessedRecipient, p: ProcessedRecipient)
    requires j < |db.directory| && db.directory[j].telephone == q.telephone
    requires q.telephone != p.telephone && StoredAs(db.directory, p)
    ensures StoredAs(UpdateRecipient(db, j, q.name, q.email, q.interests).directory, p)
  {
    var dir := db.directory;
    var dir' := UpdateRecipient(db, j, q.name, q.email, q.interests).directory;
    var i := FindByPhone(dir, p.telephone).value;
    assert forall n :: 0 <= n < |dir| ==> dir'[n].telephone == dir[n].telephone;
    assert dir'[i] == dir[i];
    SameFind(dir, dir', p.telephone, i);
  }

  /** A new recipient of another telephone in front keeps `p` as stored. */
  lemma CreateKeepsStored(dir: seq<Recipient>, r: Recipient, p: ProcessedRecipient)
    requires r.telephone != p.telephone && StoredAs(dir, p)
    ensures StoredAs([r] + dir, p)
  {
    var i := FindByPhone(dir, p.telephone).value;
    assert ([r] + dir)[1..] == dir;
    assert FindByPhone([r] + dir, p.telephone) == Some(i + 1);
  }

  /** Lists with the same telephones at every position answer a telephone
      lookup alike. */
  lemma SameFind(dir: seq<Recipient>, dir': seq<Recipient>, ph: string, i: nat)
    requires |dir'| == |dir| && forall n :: 0 <= n < |dir| ==> dir'[n].telephone == dir[n].telephone
    requires FindByPhone(dir, ph) == Some(i)
    ensures FindByPhone(dir', ph) == Some(i)
  {
    var f := FindByPhone(dir', ph);
    assert dir'[i].telephone == ph;
  }

  /** The first input of each telephone that the store did not fail on is
      what the store holds for that telephone once the import is over:
      later inputs with that telephone are duplicates, and inputs with
      other telephones do not touch it. */
  lemma {:induction false} ImportStores(env: ImportEnv, db: Db, rs: seq<ProcessedRecipient>, k: nat)
    requires k < |rs| && rs[k].telephone !in Phones(rs[..k]) && env.storeFault(k).None?
    ensures StoredAs(ImportAll(env, db, rs).db.directory, rs[k])
    decreases |rs|
  {
    var init := rs[..|rs| - 1];
    if k == |rs| - 1 {
      assert init == rs[..k];
      StoresAtLast(env, db, rs);
    } else {
      assert init[..k] == rs[..k] && init[k] == rs[k];
      ImportStores(env, db, init, k);
      KeepsAtLast(env, db, rs, k);
    }
  }

  /** The last input, when it is new and the store does not fail on it. */
  lemma StoresAtLast(env: ImportEnv, db: Db, rs: seq<ProcessedRecipient>)
    requires |rs| > 0 && rs[|rs| - 1].telephone !in Phones(rs[..|rs| - 1]) && env.storeFault(|rs| - 1).None?
    ensures StoredAs(ImportAll(env, db, rs).db.directory, rs[|rs| - 1])
  {
    ImportCounts(env, db, rs[..|rs| - 1]);
    StepStores(env, ImportAll(env, db, rs[..|rs| - 1]), rs[|rs| - 1], |rs| - 1);
  }

  /** The last input does not disturb an earlier input's stored recipient. */
  lemma KeepsAtLast(env: ImportEnv, db: Db, rs: seq<ProcessedRecipient>, k: nat)
    requires k < |rs| - 1 && StoredAs(ImportAll(env, db, rs[..|rs| - 1]).db.directory, rs[k])
    ensures StoredAs(ImportAll(env, db, rs).db.directory, rs[k])
  {
    var init := rs[..|rs| - 1];
    var last := rs[|rs| - 1];
    if last.telephone == rs[k].telephone {
      ImportCounts(env, db, init);
      assert Phones(init)[k] == rs[k].telephone;
    } else {
      StepKeepsStored(env, ImportAll(env, db, init), last, |rs| - 1, rs[k]);
    }
  }

  /** A new telephone the store does not fail on ends up stored with the
      input's fields. */
  lemma StepStores(env: ImportEnv, st: Import, p: ProcessedRecipient, k: nat)
    requires p.telephone !in st.seen && env.storeFault(k).None?
    ensures StoredAs(ImportStep(env, st, p, k).db.directory, p)
  {
    var dir := st.db.directory;
    var dir' := ImportStep(env, st, p, k).db.directory;
    match FindByPhone(dir, p.telephone)
    case Some(i) =>
      assert |dir'| == |dir| && forall n :: 0 <= n < |dir| ==> dir'[n].telephone == dir[n].telephone;
      SameFind(dir, dir', p.telephone, i);
    case None =>
      assert dir'[0].telephone == p.telephone;
      assert FindByPhone(dir', p.telephone) == Some(0);
  }

  /** `processRecipients(recipients, userId)` against the store `db`: the
      inputs in order, then the `recipients_uploaded` append, whose failure
      is swallowed. */
  method ProcessRecipients(rs: seq<ProcessedRecipient>, userId: string, env: ImportEnv, db: Db)
    returns (result: ProcessingResult, db': Db)
    ensures var st := ImportAll(env, db, rs);
      && result == st.result
      && db'.directory == st.db.directory
      && db'.log == db.log + (if env.logFault.None? then [UploadedEvent(userId)] else [])
    ensures db'.campaigns == db.campaigns && db'.rows == db.rows && db'.rowOrder == db.rowOrder
    ensures result.duplicates + result.processed + |result.errors| == |rs|
    ensures result.processed == result.created + result.updated
    ensures result.success <==> result.errors == []
  {
    var st := Import(NoneProcessed, {}, db);
    var k := 0;
    while k < |rs|
      invariant 0 <= k <= |rs|
      invariant st == ImportAll(env, db, rs[..k])
    {
      ImportGrows(env, db, rs, k);
      st := ImportStep(env, st, rs[k], k);
      k := k + 1;
    }
    assert rs[..|rs|] == rs;
    ImportCounts(env, db, rs);
    result, db' := st.result, st.db;
    if env.logFault.None? {
      db' := db'.(log := db'.log + [UploadedEvent(userId)]);
    }
  }

  function UploadedEvent(userId: string): UserEventLog {
    UserEventLog(userId, "recipients_uploaded", None)
  }

  // ----- dispatch on the file type -----

  const CsvMime := "text/csv"
  const XlsMime := "application/vnd.ms-excel"
  const XlsxMime := "application/vnd.openxmlformats-officedocument.spreadsheetml.sheet"
  const UnsupportedMessage := "Unsupported file type. Please use CSV or Excel files."
  const CsvReadMessage := "Failed to read CSV file"
  const FileReadMessage := "Failed to read file"

  /** How `processFile` reads a file. */
  datatype FileKind = CsvFile | ExcelFile | UnsupportedFile

  /** A CSV MIME type or a `.csv` name is read as CSV; otherwise an Excel
      MIME type or an `.xlsx`/`.xls` name is read as Excel (which is parsed
      as CSV text too); anything else is refused. Names are compared
      case-sensitively. */
  function KindOf(name: string, mime: string): (k: FileKind)
    ensures k == CsvFile <==> mime == CsvMime || EndsWith(name, ".csv")
    ensures k == UnsupportedFile <==>
      !(mime == CsvMime || EndsWith(name, ".csv") || mime == XlsMime || mime == XlsxMime
        || EndsWith(name, ".xlsx") || EndsWith(name, ".xls"))
  {
    if mime == CsvMime || EndsWith(name, ".csv") then CsvFile
    else if mime == XlsMime || mime == XlsxMime || EndsWith(name, ".xlsx") || EndsWith(name, ".xls") then ExcelFile
    else UnsupportedFile
  }

  /** The suffix test is case-sensitive: "LIST.CSV" with no MIME type is
      refused. */
  lemma UpperCaseSuffixRefused(name: string)
    requires name == "LIST.CSV"
    ensures KindOf(name, "") == UnsupportedFile
  {
    assert name[|name| - 4..] == ".CSV" && name[|name| - 5..] == "T.CSV";
  }

  /** The result `processFile` returns for an error it caught: nothing
      counted and the error's message as the only entry. */
  function Failure(message: string): (r: ProcessingResult)
    ensures !r.success && r.errors == [message]
    ensures r.processed == 0 && r.updated == 0 && r.created == 0 && r.duplicates == 0
  {
    ProcessingResult(false, 0, 0, 0, [message], 0)
  }

  /** `processFile(file, userId)` for a file called `name` of MIME type
      `mime`; `content` is the text the reader produced, `None` when it
      failed. A refused type, a failed read or a failed parse is caught and
      returned as a `Failure` with the store untouched; parsed recipients
      are imported. */
  method ProcessFile(name: string, mime: string, content: Option<string>, userId: string, env: ImportEnv, db: Db)
    returns (result: ProcessingResult, db': Db)
    ensures KindOf(name, mime) == UnsupportedFile ==> result == Failure(UnsupportedMessage) && db' == db
    ensures KindOf(name, mime) == CsvFile && content.None? ==> result == Failure(CsvReadMessage) && db' == db
    ensures KindOf(name, mime) == ExcelFile && content.None? ==> result == Failure(FileReadMessage) && db' == db
    ensures KindOf(name, mime) != UnsupportedFile && content.Some? && ParseCsv(content.value).ParseFailed? ==>
      result == Failure(ParseCsv(content.value).message) && db' == db
    ensures KindOf(name, mime) != UnsupportedFile && content.Some? && ParseCsv(content.value).Parsed? ==>
      var rs := ParseCsv(content.value).recipients;
      && result == ImportAll(env, db, rs).result
      && db'.directory == ImportAll(env, db, rs).db.directory
      && db'.log == db.log + (if env.logFault.None? then [UploadedEvent(userId)] else [])
    ensures !result.success <==> result.errors != []
  {
    var kind := KindOf(name, mime);
    if kind == UnsupportedFile {
      return Failure(UnsupportedMessage), db;
    }
    if content.None? {
      return Failure(if kind == CsvFile then CsvReadMessage else FileReadMessage), db;
    }
    match ParseCsv(content.value)
    case ParseFailed(m) =>
      return Failure(m), db;
    case Parsed(rs) =>
      result, db' := ProcessRecipients(rs, userId, env, db);
  }

}

=== FILE: firestore.dfy ===
/** The documents of the four collections the application keeps
    (`campaigns`, `recipients`, `campaign_recipients`, `user_event_log`) and
    the handful of store queries the core relies on, over an in-memory
    database instead of the client SDK. */
module Firestore {
  import opened Common
  import opened Seqs

  /** Store timestamps, as an abstract instant. */
  type Timestamp = int

  datatype Method = Sms | WhatsApp

  /** The method as stored and sent over the wire. */
  function MethodName(m: Method): string {
    match m
    case Sms => "sms"
    case WhatsApp => "whatsapp"
  }

  datatype CampaignStatus = Draft | Sending | Completed

  datatype DeliveryStatus = Pending | Sent | Failed

  /** A campaign document; `id` is the document id, "" when absent. */
  datatype Campaign = Campaign(
    id: string,
    name: string,
    description: string,
    methods: seq<Method>,
    messageText: string,
    createdAt: Timestamp,
    endAt: Option<Timestamp>,
    createdBy: string,
    status: CampaignStatus)

  /** A recipient document (its creation and update instants are not kept). */
  datatype Recipient = Recipient(
    id: string,
    name: string,
    telephone: string,
    email: string,
    interests: seq<string>)

  /** The join document recording one recipient's delivery in one campaign. */
  datatype CampaignRecipient = CampaignRecipient(
    id: string,
    campaignId: string,
    recipientId: string,
    status: DeliveryStatus,
    sentAt: Option<Timestamp>,
    attempts: nat,
    errorMessage: Option<string>)

  /** An audit event; only the acting user, the action name and the campaign
      are kept, not the free-form details. */
  datatype UserEventLog = UserEventLog(userId: string, action: string, campaignId: Option<string>)

  /** The whole database.
      - `campaigns` and `rows` map document ids to documents;
      - `rowOrder` is the order in which a query returns join documents;
      - `directory` holds the recipients newest first, the order of
        `getRecipients`;
      - `log` is the event log in append order. */
  datatype Db = Db(
    campaigns: map<string, Campaign>,
    rows: map<string, CampaignRecipient>,
    rowOrder: seq<string>,
    directory: seq<Recipient>,
    log: seq<UserEventLog>)

  /** Document ids are unique and every join document is listed once. */
  predicate WellFormed(db: Db) {
    && Distinct(db.rowOrder)
    && (forall id :: id in db.rows ==> id in db.rowOrder)
    && (forall k :: 0 <= k < |db.rowOrder| ==> db.rowOrder[k] in db.rows)
    && (forall id :: id in db.rows ==> db.rows[id].id == id)
  }

  /** `getCampaignRecipients(campaignId)`: the ids of the campaign's join
      documents, in query order. */
  function CampaignRows(db: Db, campaignId: string): (r: seq<string>)
    ensures forall id :: id in r <==> id in db.rowOrder && id in db.rows && db.rows[id].campaignId == campaignId
    ensures forall k :: 0 <= k < |r| ==> r[k] in db.rows
  {
    Filter(db.rowOrder, id => id in db.rows && db.rows[id].campaignId == campaignId)
  }

  /** A campaign's join documents are listed once each. */
  lemma CampaignRowsDistinct(db: Db, campaignId: string)
    requires WellFormed(db)
    ensures Distinct(CampaignRows(db, campaignId))
  {
    FilterDistinct(db.rowOrder, id => id in db.rows && db.rows[id].campaignId == campaignId);
  }

  /** `getRecipients(pageSize)`: the newest `pageSize` recipients. */
  function RecentRecipients(db: Db, pageSize: nat): (r: seq<Recipient>)
    ensures |r| == Min(pageSize, |db.directory|)
    ensures r == db.directory[..|r|]
  {
    if |db.directory| <= pageSize then db.directory else db.directory[..pageSize]
  }

  /** `getRecipientByPhone(telephone)`: the position of the first recipient
      stored with exactly that telephone. */
  function FindByPhone(dir: seq<Recipient>, telephone: string): (r: Option<nat>)
    ensures r.Some? ==> r.value < |dir| && dir[r.value].telephone == telephone
    ensures r.Some? ==> forall k :: 0 <= k < r.value ==> dir[k].telephone != telephone
    ensures r.None? <==> forall k :: 0 <= k < |dir| ==> dir[k].telephone != telephone
  {
    FindFirst(dir, (r: Recipient) => r.telephone == telephone)
  }

  /** `createRecipient`: the new recipient is the newest one. */
  function CreateRecipient(db: Db, r: Recipient): (r': Db)
    ensures r'.directory == [r] + db.directory
    ensures r'.campaigns == db.campaigns && r'.rows == db.rows && r'.rowOrder == db.rowOrder && r'.log == db.log
  {
    db.(directory := [r] + db.directory)
  }

  /** `updateRecipient(id, {name, email, interests})` on the recipient at
      position `i`: its id and telephone are kept. */
  function UpdateRecipient(db: Db, i: nat, name: string, email: string, interests: seq<string>): (r': Db)
    requires i < |db.directory|
    ensures |r'.directory| == |db.directory|
    ensures r'.directory[i] == Recipient(db.directory[i].id, name, db.directory[i].telephone, email, interests)
    ensures forall k :: 0 <= k < |db.directory| && k != i ==> r'.directory[k] == db.directory[k]
    ensures r'.campaigns == db.campaigns && r'.rows == db.rows && r'.rowOrder == db.rowOrder && r'.log == db.log
  {
    db.(directory := db.directory[i := db.directory[i].(name := name, email := email, interests := interests)])
  }

  /** `addCampaignRecipients`: one pending join document per recipient id,
      with no attempt made yet; `docIds` are the ids the store assigns. */
  function NewRows(campaignId: string, recipientIds: seq<string>, docIds: seq<string>): (r: seq<CampaignRecipient>)
    requires |docIds| == |recipientIds|
    ensures |r| == |recipientIds|
    ensures forall k :: 0 <= k < |r| ==>
      && r[k].id == docIds[k]
      && r[k].campaignId == campaignId
      && r[k].recipientId == recipientIds[k]
      && r[k].status == Pending && r[k].attempts == 0
      && r[k].sentAt.None? && r[k].errorMessage.None?
  {
    seq(|recipientIds|, k requires 0 <= k < |recipientIds| =>
      CampaignRecipient(docIds[k], campaignId, recipientIds[k], Pending, None, 0, None))
  }

  /** `addDoc` for one join document. */
  function AddRow(db: Db, row: CampaignRecipient): Db {
    db.(rows := db.rows[row.id := row], rowOrder := db.rowOrder + [row.id])
  }

  /** Storing a document under an id not yet used keeps the store well formed. */
  lemma AddRowWellFormed(db: Db, row: CampaignRecipient)
    requires WellFormed(db) && row.id !in db.rows
    ensures WellFormed(AddRow(db, row))
  {
    var db1 := AddRow(db, row);
    forall i, j | 0 <= i < j < |db1.rowOrder|
      ensures db1.rowOrder[i] != db1.rowOrder[j]
    {
      if j == |db.rowOrder| {
        assert db1.rowOrder[i] == db.rowOrder[i];
        assert db.rowOrder[i] in db.rows;
      }
    }
  }

  /** Stores new join documents, in order. */
  function AddRows(db: Db, added: seq<CampaignRecipient>): (r: Db)
    ensures forall id :: id in db.rows ==> id in r.rows
    ensures forall k :: 0 <= k < |added| ==> added[k].id in r.rows
    ensures r.campaigns == db.campaigns && r.directory == db.directory && r.log == db.log
    decreases |added|
  {
    if |added| == 0 then db else AddRows(AddRow(db, added[0]), added[1..])
  }

  /** The ids of some join documents. */
  function RowIds(rows: seq<CampaignRecipient>): seq<string> {
    Map(rows, (row: CampaignRecipient) => row.id)
  }

  /** What `AddRows` asks of the documents it adds: distinct ids not yet
      used. */
  predicate FreshRows(db: Db, added: seq<CampaignRecipient>) {
    Distinct(RowIds(added)) && forall k :: 0 <= k < |added| ==> added[k].id !in db.rows
  }

  /** Once the first document is stored, the others are still fresh. */
  lemma FreshTail(db: Db, added: seq<CampaignRecipient>)
    requires |added| > 0 && FreshRows(db, added)
    ensures FreshRows(AddRow(db, added[0]), added[1..])
  {
    var ids := RowIds(added);
    var tail := added[1..];
    assert RowIds(tail) == ids[1..];
    DistinctTail(ids);
    forall k | 0 <= k < |tail|
      ensures tail[k].id != added[0].id
    {
      assert tail[k].id == ids[1..][k];
    }
  }

  /** Added documents are listed after the existing ones, in order. */
  lemma {:induction false} AddRowsOrder(db: Db, added: seq<CampaignRecipient>)
    ensures AddRows(db, added).rowOrder == db.rowOrder + RowIds(added)
    decreases |added|
  {
    if |added| > 0 {
      var db1 := AddRow(db, added[0]);
      AddRowsOrder(db1, added[1..]);
      assert RowIds(added) == [added[0].id] + RowIds(added[1..]);
    }
  }

  /** Adding join documents under new, distinct ids keeps the store well
      formed. */
  lemma {:induction false} AddRowsWellFormed(db: Db, added: seq<CampaignRecipient>)
    requires WellFormed(db) && FreshRows(db, added)
    ensures WellFormed(AddRows(db, added))
    decreases |added|
  {
    if |added| > 0 {
      AddRowWellFormed(db, added[0]);
      FreshTail(db, added);
      AddRowsWellFormed(AddRow(db, added[0]), added[1..]);
    }
  }

  /** Each added document is stored as given, and the existing documents are
      left alone. */
  lemma {:induction false} AddRowsStores(db: Db, added: seq<CampaignRecipient>)
    requires FreshRows(db, added)
    ensures forall k :: 0 <= k < |added| ==> AddRows(db, added).rows[added[k].id] == added[k]
    ensures forall id :: id in db.rows ==> AddRows(db, added).rows[id] == db.rows[id]
    decreases |added|
  {
    if |added| > 0 {
      var db1 := AddRow(db, added[0]);
      var tail := added[1..];
      FreshTail(db, added);
      AddRowsStores(db1, tail);
      forall k | 0 <= k < |added|
        ensures AddRows(db, added).rows[added[k].id] == added[k]
      {
        if k > 0 {
          assert added[k] == tail[k - 1];
        }
      }
    }
  }

  /** Once fresh join documents of a campaign no stored document names are
      added, they are exactly the campaign's documents, in the order
      added. */
  lemma CampaignRowsAdded(db: Db, added: seq<CampaignRecipient>, campaignId: string)
    requires FreshRows(db, added)
    requires forall k :: 0 <= k < |added| ==> added[k].campaignId == campaignId
    requires forall id :: id in db.rows ==> db.rows[id].campaignId != campaignId
    requires forall k :: 0 <= k < |db.rowOrder| ==> db.rowOrder[k] in db.rows
    ensures CampaignRows(AddRows(db, added), campaignId) == RowIds(added)
  {
    var db' := AddRows(db, added);
    AddRowsOrder(db, added);
    AddRowsStores(db, added);
    var p := (id: string) => id in db'.rows && db'.rows[id].campaignId == campaignId;
    FilterAppend(db.rowOrder, RowIds(added), p);
    NoneKept(db.rowOrder, p);
    FilterKeepsAll(RowIds(added), p);
  }
}

=== FILE: logs_viewer.dfy ===
/** `components/logs-viewer.tsx`: the activity log page. It loads the
    signed-in user's newest events, narrows them by action and by a search
    term, offers the distinct actions as filter options and labels each
    event by its action. */
module LogsViewer {
  import opened Text
  import opened Seqs

  /** An event as the page sees it: who acted, the action name and its
      details as the text `JSON.stringify` gives (the serialisation itself
      is not modelled). */
  datatype Entry = Entry(userId: string, action: string, details: string)

  /** The number of events the page loads. */
  const PageSize := 100

  /** The filter value that lets every action through. */
  const AllActions := "all"

  // ----- loading -----

  /** `xs` backwards. */
  function Reverse<T>(xs: seq<T>): (r: seq<T>)
    ensures |r| == |xs| && forall k :: 0 <= k < |xs| ==> r[k] == xs[|xs| - 1 - k]
  {
    seq(|xs|, k requires 0 <= k < |xs| => xs[|xs| - 1 - k])
  }

  /** The user's events in append order. */
  function OwnEvents(log: seq<Entry>, uid: string): seq<Entry> {
    Filter(log, (e: Entry) => e.userId == uid)
  }

  /** `loadLogs`: the user's events, newest first, at most a page of them;
      `log` is the event log in append order, so the newest is last. */
  function LoadLogs(log: seq<Entry>, uid: string): (r: seq<Entry>)
    ensures |r| <= PageSize
    ensures forall k :: 0 <= k < |r| ==> r[k].userId == uid && r[k] in log
    ensures |r| == if |OwnEvents(log, uid)| <= PageSize then |OwnEvents(log, uid)| else PageSize
    ensures forall k :: 0 <= k < |r| ==> r[k] == OwnEvents(log, uid)[|OwnEvents(log, uid)| - 1 - k]
  {
    var own := Reverse(OwnEvents(log, uid));
    if |own| <= PageSize then own else own[..PageSize]
  }

  /** A user with at most a page of events sees every one of them, as often
      as it was logged. */
  lemma LoadLogsComplete(log: seq<Entry>, uid: string)
    requires |OwnEvents(log, uid)| <= PageSize
    ensures forall e: Entry :: e in log && e.userId == uid ==> e in LoadLogs(log, uid)
    ensures forall e: Entry :: e.userId == uid ==> multiset(LoadLogs(log, uid))[e] == multiset(log)[e]
  {
    var own := OwnEvents(log, uid);
    var r := LoadLogs(log, uid);
    FilterKeeps(log, (e: Entry) => e.userId == uid);
    ReverseMultiset(own);
    assert r == Reverse(own);
  }

  /** Reversing keeps every element as often as it occurs. */
  lemma {:induction false} ReverseMultiset<T>(xs: seq<T>)
    ensures multiset(Reverse(xs)) == multiset(xs)
    decreases |xs|
  {
    if |xs| > 0 {
      var init := xs[..|xs| - 1];
      ReverseMultiset(init);
      assert Reverse(xs) == [xs[|xs| - 1]] + Reverse(init);
      assert xs == init + [xs[|xs| - 1]];
    }
  }

  /** The page opens on the user's latest event. */
  lemma LoadLogsNewestFirst(log: seq<Entry>, uid: string)
    requires |log| > 0 && log[|log| - 1].userId == uid
    ensures |LoadLogs(log, uid)| > 0 && LoadLogs(log, uid)[0] == log[|log| - 1]
  {
    var p := (e: Entry) => e.userId == uid;
    var init := log[..|log| - 1];
    assert log == init + [log[|log| - 1]];
    FilterAppend(init, [log[|log| - 1]], p);
  }

  // ----- filtering -----

  /** The search test: the lower-cased term occurs in the lower-cased action
      or in the lower-cased details. */
  predicate Matches(e: Entry, term: string) {
    Contains(ToLower(e.action), ToLower(term)) || Contains(ToLower(e.details), ToLower(term))
  }

  /** `filterLogs`: the events of the chosen action (every event for
      "all"), then, when a term is typed, those matching it. */
  function FilterLogs(logs: seq<Entry>, actionFilter: string, searchTerm: string): seq<Entry> {
    var byAction := if actionFilter != AllActions then Filter(logs, (e: Entry) => e.action == actionFilter) else logs;
    if searchTerm != "" then Filter(byAction, (e: Entry) => Matches(e, searchTerm)) else byAction
  }

  /** What the list shows, entry by entry. */
  predicate Shown(e: Entry, actionFilter: string, searchTerm: string) {
    (actionFilter == AllActions || e.action == actionFilter) && (searchTerm == "" || Matches(e, searchTerm))
  }

  /** The two filters are one filter by `Shown`. */
  lemma FilterLogsIsShown(logs: seq<Entry>, actionFilter: string, searchTerm: string)
    ensures FilterLogs(logs, actionFilter, searchTerm) == Filter(logs, (e: Entry) => Shown(e, actionFilter, searchTerm))
  {
    var a := (e: Entry) => e.action == actionFilter;
    var m := (e: Entry) => Matches(e, searchTerm);
    var shown := (e: Entry) => Shown(e, actionFilter, searchTerm);
    if actionFilter != AllActions && searchTerm != "" {
      TwoFilters(logs, a, m, shown);
    } else if actionFilter != AllActions {
      FilterSame(logs, a, shown);
    } else if searchTerm != "" {
      FilterSame(logs, m, shown);
    } else {
      FilterKeepsAll(logs, shown);
    }
  }

  /** Two filters in a row are one filter by their conjunction. */
  lemma TwoFilters(logs: seq<Entry>, a: Entry -> bool, m: Entry -> bool, both: Entry -> bool)
    requires forall e :: both(e) == (a(e) && m(e))
    ensures Filter(Filter(logs, a), m) == Filter(logs, both)
  {
    FilterFilter(logs, a, m);
    FilterSame(logs, (e: Entry) => a(e) && m(e), both);
  }

  /** Filters that agree on every element give the same result. */
  lemma {:induction false} FilterSame(xs: seq<Entry>, p: Entry -> bool, q: Entry -> bool)
    requires forall k :: 0 <= k < |xs| ==> p(xs[k]) == q(xs[k])
    ensures Filter(xs, p) == Filter(xs, q)
    decreases |xs|
  {
    if |xs| > 0 {
      FilterSame(xs[1..], p, q);
    }
  }

  /** The list shows exactly the loaded events that pass both filters, each
      as often as it was loaded and in the loaded order. */
  lemma FilterLogsExactly(logs: seq<Entry>, actionFilter: string, searchTerm: string)
    ensures var r := FilterLogs(logs, actionFilter, searchTerm);
      && (forall e :: e in r <==> e in logs && Shown(e, actionFilter, searchTerm))
      && (forall e :: Shown(e, actionFilter, searchTerm) ==> multiset(r)[e] == multiset(logs)[e])
      && IsSubsequence(r, logs)
  {
    FilterLogsIsShown(logs, actionFilter, searchTerm);
    FilterKeeps(logs, (e: Entry) => Shown(e, actionFilter, searchTerm));
  }

  /** Filtering what is shown again changes nothing. */
  lemma FilterLogsIdempotent(logs: seq<Entry>, actionFilter: string, searchTerm: string)
    ensures FilterLogs(FilterLogs(logs, actionFilter, searchTerm), actionFilter, searchTerm)
         == FilterLogs(logs, actionFilter, searchTerm)
  {
    var shown := (e: Entry) => Shown(e, actionFilter, searchTerm);
    FilterLogsIsShown(logs, actionFilter, searchTerm);
    FilterLogsIsShown(Filter(logs, shown), actionFilter, searchTerm);
    FilterIdempotent(logs, shown);
  }

  /** "all" and an empty search show everything loaded. */
  lemma FilterLogsEverything(logs: seq<Entry>)
    ensures FilterLogs(logs, AllActions, "") == logs
  {
  }

  /** The action filter compares whole names exactly: "message" does not
      select "message_sent", whereas searching for it does. */
  lemma ActionFilterIsExact(e: Entry)
    requires e.action == "message_sent" && e.details == ""
    ensures FilterLogs([e], "message", "") == []
    ensures FilterLogs([e], AllActions, "message") == [e]
  {
    assert OccursAt(ToLower(e.action), ToLower("message"), 0);
    ContainsAt(ToLower(e.action), ToLower("message"), 0);
  }

  /** The search ignores the case of ASCII letters on both sides. */
  lemma SearchIgnoresCase(e: Entry, term: string)
    ensures Matches(e, term) <==> Matches(e, ToLower(term))
  {
    LowerTwice(term);
  }

  lemma LowerTwice(s: string)
    ensures ToLower(ToLower(s)) == ToLower(s)
  {
  }

  // ----- the action options and labels -----

  /** The actions of some events, in order. */
  function Actions(logs: seq<Entry>): (r: seq<string>)
    ensures |r| == |logs| && forall k :: 0 <= k < |logs| ==> r[k] == logs[k].action
  {
    seq(|logs|, k requires 0 <= k < |logs| => logs[k].action)
  }

  /** `Array.from(new Set(logs.map(log => log.action)))`: each action once,
      in the order it first appears. */
  function UniqueActions(logs: seq<Entry>): seq<string> {
    Dedup(Actions(logs))
  }

  /** Every option is listed once, every loaded action is an option, and
      choosing an option leaves at least one event in the list. */
  lemma UniqueActionsOptions(logs: seq<Entry>)
    ensures Distinct(UniqueActions(logs))
    ensures forall k :: 0 <= k < |logs| ==> logs[k].action in UniqueActions(logs)
    ensures forall a :: a in UniqueActions(logs) ==> FilterLogs(logs, a, "") != []
  {
    var opts := UniqueActions(logs);
    forall a | a in opts
      ensures FilterLogs(logs, a, "") != []
    {
      var k :| 0 <= k < |logs| && Actions(logs)[k] == a;
      if a == AllActions {
        assert logs[k] in FilterLogs(logs, a, "");
      } else {
        assert logs[k] in Filter(logs, (e: Entry) => e.action == a);
      }
    }
  }

  /** `action.replace(/_/g, " ")`, the badge text. */
  function Label(action: string): string {
    ReplaceAllJs(action, "_", " ")
  }

  /** The badge shows the action with each underscore as a space and
      nothing else changed. */
  lemma LabelSpaces(action: string)
    ensures |Label(action)| == |action|
    ensures forall i :: 0 <= i < |action| ==> Label(action)[i] == if action[i] == '_' then ' ' else action[i]
  {
    ReplaceAllFromLiteral(action, "_", " ", 0);
    assert action[0..] == action;
    ReplaceAllChar(action, '_', ' ');
  }

  /** `getActionColor`: the badge variant of an action. */
  function ActionColor(action: string): (v: string)
    ensures v in {"destructive", "default", "secondary", "outline"}
  {
    if action == "error_occurred" || action == "campaign_failed" then "destructive"
    else if action == "campaign_completed" || action == "message_sent" || action == "recipients_uploaded" then "default"
    else if action == "campaign_created" || action == "campaign_executed" then "secondary"
    else "outline"
  }

  /** Failures stand out, and an action the page does not know is drawn
      plainly. */
  lemma ActionColors(action: string)
    ensures ActionColor(action) == "destructive" <==> action == "error_occurred" || action == "campaign_failed"
    ensures ActionColor(action) == "outline" <==>
      action !in {"error_occurred", "campaign_failed", "campaign_completed", "message_sent",
                  "recipients_uploaded", "campaign_created", "campaign_executed"}
  {
  }
}

=== FILE: messaging.dfy ===
/** The provider gateways, the retry policy with exponential back-off and
    message personalisation. The provider routes are not modelled: each
    request's reply comes from an oracle. */
module Messaging {
  import opened Common
  import opened Text
  import opened Firestore

  /** `MessageResult`: whether the message went out, the provider's id for it,
      the error text, and how many requests were made. */
  datatype MessageResult = MessageResult(success: bool, messageId: Option<string>, error: Option<string>, attempts: nat)

  /** What one request to a provider route produced: a response (its 2xx
      status and the body's `messageId` and `error`, the latter "" when missing
      or falsy), or a value thrown by `fetch` or by reading the body. */
  datatype ProviderReply =
    | HttpReply(ok: bool, messageId: Option<string>, error: string)
    | FetchFailed(thrown: Thrown)

  /** The error text used when a refusing provider gives none. */
  function FallbackError(m: Method): string {
    match m
    case Sms => "Failed to send SMS"
    case WhatsApp => "Failed to send WhatsApp message"
  }

  /** `sendSMS` / `sendWhatsApp` given the outcome of their one request. */
  function Gateway(m: Method, reply: ProviderReply): (r: MessageResult)
    ensures r.attempts == 1
    ensures r.success <==> reply.HttpReply? && reply.ok
    ensures r.success ==> r.error.None? && r.messageId == reply.messageId
    ensures !r.success ==> r.error.Some?
    ensures reply.HttpReply? && !reply.ok ==> r.error.Some? && r.error.value != ""
    ensures reply.HttpReply? && !reply.ok && reply.error == "" ==> r.error == Some(FallbackError(m))
    ensures reply.FetchFailed? && reply.thrown.OtherValue? ==> r.error == Some("Network error")
  {
    match reply
    case HttpReply(ok, id, err) =>
      if ok then MessageResult(true, id, None, 1)
      else MessageResult(false, None, Some(if err != "" then err else FallbackError(m)), 1)
    case FetchFailed(t) => MessageResult(false, None, Some(MessageOf(t, "Network error")), 1)
  }

  // ----- sendMessageWithRetry -----

  /** The result of `sendMessageWithRetry`, the number of requests it made and
      the pauses (in milliseconds) it requested, in order. */
  datatype RetryRun = RetryRun(result: MessageResult, sends: nat, waits: seq<nat>)

  /** The result when not a single attempt is allowed. */
  const NoAttempts := MessageResult(false, None, Some("No attempts made"), 0)

  function Pow2(n: nat): (r: nat)
    ensures r >= 1
  {
    if n == 0 then 1 else 2 * Pow2(n - 1)
  }

  /** The pause after failed attempt `attempt`: 2^attempt seconds. */
  function Backoff(attempt: nat): nat {
    Pow2(attempt) * 1000
  }

  /** The pauses after attempts `from`, `from + 1`, ..., `from + n - 1`. */
  function Backoffs(from: nat, n: nat): (r: seq<nat>)
    ensures |r| == n
    decreases n
  {
    if n == 0 then [] else [Backoff(from)] + Backoffs(from + 1, n - 1)
  }

  function Sum(xs: seq<nat>): nat
    decreases |xs|
  {
    if |xs| == 0 then 0 else xs[0] + Sum(xs[1..])
  }

  /** Attempt number `k` of method `m`; `replies(k)` is the provider's reply
      to it. */
  function Attempt(m: Method, replies: nat -> ProviderReply, k: nat): (r: MessageResult)
    ensures r.attempts == k
  {
    Gateway(m, replies(k)).(attempts := k)
  }

  /** The retry loop from attempt `attempt` on, `last` being the result so far. */
  function RetryFrom(m: Method, replies: nat -> ProviderReply, maxAttempts: int, attempt: nat, last: MessageResult): RetryRun
    requires attempt >= 1
    decreases if attempt <= maxAttempts then maxAttempts - attempt + 1 else 0
  {
    if attempt > maxAttempts then RetryRun(last, attempt - 1, [])
    else
      var res := Attempt(m, replies, attempt);
      if res.success then RetryRun(res, attempt, [])
      else
        var rest := RetryFrom(m, replies, maxAttempts, attempt + 1, res);
        var pause := if attempt < maxAttempts then [Backoff(attempt)] else [];
        RetryRun(rest.result, rest.sends, pause + rest.waits)
  }

  /** `sendMessageWithRetry(m, to, message, maxAttempts)`. */
  function SendWithRetry(m: Method, replies: nat -> ProviderReply, maxAttempts: int): RetryRun {
    RetryFrom(m, replies, maxAttempts, 1, NoAttempts)
  }

  /** With no attempt allowed nothing is sent, nothing is awaited and the
      result says so. */
  lemma RetryWithoutAttempts(m: Method, replies: nat -> ProviderReply, maxAttempts: int)
    requires maxAttempts <= 0
    ensures SendWithRetry(m, replies, maxAttempts) == RetryRun(NoAttempts, 0, [])
  {
  }

  lemma {:induction false} RetryFromFirstSuccess(m: Method, replies: nat -> ProviderReply, maxAttempts: int, attempt: nat, last: MessageResult, k: nat)
    requires 1 <= attempt <= k <= maxAttempts
    requires Attempt(m, replies, k).success
    requires forall j :: attempt <= j < k ==> !Attempt(m, replies, j).success
    ensures RetryFrom(m, replies, maxAttempts, attempt, last) == RetryRun(Attempt(m, replies, k), k, Backoffs(attempt, k - attempt))
    decreases k - attempt
  {
    if attempt < k {
      RetryFromFirstSuccess(m, replies, maxAttempts, attempt + 1, Attempt(m, replies, attempt), k);
    }
  }

  /** The loop stops at the first successful attempt `k`: that attempt's
      result is returned with `attempts == k`, after exactly `k` requests and
      one back-off pause after each earlier attempt. */
  lemma RetryStopsAtFirstSuccess(m: Method, replies: nat -> ProviderReply, maxAttempts: int, k: nat)
    requires 1 <= k <= maxAttempts
    requires Attempt(m, replies, k).success
    requires forall j :: 1 <= j < k ==> !Attempt(m, replies, j).success
    ensures SendWithRetry(m, replies, maxAttempts) == RetryRun(Attempt(m, replies, k), k, Backoffs(1, k - 1))
    ensures SendWithRetry(m, replies, maxAttempts).result.success
    ensures SendWithRetry(m, replies, maxAttempts).result.attempts == k
  {
    RetryFromFirstSuccess(m, replies, maxAttempts, 1, NoAttempts, k);
  }

  lemma {:induction false} RetryFromAllFail(m: Method, replies: nat -> ProviderReply, maxAttempts: int, attempt: nat, last: MessageResult)
    requires 1 <= attempt <= maxAttempts
    requires forall j :: attempt <= j <= maxAttempts ==> !Attempt(m, replies, j).success
    ensures RetryFrom(m, replies, maxAttempts, attempt, last)
      == RetryRun(Attempt(m, replies, maxAttempts), maxAttempts, Backoffs(attempt, maxAttempts - attempt))
    decreases maxAttempts - attempt
  {
    if attempt < maxAttempts {
      RetryFromAllFail(m, replies, maxAttempts, attempt + 1, Attempt(m, replies, attempt));
    }
  }

  /** The pauses after attempts `from` .. `from + n - 1` add up to
      (2^(from+n) - 2^from) seconds. */
  lemma {:induction false} SumBackoffs(from: nat, n: nat)
    ensures Sum(Backoffs(from, n)) == (Pow2(from + n) - Pow2(from)) * 1000
    decreases n
  {
    if n > 0 {
      SumBackoffs(from + 1, n - 1);
      assert Backoffs(from, n)[1..] == Backoffs(from + 1, n - 1);
    }
  }

  /** When every allowed attempt fails, the last attempt's result is returned
      with `attempts == maxAttempts`, after `maxAttempts` requests, with a
      pause after every attempt but the last, (2^maxAttempts - 2) seconds in
      all. */
  lemma RetryAllFail(m: Method, replies: nat -> ProviderReply, maxAttempts: int)
    requires maxAttempts >= 1
    requires forall j :: 1 <= j <= maxAttempts ==> !Attempt(m, replies, j).success
    ensures SendWithRetry(m, replies, maxAttempts)
      == RetryRun(Attempt(m, replies, maxAttempts), maxAttempts, Backoffs(1, maxAttempts - 1))
    ensures !SendWithRetry(m, replies, maxAttempts).result.success
    ensures SendWithRetry(m, replies, maxAttempts).result.attempts == maxAttempts
    ensures Sum(SendWithRetry(m, replies, maxAttempts).waits) == (Pow2(maxAttempts) - 2) * 1000
  {
    RetryFromAllFail(m, replies, maxAttempts, 1, NoAttempts);
    SumBackoffs(1, maxAttempts - 1);
  }

  lemma {:induction false} RetryFromOutcome(m: Method, replies: nat -> ProviderReply, maxAttempts: int, attempt: nat, last: MessageResult)
    requires attempt >= 1 && !last.success && last.attempts == attempt - 1
    ensures var r := RetryFrom(m, replies, maxAttempts, attempt, last);
      && (r.result.success <==> exists j :: attempt <= j <= maxAttempts && Attempt(m, replies, j).success)
      && r.sends == r.result.attempts
      && r.result.attempts <= Max(attempt - 1, maxAttempts)
      && (attempt <= maxAttempts ==> r.result.attempts >= attempt)
    decreases if attempt <= maxAttempts then maxAttempts - attempt + 1 else 0
  {
    if attempt <= maxAttempts && !Attempt(m, replies, attempt).success {
      RetryFromOutcome(m, replies, maxAttempts, attempt + 1, Attempt(m, replies, attempt));
      var r := RetryFrom(m, replies, maxAttempts, attempt, last);
      if r.result.success {
        var j :| attempt + 1 <= j <= maxAttempts && Attempt(m, replies, j).success;
      }
    }
  }

  /** Whatever the replies, the message goes out iff one of the allowed
      attempts succeeds, the reported `attempts` is the number of requests
      made, and it never exceeds the allowance. */
  lemma RetryOutcome(m: Method, replies: nat -> ProviderReply, maxAttempts: int)
    ensures var r := SendWithRetry(m, replies, maxAttempts);
      && (r.result.success <==> exists j :: 1 <= j <= maxAttempts && Attempt(m, replies, j).success)
      && r.sends == r.result.attempts
      && r.result.attempts <= Max(0, maxAttempts)
      && (maxAttempts >= 1 ==> r.result.attempts >= 1)
  {
    RetryFromOutcome(m, replies, maxAttempts, 1, NoAttempts);
  }

  // ----- personalisation -----

  /** The placeholder a template uses for the recipient's name. */
  const NameToken := "<recipient_name>"

  /** `template.replace(/<recipient_name>/g, name)`: the name is a
      replacement string, so `$` patterns in it are expanded. */
  function Personalize(template: string, name: string): string {
    ReplaceAllJs(template, NameToken, name)
  }

  /** A template without the placeholder is sent unchanged. */
  lemma PersonalizeWithoutToken(template: string, name: string)
    requires !Contains(template, NameToken)
    ensures Personalize(template, name) == template
  {
    assert template[0..] == template;
    ReplaceAllFromAbsent(template, NameToken, name, 0);
  }

  /** Every placeholder is replaced by a name without `$`: a template made
      of placeholder-free pieces joined by placeholders becomes the same
      pieces joined by the name. */
  lemma PersonalizeJoin(pieces: seq<string>, name: string)
    requires |pieces| >= 1 && '$' !in name
    requires forall k :: 0 <= k < |pieces| ==> !Contains(pieces[k], NameToken)
    ensures Personalize(Join(pieces, NameToken), name) == Join(pieces, name)
  {
    var s := Join(pieces, NameToken);
    ReplaceAllFromLiteral(s, NameToken, name, 0);
    assert s[0..] == s;
    ReplaceAllJoin(pieces, name);
  }

  /** The textual replacement of every placeholder, piece by piece. */
  lemma {:induction false} ReplaceAllJoin(pieces: seq<string>, name: string)
    requires |pieces| >= 1
    requires forall k :: 0 <= k < |pieces| ==> !Contains(pieces[k], NameToken)
    ensures ReplaceAll(Join(pieces, NameToken), NameToken, name) == Join(pieces, name)
    decreases |pieces|
  {
    if |pieces| == 1 {
      ReplaceAllAbsent(pieces[0], NameToken, name);
    } else {
      var rest := Join(pieces[1..], NameToken);
      ReplaceAllJoin(pieces[1..], name);
      ExtendWithoutOccurrence(pieces[0], NameToken);
      ReplaceAllAfterPrefix(pieces[0], NameToken, rest, name);
    }
  }

  /** A worked instance: "Hi <recipient_name>!" for Ana reads "Hi Ana!". */
  lemma PersonalizeGreeting()
    ensures Personalize("Hi <recipient_name>!", "Ana") == "Hi Ana!"
  {
    assert !Contains("Hi ", NameToken);
    assert !Contains("!", NameToken);
    PersonalizeJoin(["Hi ", "!"], "Ana");
    assert Join(["Hi ", "!"], NameToken) == "Hi <recipient_name>!";
    assert Join(["Hi ", "!"], "Ana") == "Hi Ana!";
  }

  /** A name holding `$&` brings the placeholder back: for "A$&B" the
      greeting reads "Hi A<recipient_name>B", not "Hi A$&B". */
  lemma PersonalizeDollarName(s: string, rep: string)
    requires s == "Hi <recipient_name>" && rep == "A$&B"
    ensures Personalize(s, rep) == "Hi A<recipient_name>B"
  {
    DollarNameText(s);
    DollarNameExpand(rep);
    DollarNameSteps(s, rep);
  }

  /** The two strings of the example, spelled around the placeholder. */
  lemma DollarNameText(s: string)
    requires s == "Hi <recipient_name>"
    ensures s == "Hi " + NameToken
    ensures "Hi " + ("A" + NameToken + "B") == "Hi A<recipient_name>B"
  {
  }

  /** "A$&B" expands to "A", the match, then "B". */
  lemma DollarNameExpand(rep: string)
    requires rep == "A$&B"
    ensures Expand(rep, NameToken, "Hi ", "") == "A" + NameToken + "B"
  {
    var t := NameToken;
    assert rep[1..] == "$&B" && rep[3..] == "B" && rep[4..] == "";
    assert Expand(rep[3..], t, "Hi ", "") == "B";
    assert Expand(rep[1..], t, "Hi ", "") == t + "B";
  }

  /** The scan over "Hi <recipient_name>": three characters kept, then one hit. */
  lemma DollarNameSteps(s: string, rep: string)
    requires s == "Hi " + NameToken
    ensures ReplaceAllFrom(s, NameToken, rep, 0) == "Hi " + Expand(rep, NameToken, "Hi ", "")
  {
    var t := NameToken;
    assert s[3..] == t && s[..3] == "Hi " && s[19..] == "";
    assert ReplaceAllFrom(s, t, rep, 3) == Expand(rep, t, "Hi ", "");
    assert s[2] != t[0] && s[1] != t[0] && s[0] != t[0];
    assert ReplaceAllFrom(s, t, rep, 2) == [s[2]] + ReplaceAllFrom(s, t, rep, 3);
    assert ReplaceAllFrom(s, t, rep, 1) == [s[1]] + ReplaceAllFrom(s, t, rep, 2);
    assert ReplaceAllFrom(s, t, rep, 0) == [s[0]] + ReplaceAllFrom(s, t, rep, 1);
  }
}

=== FILE: seqs.dfy ===
/** List operations the components use: `filter`, removal of every copy of a
    value, and `Array.from(new Set(xs))`. */
module Seqs {
  import opened Common

  /** `a` can be obtained from `b` by deleting elements (order kept). */
  predicate IsSubsequence<T(==)>(a: seq<T>, b: seq<T>)
    decreases |b|
  {
    if |a| == 0 then true
    else if |b| == 0 then false
    else if a[0] == b[0] then IsSubsequence(a[1..], b[1..])
    else IsSubsequence(a, b[1..])
  }

  lemma {:induction false} SubsequenceOfTail<T>(a: seq<T>, b: seq<T>)
    requires |b| > 0 && IsSubsequence(a, b[1..])
    ensures IsSubsequence(a, b)
    decreases |b|, 0
  {
    if |a| > 0 && a[0] == b[0] {
      SubsequenceDropHead(a, b[1..]);
    }
  }

  lemma {:induction false} SubsequenceDropHead<T>(a: seq<T>, b: seq<T>)
    requires |a| > 0 && IsSubsequence(a, b)
    ensures IsSubsequence(a[1..], b)
    decreases |b|, 1
  {
    if a[0] == b[0] {
      SubsequenceOfTail(a[1..], b);
    } else {
      SubsequenceDropHead(a, b[1..]);
      SubsequenceOfTail(a[1..], b);
    }
  }

  /** `xs.filter(p)`: the elements satisfying `p`, in their original order. */
  function Filter<T(==,!new)>(xs: seq<T>, p: T -> bool): (r: seq<T>)
    ensures |r| <= |xs|
    ensures forall k :: 0 <= k < |r| ==> p(r[k])
    ensures forall x :: x in r <==> x in xs && p(x)
    decreases |xs|
  {
    if |xs| == 0 then []
    else
      var rest := Filter(xs[1..], p);
      assert xs == [xs[0]] + xs[1..];
      if p(xs[0]) then [xs[0]] + rest else rest
  }

  /** A filter keeps every satisfying element as often as it occurs, and keeps
      the elements in their original order. */
  lemma {:induction false} FilterKeeps<T(!new)>(xs: seq<T>, p: T -> bool)
    ensures forall x :: p(x) ==> multiset(Filter(xs, p))[x] == multiset(xs)[x]
    ensures IsSubsequence(Filter(xs, p), xs)
    decreases |xs|
  {
    if |xs| > 0 {
      var rest := Filter(xs[1..], p);
      FilterKeeps(xs[1..], p);
      assert xs == [xs[0]] + xs[1..];
      assert multiset(xs) == multiset{xs[0]} + multiset(xs[1..]);
      if p(xs[0]) {
        assert ([xs[0]] + rest)[1..] == rest;
      } else {
        SubsequenceOfTail(rest, xs);
      }
    }
  }

  /** Filtering a second time with the same predicate changes nothing. */
  lemma {:induction false} FilterIdempotent<T(!new)>(xs: seq<T>, p: T -> bool)
    ensures Filter(Filter(xs, p), p) == Filter(xs, p)
    decreases |xs|
  {
    if |xs| > 0 {
      FilterIdempotent(xs[1..], p);
      if p(xs[0]) {
        assert ([xs[0]] + Filter(xs[1..], p))[1..] == Filter(xs[1..], p);
      }
    }
  }

  /** Two filters in a row are one filter with the conjunction. */
  lemma {:induction false} FilterFilter<T(!new)>(xs: seq<T>, p: T -> bool, q: T -> bool)
    ensures Filter(Filter(xs, p), q) == Filter(xs, x => p(x) && q(x))
    decreases |xs|
  {
    if |xs| > 0 {
      FilterFilter(xs[1..], p, q);
      if p(xs[0]) {
        assert ([xs[0]] + Filter(xs[1..], p))[1..] == Filter(xs[1..], p);
      }
    }
  }

  /** A filter that keeps everything is the identity. */
  lemma {:induction false} FilterKeepsAll<T(!new)>(xs: seq<T>, p: T -> bool)
    requires forall k :: 0 <= k < |xs| ==> p(xs[k])
    ensures Filter(xs, p) == xs
    decreases |xs|
  {
    if |xs| > 0 {
      FilterKeepsAll(xs[1..], p);
      assert xs == [xs[0]] + xs[1..];
    }
  }

  /** A filter no element passes leaves nothing. */
  lemma NoneKept<T(!new)>(xs: seq<T>, p: T -> bool)
    requires forall k :: 0 <= k < |xs| ==> !p(xs[k])
    ensures Filter(xs, p) == []
  {
  }

  /** Filtering distributes over concatenation. */
  lemma {:induction false} FilterAppend<T(!new)>(a: seq<T>, b: seq<T>, p: T -> bool)
    ensures Filter(a + b, p) == Filter(a, p) + Filter(b, p)
    decreases |a|
  {
    if |a| > 0 {
      assert (a + b)[1..] == a[1..] + b;
      FilterAppend(a[1..], b, p);
    } else {
      assert a + b == b;
    }
  }

  /** `xs.filter(y => y !== x)`: every copy of `x` removed, all other elements
      kept in order and with their multiplicity. */
  function RemoveAll<T(==,!new)>(xs: seq<T>, x: T): (r: seq<T>)
    ensures forall y :: y in r <==> y in xs && y != x
    ensures forall y :: y != x ==> multiset(r)[y] == multiset(xs)[y]
    ensures IsSubsequence(r, xs)
  {
    FilterKeeps(xs, y => y != x);
    Filter(xs, y => y != x)
  }

  /** No element occurs twice. */
  predicate Distinct<T(==)>(xs: seq<T>) {
    forall i, j :: 0 <= i < j < |xs| ==> xs[i] != xs[j]
  }

  /** Dropping the head keeps a list free of duplicates, and the head does not
      occur again. */
  lemma DistinctTail<T>(xs: seq<T>)
    requires |xs| > 0 && Distinct(xs)
    ensures Distinct(xs[1..]) && xs[0] !in xs[1..]
  {
    forall i, j | 0 <= i < j < |xs| - 1
      ensures xs[1..][i] != xs[1..][j]
    {
      assert xs[1..][i] == xs[i + 1] && xs[1..][j] == xs[j + 1];
    }
    forall k | 0 <= k < |xs| - 1
      ensures xs[1..][k] != xs[0]
    {
      assert xs[1..][k] == xs[k + 1];
    }
  }

  /** Filtering a list without duplicates gives a list without duplicates. */
  lemma {:induction false} FilterDistinct<T(!new)>(xs: seq<T>, p: T -> bool)
    requires Distinct(xs)
    ensures Distinct(Filter(xs, p))
    decreases |xs|
  {
    if |xs| > 0 {
      var rest := Filter(xs[1..], p);
      DistinctTail(xs);
      FilterDistinct(xs[1..], p);
      if p(xs[0]) {
        assert xs[0] !in rest;
        var r := [xs[0]] + rest;
        forall i, j | 0 <= i < j < |r|
          ensures r[i] != r[j]
        {
          assert r[j] == rest[j - 1];
          if i > 0 {
            assert r[i] == rest[i - 1];
          }
        }
      }
    }
  }

  /** Index of the first occurrence of `x`. */
  function FirstIndex<T(==)>(xs: seq<T>, x: T): (r: nat)
    requires x in xs
    ensures r < |xs| && xs[r] == x
    ensures forall k :: 0 <= k < r ==> xs[k] != x
    decreases |xs|
  {
    if xs[0] == x then 0 else 1 + FirstIndex(xs[1..], x)
  }

  /** `Array.from(new Set(xs))`: each distinct element once, ordered by where
      it first occurs in `xs`. */
  function Dedup<T(==,!new)>(xs: seq<T>): (r: seq<T>)
    ensures Distinct(r)
    ensures forall x :: x in r <==> x in xs
    ensures forall i, j :: 0 <= i < j < |r| ==> FirstIndex(xs, r[i]) < FirstIndex(xs, r[j])
    decreases |xs|
  {
    if |xs| == 0 then []
    else
      var init := xs[..|xs| - 1];
      var last := xs[|xs| - 1];
      var d := Dedup(init);
      assert xs == init + [last];
      forall y | y in init
        ensures FirstIndex(xs, y) == FirstIndex(init, y)
      {
        var a := FirstIndex(xs, y);
        var b := FirstIndex(init, y);
        assert xs[b] == y;
      }
      if last in d then d
      else
        assert FirstIndex(xs, last) == |xs| - 1;
        d + [last]
  }

  /** The distinct elements of a list grow by its last element exactly when
      that element is new. */
  lemma DedupLast<T(!new)>(xs: seq<T>)
    requires |xs| > 0
    ensures var init := xs[..|xs| - 1];
      |Dedup(xs)| == |Dedup(init)| + (if xs[|xs| - 1] in init then 0 else 1)
  {
  }

  /** Growing a prefix by one element adds exactly that element. */
  lemma PrefixGrows<T>(xs: seq<T>, i: nat)
    requires i < |xs|
    ensures xs[..i + 1] == xs[..i] + [xs[i]]
    ensures forall x :: x in xs[..i + 1] <==> x in xs[..i] || x == xs[i]
  {
    assert xs[..i + 1] == xs[..i] + [xs[i]];
  }

  /** A non-empty list is its prefix followed by its last element. */
  lemma SplitLast<T>(xs: seq<T>)
    requires |xs| > 0
    ensures xs == xs[..|xs| - 1] + [xs[|xs| - 1]]
  {
  }

  /** `xs.findIndex(p)`: the position of the first element satisfying `p`. */
  function FindFirst<T>(xs: seq<T>, p: T -> bool): (r: Option<nat>)
    ensures r.Some? ==> r.value < |xs| && p(xs[r.value])
    ensures r.Some? ==> forall k :: 0 <= k < r.value ==> !p(xs[k])
    ensures r.None? <==> forall k :: 0 <= k < |xs| ==> !p(xs[k])
    decreases |xs|
  {
    if |xs| == 0 then None
    else if p(xs[0]) then Some(0)
    else
      match FindFirst(xs[1..], p)
      case None => None
      case Some(k) => Some(k + 1)
  }

  /** `xs.map(f)`. */
  function Map<T, U>(xs: seq<T>, f: T -> U): (r: seq<U>)
    ensures |r| == |xs| && forall k :: 0 <= k < |xs| ==> r[k] == f(xs[k])
  {
    seq(|xs|, k requires 0 <= k < |xs| => f(xs[k]))
  }

  /** The concatenation of `f(x)` over `xs`, in order. */
  function FlatMap<T, U>(xs: seq<T>, f: T -> seq<U>): seq<U>
    decreases |xs|
  {
    if |xs| == 0 then [] else FlatMap(xs[..|xs| - 1], f) + f(xs[|xs| - 1])
  }

  /** `FlatMap` distributes over concatenation. */
  lemma {:induction false} FlatMapAppend<T, U>(a: seq<T>, b: seq<T>, f: T -> seq<U>)
    ensures FlatMap(a + b, f) == FlatMap(a, f) + FlatMap(b, f)
    decreases |b|
  {
    if |b| == 0 {
      assert a + b == a;
    } else {
      assert (a + b)[..|a + b| - 1] == a + b[..|b| - 1];
      FlatMapAppend(a, b[..|b| - 1], f);
    }
  }
}

=== FILE: text.dfy ===
/**
 * The JavaScript string operations the portal relies on, over `seq<char>`:
 * whitespace (`\s`, `trim`), case mapping, `includes`/`indexOf`,
 * `split`/`join` with a one-character separator, and `replace`.
 */
module Text {

  /** The characters JavaScript's `\s` matches and `String.prototype.trim`
      removes: the WhiteSpace and LineTerminator code points. */
  predicate IsSpace(c: char) {
    || c == ' ' || c == '\t' || c == '\n' || c == '\r' || c == '\U{000B}' || c == '\U{000C}'
    || c == '\U{00A0}' || c == '\U{1680}' || ('\U{2000}' <= c <= '\U{200A}')
    || c == '\U{2028}' || c == '\U{2029}' || c == '\U{202F}' || c == '\U{205F}'
    || c == '\U{3000}' || c == '\U{FEFF}'
  }

  /** `\d`: an ASCII decimal digit. */
  predicate IsDigit(c: char) {
    '0' <= c <= '9'
  }

  /** Every character is whitespace (vacuously true of ""). */
  predicate IsBlank(s: string) {
    forall i :: 0 <= i < |s| ==> IsSpace(s[i])
  }

  function TrimStart(s: string): (r: string)
    ensures |r| <= |s| && r == s[|s| - |r|..]
    ensures IsBlank(s[..|s| - |r|])
    ensures |r| == 0 || !IsSpace(r[0])
    decreases |s|
  {
    if |s| > 0 && IsSpace(s[0]) then
      var r := TrimStart(s[1..]);
      assert s[..|s| - |r|] == [s[0]] + s[1..][..|s| - 1 - |r|];
      r
    else s
  }

  function TrimEnd(s: string): (r: string)
    ensures |r| <= |s| && r == s[..|r|]
    ensures IsBlank(s[|r|..])
    ensures |r| == 0 || !IsSpace(r[|r| - 1])
    decreases |s|
  {
    if |s| > 0 && IsSpace(s[|s| - 1]) then
      var r := TrimEnd(s[..|s| - 1]);
      assert s[|r|..] == s[..|s| - 1][|r|..] + [s[|s| - 1]];
      r
    else s
  }

  /** `String.prototype.trim`: the text between the leading and the trailing
      whitespace; empty exactly when the whole string is whitespace. */
  function Trim(s: string): (r: string)
    ensures |r| <= |s|
    ensures |r| == 0 || (!IsSpace(r[0]) && !IsSpace(r[|r| - 1]))
    ensures |r| == 0 <==> IsBlank(s)
  {
    TrimBlank(s);
    TrimEnd(TrimStart(s))
  }

  /** Trimming leaves nothing exactly when the string is all whitespace. */
  lemma TrimBlank(s: string)
    ensures |TrimEnd(TrimStart(s))| == 0 <==> IsBlank(s)
  {
    var t := TrimStart(s);
    var d := |s| - |t|;
    if |TrimEnd(t)| == 0 {
      assert t[0..] == t;
      assert |t| == 0;
      assert s[..d] == s;
    }
  }

  /** A trimmed string is its own trim. */
  lemma TrimIdempotent(s: string)
    ensures Trim(Trim(s)) == Trim(s)
  {
  }

  function LowerChar(c: char): char {
    if 'A' <= c <= 'Z' then (c as int + 32) as char else c
  }

  function UpperChar(c: char): char {
    if 'a' <= c <= 'z' then (c as int - 32) as char else c
  }

  /** `String.prototype.toLowerCase`, over the ASCII letters. */
  function ToLower(s: string): (r: string)
    ensures |r| == |s|
    ensures forall i :: 0 <= i < |s| ==> r[i] == LowerChar(s[i])
  {
    seq(|s|, i requires 0 <= i < |s| => LowerChar(s[i]))
  }

  /** `String.prototype.toUpperCase`, over the ASCII letters. */
  function ToUpper(s: string): (r: string)
    ensures |r| == |s|
    ensures forall i :: 0 <= i < |s| ==> r[i] == UpperChar(s[i])
  {
    seq(|s|, i requires 0 <= i < |s| => UpperChar(s[i]))
  }

  predicate StartsWith(s: string, p: string) {
    |p| <= |s| && s[..|p|] == p
  }

  /** `String.prototype.endsWith` (case-sensitive). */
  predicate EndsWith(s: string, p: string) {
    |p| <= |s| && s[|s| - |p|..] == p
  }

  /** `t` occurs in `s` starting at index `i`. */
  predicate OccursAt(s: string, t: string, i: int) {
    0 <= i && i + |t| <= |s| && s[i..i + |t|] == t
  }

  lemma OccursShift(s: string, t: string)
    requires |s| > 0
    ensures forall j {:trigger OccursAt(s[1..], t, j)} :: 0 <= j ==> (OccursAt(s[1..], t, j) <==> OccursAt(s, t, j + 1))
    ensures forall j {:trigger OccursAt(s, t, j)} :: 1 <= j ==> (OccursAt(s, t, j) <==> OccursAt(s[1..], t, j - 1))
  {
    forall j | 0 <= j
      ensures OccursAt(s[1..], t, j) <==> OccursAt(s, t, j + 1)
    {
      if 0 <= j && j + |t| <= |s| - 1 {
        assert s[1..][j..j + |t|] == s[j + 1..j + 1 + |t|];
      }
    }
  }

  /** No occurrence in `x` means none in its tail either. */
  lemma NotContainsTail(x: string, t: string)
    requires |x| > 0 && !Contains(x, t)
    ensures !Contains(x[1..], t)
  {
    OccursShift(x, t);
  }

  /** `String.prototype.indexOf`: the first index at which `t` occurs in `s`,
      or -1 when it occurs nowhere. */
  function IndexOf(s: string, t: string): (r: int)
    ensures -1 <= r
    ensures r >= 0 ==> OccursAt(s, t, r)
    ensures forall j :: 0 <= j && (r < 0 || j < r) ==> !OccursAt(s, t, j)
    decreases |s|
  {
    if StartsWith(s, t) then 0
    else if |s| == 0 then -1
    else
      var k := IndexOf(s[1..], t);
      OccursShift(s, t);
      if k < 0 then -1 else k + 1
  }

  /** `String.prototype.includes`. */
  predicate Contains(s: string, t: string) {
    IndexOf(s, t) >= 0
  }

  /** `Contains` is exactly "occurs somewhere". */
  lemma ContainsIff(s: string, t: string)
    ensures Contains(s, t) <==> exists j :: OccursAt(s, t, j)
  {
  }

  lemma ContainsAt(s: string, t: string, j: int)
    requires OccursAt(s, t, j)
    ensures Contains(s, t)
  {
  }

  /** A one-character pattern occurs exactly where that character stands. */
  lemma OccursChar(s: string, c: char, k: int)
    ensures OccursAt(s, [c], k) <==> 0 <= k < |s| && s[k] == c
  {
    if 0 <= k < |s| && s[k] == c {
      assert s[k..k + 1] == [c];
    }
  }

  /** `parts.join(sep)`. */
  function Join(parts: seq<string>, sep: string): string
    decreases |parts|
  {
    if |parts| == 0 then ""
    else if |parts| == 1 then parts[0]
    else parts[0] + sep + Join(parts[1..], sep)
  }

  /** `s.split(sep)` for a one-character separator: the pieces between the
      separators. */
  function Split(s: string, sep: char): (r: seq<string>)
    ensures |r| >= 1
    ensures forall k :: 0 <= k < |r| ==> sep !in r[k]
    decreases |s|
  {
    if |s| == 0 then [""]
    else if s[0] == sep then [""] + Split(s[1..], sep)
    else
      var rest := Split(s[1..], sep);
      [[s[0]] + rest[0]] + rest[1..]
  }

  /** Joining the pieces back with the separator gives the string again. */
  lemma {:induction false} JoinOfSplit(s: string, sep: char)
    ensures Join(Split(s, sep), [sep]) == s
    decreases |s|
  {
    if |s| > 0 {
      var rest := Split(s[1..], sep);
      JoinOfSplit(s[1..], sep);
      assert s == [s[0]] + s[1..];
      if s[0] == sep {
        assert ([""] + rest)[1..] == rest;
      } else {
        var r := [[s[0]] + rest[0]] + rest[1..];
        assert r[1..] == rest[1..];
      }
    }
  }

  lemma {:induction false} SplitWithoutSeparator(a: string, sep: char)
    requires sep !in a
    ensures Split(a, sep) == [a]
    decreases |a|
  {
    if |a| > 0 {
      SplitWithoutSeparator(a[1..], sep);
      assert a == [a[0]] + a[1..];
    }
  }

  lemma {:induction false} SplitAfterPiece(a: string, sep: char, b: string)
    requires sep !in a
    ensures Split(a + [sep] + b, sep) == [a] + Split(b, sep)
    decreases |a|
  {
    var s := a + [sep] + b;
    if |a| == 0 {
      assert s[1..] == b;
    } else {
      assert s[1..] == a[1..] + [sep] + b;
      SplitAfterPiece(a[1..], sep, b);
      assert a == [a[0]] + a[1..];
    }
  }

  /** `split` undoes `join` when no piece contains the separator. */
  lemma {:induction false} SplitOfJoin(parts: seq<string>, sep: char)
    requires |parts| >= 1
    requires forall k :: 0 <= k < |parts| ==> sep !in parts[k]
    ensures Split(Join(parts, [sep]), sep) == parts
    decreases |parts|
  {
    if |parts| == 1 {
      SplitWithoutSeparator(parts[0], sep);
    } else {
      SplitOfJoin(parts[1..], sep);
      SplitAfterPiece(parts[0], sep, Join(parts[1..], [sep]));
      assert parts[0] + [sep] + Join(parts[1..], [sep]) == Join(parts, [sep]);
      assert parts == [parts[0]] + parts[1..];
    }
  }

  /** `s.replace(/t/g, rep)` for a literal, non-empty pattern `t`: scans left
      to right and replaces non-overlapping occurrences. */
  function ReplaceAll(s: string, t: string, rep: string): string
    requires |t| > 0
    decreases |s|
  {
    if |s| < |t| then s
    else if s[..|t|] == t then rep + ReplaceAll(s[|t|..], t, rep)
    else [s[0]] + ReplaceAll(s[1..], t, rep)
  }

  /** Text in which the pattern never occurs comes back unchanged. */
  lemma {:induction false} ReplaceAllAbsent(s: string, t: string, rep: string)
    requires |t| > 0 && !Contains(s, t)
    ensures ReplaceAll(s, t, rep) == s
    decreases |s|
  {
    if |t| <= |s| {
      if s[..|t|] == t {
        ContainsAt(s, t, 0);
      }
      NotContainsTail(s, t);
      ReplaceAllAbsent(s[1..], t, rep);
      assert s == [s[0]] + s[1..];
    }
  }

  /** No occurrence starts at the head of `a + t + b` when `a` is non-empty
      and no occurrence starts inside `a`. */
  lemma HeadIsNotPattern(a: string, t: string, b: string)
    requires |a| > 0 && |t| > 0
    requires !Contains(a + t[..|t| - 1], t)
    ensures (a + t + b)[..|t|] != t
  {
    var x := a + t[..|t| - 1];
    assert x[..|t|] == (a + t + b)[..|t|];
    if (a + t + b)[..|t|] == t {
      ContainsAt(x, t, 0);
    }
  }

  lemma ReplaceAllSkip(s: string, t: string, rep: string)
    requires 0 < |t| <= |s| && s[..|t|] != t
    ensures ReplaceAll(s, t, rep) == [s[0]] + ReplaceAll(s[1..], t, rep)
  {
  }

  lemma ReplaceAllHit(s: string, t: string, rep: string)
    requires 0 < |t| <= |s| && s[..|t|] == t
    ensures ReplaceAll(s, t, rep) == rep + ReplaceAll(s[|t|..], t, rep)
  {
  }

  lemma ConsAppend(a: string, x: string, y: string)
    requires |a| > 0
    ensures [a[0]] + (a[1..] + x + y) == a + x + y
  {
    assert a == [a[0]] + a[1..];
  }

  lemma PrefixStep(a: string, t: string, b: string, rep: string)
    requires |a| > 0 && |t| > 0
    requires !Contains(a + t[..|t| - 1], t)
    ensures !Contains(a[1..] + t[..|t| - 1], t)
    ensures ReplaceAll(a + t + b, t, rep) == [a[0]] + ReplaceAll(a[1..] + t + b, t, rep)
  {
    var x := a + t[..|t| - 1];
    NotContainsTail(x, t);
    assert x[1..] == a[1..] + t[..|t| - 1];
    HeadIsNotPattern(a, t, b);
    var s := a + t + b;
    ReplaceAllSkip(s, t, rep);
    assert s[1..] == a[1..] + t + b;
  }

  /** The first occurrence in `a + t + b` is the one right after `a` (no
      occurrence starts inside `a`), so it is replaced and the scan resumes
      at `b`. */
  lemma {:induction false} ReplaceAllAfterPrefix(a: string, t: string, b: string, rep: string)
    requires |t| > 0
    requires !Contains(a + t[..|t| - 1], t)
    ensures ReplaceAll(a + t + b, t, rep) == a + rep + ReplaceAll(b, t, rep)
    decreases |a|
  {
    var s := a + t + b;
    if |a| == 0 {
      assert s[..|t|] == t && s[|t|..] == b by {
        assert s == t + b;
      }
      ReplaceAllHit(s, t, rep);
    } else {
      var tail := ReplaceAll(b, t, rep);
      var rest := ReplaceAll(a[1..] + t + b, t, rep);
      PrefixStep(a, t, b, rep);
      ReplaceAllAfterPrefix(a[1..], t, b, rep);
      assert rest == a[1..] + rep + tail;
      ConsAppend(a, rep, tail);
    }
  }

  /** An occurrence of `t` that straddles the end of `a` matches the first
      character of `t` against a later one. */
  lemma SeamCharacter(a: string, t: string, j: int)
    requires |t| > 0 && OccursAt(a + t[..|t| - 1], t, j) && |a| < j + |t|
    ensures 0 < |a| - j < |t| && t[|a| - j] == t[0]
  {
    var x := a + t[..|t| - 1];
    assert x[j..j + |t|][|a| - j] == x[|a|];
  }

  /** When the first character of `t` does not occur again in `t`, text free
      of `t` stays free of it after appending all of `t` but its last
      character: no occurrence can straddle the seam. */
  lemma ExtendWithoutOccurrence(a: string, t: string)
    requires |t| > 0 && !Contains(a, t)
    requires forall k :: 1 <= k < |t| ==> t[k] != t[0]
    ensures !Contains(a + t[..|t| - 1], t)
  {
    var x := a + t[..|t| - 1];
    if Contains(x, t) {
      var j := IndexOf(x, t);
      assert OccursAt(x, t, j);
      if j + |t| <= |a| {
        assert a[j..j + |t|] == x[j..j + |t|];
        ContainsAt(a, t, j);
      } else {
        SeamCharacter(a, t, j);
      }
    }
  }

  // ----- replacement patterns -----

  /** The text JavaScript substitutes for one match of a pattern without
      capture groups, given the replacement string `rep`: `$$` stands for
      `$`, `$&` for the match, `` $` `` for the text before it and `$'` for
      the text after it; any other `$` stands for itself. */
  function Expand(rep: string, matched: string, before: string, after: string): string
    decreases |rep|
  {
    if |rep| == 0 then ""
    else if rep[0] == '$' && |rep| >= 2 && rep[1] == '$' then "$" + Expand(rep[2..], matched, before, after)
    else if rep[0] == '$' && |rep| >= 2 && rep[1] == '&' then matched + Expand(rep[2..], matched, before, after)
    else if rep[0] == '$' && |rep| >= 2 && rep[1] == '`' then before + Expand(rep[2..], matched, before, after)
    else if rep[0] == '$' && |rep| >= 2 && rep[1] == '\'' then after + Expand(rep[2..], matched, before, after)
    else [rep[0]] + Expand(rep[1..], matched, before, after)
  }

  /** A replacement without `$` is inserted as it is. */
  lemma {:induction false} ExpandLiteral(rep: string, matched: string, before: string, after: string)
    requires '$' !in rep
    ensures Expand(rep, matched, before, after) == rep
    decreases |rep|
  {
    if |rep| > 0 {
      ExpandLiteral(rep[1..], matched, before, after);
      assert rep == [rep[0]] + rep[1..];
    }
  }

  /** `s.replace(/t/g, rep)`, the scan resumed at position `i`: every
      non-overlapping occurrence of the literal pattern `t` is replaced by
      the expansion of `rep` for that match. */
  function ReplaceAllFrom(s: string, t: string, rep: string, i: nat): string
    requires |t| > 0 && i <= |s|
    decreases |s| - i
  {
    if |s| - i < |t| then s[i..]
    else if s[i..i + |t|] == t then
      Expand(rep, t, s[..i], s[i + |t|..]) + ReplaceAllFrom(s, t, rep, i + |t|)
    else [s[i]] + ReplaceAllFrom(s, t, rep, i + 1)
  }

  /** `s.replace(/t/g, rep)` for a literal, non-empty pattern `t`. */
  function ReplaceAllJs(s: string, t: string, rep: string): string
    requires |t| > 0
  {
    ReplaceAllFrom(s, t, rep, 0)
  }

  /** With a replacement free of `$`, the scan is the plain textual
      replacement `ReplaceAll`. */
  lemma {:induction false} ReplaceAllFromLiteral(s: string, t: string, rep: string, i: nat)
    requires |t| > 0 && i <= |s| && '$' !in rep
    ensures ReplaceAllFrom(s, t, rep, i) == ReplaceAll(s[i..], t, rep)
    decreases |s| - i, 1
  {
    if |s| - i >= |t| {
      if s[i..i + |t|] == t {
        LiteralHit(s, t, rep, i);
      } else {
        LiteralMiss(s, t, rep, i);
      }
    }
  }

  /** One match of a `$`-free replacement, in both scans. */
  lemma {:induction false} LiteralHit(s: string, t: string, rep: string, i: nat)
    requires |t| > 0 && i + |t| <= |s| && '$' !in rep && s[i..i + |t|] == t
    ensures ReplaceAllFrom(s, t, rep, i) == ReplaceAll(s[i..], t, rep)
    decreases |s| - i, 0
  {
    ReplaceAllFromLiteral(s, t, rep, i + |t|);
    FromHitLiteral(s, t, rep, i);
    ReplaceAllHitAt(s, t, rep, i);
  }

  /** At a match the scan inserts a `$`-free replacement as it is. */
  lemma FromHitLiteral(s: string, t: string, rep: string, i: nat)
    requires |t| > 0 && i + |t| <= |s| && '$' !in rep && s[i..i + |t|] == t
    ensures ReplaceAllFrom(s, t, rep, i) == rep + ReplaceAllFrom(s, t, rep, i + |t|)
  {
    ExpandLiteral(rep, t, s[..i], s[i + |t|..]);
  }

  /** `ReplaceAll` at a match found at position `i`. */
  lemma ReplaceAllHitAt(s: string, t: string, rep: string, i: nat)
    requires |t| > 0 && i + |t| <= |s| && s[i..i + |t|] == t
    ensures ReplaceAll(s[i..], t, rep) == rep + ReplaceAll(s[i + |t|..], t, rep)
  {
    var u := s[i..];
    assert u[..|t|] == t && u[|t|..] == s[i + |t|..];
    ReplaceAllHit(u, t, rep);
  }

  /** One character kept, in both scans. */
  lemma {:induction false} LiteralMiss(s: string, t: string, rep: string, i: nat)
    requires |t| > 0 && i + |t| <= |s| && '$' !in rep && s[i..i + |t|] != t
    ensures ReplaceAllFrom(s, t, rep, i) == ReplaceAll(s[i..], t, rep)
    decreases |s| - i, 0
  {
    ReplaceAllFromLiteral(s, t, rep, i + 1);
    var u := s[i..];
    assert u[..|t|] == s[i..i + |t|] && u[1..] == s[i + 1..] && u[0] == s[i];
    ReplaceAllSkip(u, t, rep);
  }

  /** Text in which the pattern does not occur after `i` comes back
      unchanged from there on, whatever the replacement. */
  lemma {:induction false} ReplaceAllFromAbsent(s: string, t: string, rep: string, i: nat)
    requires |t| > 0 && i <= |s| && !Contains(s[i..], t)
    ensures ReplaceAllFrom(s, t, rep, i) == s[i..]
    decreases |s| - i
  {
    var u := s[i..];
    if |s| - i >= |t| {
      assert u[0..|t|] == s[i..i + |t|];
      if s[i..i + |t|] == t {
        ContainsAt(u, t, 0);
      }
      NotContainsTail(u, t);
      assert u[1..] == s[i + 1..];
      ReplaceAllFromAbsent(s, t, rep, i + 1);
      assert u == [s[i]] + s[i + 1..];
    }
  }

  /** `s.replace(t, rep)` with a string pattern: only the first occurrence. */
  function ReplaceFirst(s: string, t: string, rep: string): (r: string)
    ensures !Contains(s, t) ==> r == s
  {
    var i := IndexOf(s, t);
    if i < 0 then s else s[..i] + rep + s[i + |t|..]
  }

  /** The first-occurrence decomposition, as for `ReplaceAllAfterPrefix`. */
  lemma ReplaceFirstAfterPrefix(a: string, t: string, b: string, rep: string)
    requires |t| > 0
    requires !Contains(a + t[..|t| - 1], t)
    ensures ReplaceFirst(a + t + b, t, rep) == a + rep + b
  {
    var s := a + t + b;
    var x := a + t[..|t| - 1];
    assert OccursAt(s, t, |a|);
    forall j | 0 <= j < |a|
      ensures !OccursAt(s, t, j)
    {
      if OccursAt(s, t, j) {
        assert x[j..j + |t|] == s[j..j + |t|];
        assert OccursAt(x, t, j);
      }
    }
    assert IndexOf(s, t) == |a|;
    assert s[..|a|] == a;
    assert s[|a| + |t|..] == b;
  }

  /** With a one-character pattern and a one-character replacement the
      result keeps the length and swaps that character at every position. */
  lemma {:induction false} ReplaceAllChar(s: string, from: char, to: char)
    ensures |ReplaceAll(s, [from], [to])| == |s|
    ensures forall i :: 0 <= i < |s| ==>
      ReplaceAll(s, [from], [to])[i] == (if s[i] == from then to else s[i])
    decreases |s|
  {
    if |s| > 0 {
      ReplaceAllChar(s[1..], from, to);
      if s[..1] == [from] {
        assert s[1..] == s[|[from]|..];
      }
    }
  }

  function DigitChar(d: nat): char
    requires d < 10
  {
    ('0' as int + d) as char
  }

  /** Decimal rendering of a natural number, as `${n}` prints it. */
  function NatToString(n: nat): (r: string)
    ensures |r| >= 1
    ensures forall i :: 0 <= i < |r| ==> IsDigit(r[i])
    decreases n
  {
    if n < 10 then [DigitChar(n)] else NatToString(n / 10) + [DigitChar(n % 10)]
  }
}

=== FILE: upload_recipients.dfy ===
/** `components/upload-recipients-modal.tsx`: the dialog that takes a file,
    checks its size and type, hands it to `processFile` while a simulated
    progress bar runs, shows the result and tells the page to reload when
    something was imported. */
module UploadRecipients {
  import opened Common
  import opened Text
  import opened FileProcessor

  /** The parts of a browser `File` the dialog looks at; `size` is in bytes. */
  datatype SelectedFile = SelectedFile(name: string, mime: string, size: nat)

  /** The dialog's state. */
  datatype Modal = Modal(
    dragActive: bool,
    file: Option<SelectedFile>,
    uploading: bool,
    result: Option<ProcessingResult>,
    progress: nat)

  /** The state the dialog opens in, and the one `resetModal` restores. */
  const Fresh := Modal(false, None, false, None, 0)

  /** 20 MB, the largest file the dialog takes. */
  const MaxSize: nat := 20 * 1024 * 1024

  const TooLargeAlert := "File size must be less than 20MB"
  const WrongTypeAlert := "Please select a CSV or Excel file"
  const UnknownErrorMessage := "Unknown error occurred"

  // ----- choosing a file -----

  /** The state after an event, with the text of the `alert` it raised. */
  datatype Picked = Picked(modal: Modal, alert: Option<string>)

  /** The type test of `handleFile`: one of the three MIME types, or a name
      ending in `.csv`, `.xlsx` or `.xls` (case-sensitively). */
  predicate Acceptable(f: SelectedFile) {
    f.mime in [CsvMime, XlsMime, XlsxMime]
      || EndsWith(f.name, ".csv") || EndsWith(f.name, ".xlsx") || EndsWith(f.name, ".xls")
  }

  /** `handleFile`: an oversized file is refused first, then a file of the
      wrong type; a refused file changes nothing but raises an alert, and an
      accepted one replaces the chosen file and clears the last result. */
  function HandleFile(m: Modal, f: SelectedFile): (r: Picked)
    ensures f.size > MaxSize ==> r == Picked(m, Some(TooLargeAlert))
    ensures f.size <= MaxSize && !Acceptable(f) ==> r == Picked(m, Some(WrongTypeAlert))
    ensures r.alert.None? <==> f.size <= MaxSize && Acceptable(f)
    ensures r.alert.None? ==> r.modal == m.(file := Some(f), result := None)
  {
    if f.size > MaxSize then Picked(m, Some(TooLargeAlert))
    else if Acceptable(f) then Picked(m.(file := Some(f), result := None), None)
    else Picked(m, Some(WrongTypeAlert))
  }

  /** The dialog takes exactly the files of at most 20 MB that `processFile`
      knows how to read: its type test and the reader's dispatch agree. */
  lemma AcceptedIsReadable(m: Modal, f: SelectedFile)
    ensures HandleFile(m, f).alert.None? <==> f.size <= MaxSize && KindOf(f.name, f.mime) != UnsupportedFile
  {
  }

  /** A file of exactly 20 MB is still taken; one byte more is refused. */
  lemma SizeLimitInclusive(m: Modal, name: string)
    requires name == "list.csv"
    ensures HandleFile(m, SelectedFile(name, "", MaxSize)).alert.None?
    ensures HandleFile(m, SelectedFile(name, "", MaxSize + 1)).alert == Some(TooLargeAlert)
  {
    assert name[|name| - 4..] == ".csv";
  }

  /** `handleDrag`: entering or moving over the drop zone lights it up,
      leaving it turns it off, any other drag event changes nothing. */
  function HandleDrag(m: Modal, eventType: string): (r: Modal)
    ensures r.(dragActive := m.dragActive) == m
    ensures eventType == "dragenter" || eventType == "dragover" ==> r.dragActive
    ensures eventType == "dragleave" ==> !r.dragActive
    ensures eventType !in {"dragenter", "dragover", "dragleave"} ==> r == m
  {
    if eventType == "dragenter" || eventType == "dragover" then m.(dragActive := true)
    else if eventType == "dragleave" then m.(dragActive := false)
    else m
  }

  /** `handleDrop`: the drop zone goes dark and the first dropped file, if
      any, goes through `handleFile`. */
  function HandleDrop(m: Modal, files: seq<SelectedFile>): (r: Picked)
    ensures !r.modal.dragActive
    ensures files == [] ==> r == Picked(m.(dragActive := false), None)
    ensures files != [] ==> r == HandleFile(m.(dragActive := false), files[0])
  {
    var dark := m.(dragActive := false);
    if |files| > 0 then HandleFile(dark, files[0]) else Picked(dark, None)
  }

  /** Dropping files picks the first one: the others are ignored. */
  lemma DropTakesFirst(m: Modal, f: SelectedFile, rest: seq<SelectedFile>)
    requires f.size <= MaxSize && Acceptable(f)
    ensures HandleDrop(m, [f] + rest).modal.file == Some(f)
  {
  }

  // ----- the simulated progress bar -----

  /** One firing of the progress interval: ten points more, held at 90
      once 90 is reached. */
  function Tick(p: nat): (r: nat)
    ensures p < 90 ==> r == p + 10
    ensures p >= 90 ==> r == 90
  {
    if p >= 90 then 90 else p + 10
  }

  /** The bar after `n` firings of the interval from 0. */
  function ProgressAfter(n: nat): nat {
    if n == 0 then 0 else Tick(ProgressAfter(n - 1))
  }

  /** The bar climbs by ten a firing and stops at 90: it never shows more
      than 90 while the file is processed. */
  lemma {:induction false} ProgressCapped(n: nat)
    ensures ProgressAfter(n) == Min(10 * n, 90)
  {
    if n > 0 {
      ProgressCapped(n - 1);
    }
  }

  /** The bar never goes back while it runs. */
  lemma {:induction false} ProgressMonotone(i: nat, j: nat)
    requires i <= j
    ensures ProgressAfter(i) <= ProgressAfter(j)
  {
    ProgressCapped(i);
    ProgressCapped(j);
  }

  // ----- uploading -----

  /** How the awaited `processFile` settled: with a result, or by throwing. */
  datatype Settled = Returned(result: ProcessingResult) | Threw(error: Thrown)

  /** The state after `handleUpload`, and whether `onSuccess` is scheduled. */
  datatype Uploaded = Uploaded(modal: Modal, notified: bool)

  /** The result the `catch` block shows for a thrown value. */
  function CaughtResult(t: Thrown): (r: ProcessingResult)
    ensures !r.success && r.processed == 0 && r.updated == 0 && r.created == 0 && r.duplicates == 0
    ensures r.errors == [MessageOf(t, UnknownErrorMessage)]
  {
    Failure(MessageOf(t, UnknownErrorMessage))
  }

  /** `handleUpload` for a signed-in user `user`, with the interval firing
      `ticks` times before `processFile` settles as `settled`. Without a
      file or a user nothing happens. Otherwise the upload ends with
      `uploading` cleared and a result on show: the returned one with the bar
      at 100, or, when `processFile` threw, the caught failure with the bar
      left where the still-running interval puts it. `onSuccess` is
      scheduled exactly when the returned result succeeded and processed
      at least one recipient. */
  function Upload(m: Modal, user: Option<string>, ticks: nat, settled: Settled): (r: Uploaded)
    ensures m.file.None? || user.None? ==> r == Uploaded(m, false)
    ensures m.file.Some? && user.Some? ==>
      && r.modal.file == m.file && r.modal.dragActive == m.dragActive
      && !r.modal.uploading && r.modal.result.Some?
      && (settled.Returned? ==> r.modal.result == Some(settled.result) && r.modal.progress == 100)
      && (settled.Threw? ==> r.modal.result == Some(CaughtResult(settled.error)) && r.modal.progress <= 90)
    ensures r.notified <==> m.file.Some? && user.Some? && settled.Returned? && settled.result.success && settled.result.processed > 0
  {
    if m.file.None? || user.None? then Uploaded(m, false)
    else
      var running := m.(uploading := true, progress := ProgressAfter(ticks));
      ProgressCapped(ticks);
      match settled
      case Returned(res) =>
        Uploaded(running.(progress := 100, result := Some(res), uploading := false), res.success && res.processed > 0)
      case Threw(t) =>
        Uploaded(running.(result := Some(CaughtResult(t)), uploading := false), false)
  }

  /** A failed upload never reloads the page, and nor does a file whose
      every row was a duplicate of an earlier one. */
  lemma NoNotifyWithoutImport(m: Modal, user: Option<string>, ticks: nat, settled: Settled)
    requires settled.Threw? || !settled.result.success || settled.result.processed == 0
    ensures !Upload(m, user, ticks, settled).notified
  {
  }

  /** Uploading again after an upload shows the new result only. */
  lemma UploadReplacesResult(m: Modal, user: string, ticks: nat, first: Settled, second: Settled)
    requires m.file.Some?
    ensures var once := Upload(m, Some(user), ticks, first).modal;
      Upload(once, Some(user), ticks, second).modal.result == Upload(m, Some(user), ticks, second).modal.result
  {
  }

  // ----- closing -----

  /** `handleClose`: the new state, and whether `onClose` was called. */
  datatype Closing = Closing(modal: Modal, closed: bool)

  /** `handleClose`: ignored while an upload runs; otherwise the dialog is
      reset and closed. */
  function HandleClose(m: Modal): (r: Closing)
    ensures m.uploading ==> r == Closing(m, false)
    ensures !m.uploading ==> r.closed && r.modal == Fresh
  {
    if m.uploading then Closing(m, false) else Closing(Fresh, true)
  }

  /** A dialog closed and opened again starts from scratch, whatever was
      chosen or shown before. */
  lemma CloseForgets(m: Modal, f: SelectedFile)
    requires !m.uploading
    ensures HandleClose(HandleFile(m, f).modal).modal == Fresh
  {
  }

  /** An upload in flight cannot be closed: the dialog stays open until
      `processFile` settles. */
  lemma UploadingBlocksClose(m: Modal, ticks: nat)
    requires m.file.Some?
    ensures var running := m.(uploading := true, progress := ProgressAfter(ticks));
      !HandleClose(running).closed && HandleClose(running).modal == running
  {
  }
}
